=== FILE: README.md ===
# ICAP bitstream and clock lifecycle of the xocl driver, in Dafny

This project models the core of the xocl ICAP subdevice
(`src/runtime_src/core/pcie/driver/linux/xocl/subdev/icap.c`). That subdevice
programs an Alveo FPGA's dynamic region through the Internal Configuration
Access Port (ICAP) and keeps the matching clock and metadata state. The model
covers the following parts.

- **Clock steps**:
  - the 40-entry `frequency_table`;
  - the clamped floor lookup `find_matching_freq_config`;
  - the Clocking Wizard v5.1 register decode of `icap_get_ocl_frequency` (module `ClockTable`).
- **Hardware reads** (module `Registers`):
  - every register read whose value the driver uses is one value of an oracle `rd: nat -> u32`, read at a cursor that each operation threads through;
  - reads whose value is discarded, such as the gate register reads of the freeze and free paths, are not modelled;
  - the polling loops are `wait_for_done`, the strobe wait of `icap_write`, the clock lock wait and `calibrate_mig`.
- **Clock scaling** (module `FreqScaling`): `icap_ocl_freqscaling`, `set_freqs`, the counter read and `set_and_verify_freqs`.
- **Clock policy** (module `ClockPolicy`):
  - `icap_setup_clock_freq_topology`;
  - `axlf_set_freqscaling`;
  - the override bounds check of `icap_ocl_update_clock_freq_topology`.
- **The legacy `.bit` header parser** `bitstream_parse_header` (module `BitHeader`). It is proved to round-trip with an encoder.
- **Payload streaming** (module `Stream`):
  - `bitstream_helper` as a function and as the driver's loop;
  - the 1 KiB chunking of `icap_download` and `icap_download_hw`;
  - the clearing bitstream.
- **The xclbin (AXLF) section table** (module `Axlf`): `get_axlf_section_hdr` and `alloc_and_get_axlf_section`.
- **The device record** (module `IcapState`):
  - the gate freeze flag, the staged clearing bitstream and the metadata caches;
  - `icap_parse_bitstream_axlf_section` and `icap_clean_bitstream_axlf`.
- **The lifecycle** (module `Lifecycle`):
  - locking and unlocking;
  - reset gating;
  - the signature policy;
  - `__icap_xclbin_download`;
  - the bookkeeping of `icap_download_bitstream_axlf`.
- **Small helpers**:
  - `convert_mem_type` and `icap_get_memidx` (module `MemTopology`);
  - the peer cache expiry (module `PeerCache`);
  - the signing keyring user count (module `Keyring`).

Errors are Linux errno names (`Errors.Errno`). Three model-only outcomes mark what the driver does not return but would suffer:

- `OutOfRange`: a read past the end of a buffer;
- `BugOn`: a `BUG_ON` firing;
- `NullDeref`: a dereference of an absent register block.

Fixed-width C arithmetic is written out: `Wrap32`, `Wrap64`, and `Signed32` for an `int` that holds a register value. There are three exceptions, listed under "## Findings". In each, an unsigned sum or product can wrap. The as-written version is modelled and compared with a corrected one, and the operations built on it use the corrected version (see "## Left out").

Two behaviours of the code that a reader might not expect:

- A download refused with EBUSY because the xclbin is locked still runs the failure bookkeeping (`icap.c:2354-2355`). That bookkeeping forgets the loaded uuid. The holder's later unlock is therefore EINVAL, and the lock can only be cleared by a forced unlock (`Lifecycle.BusyDownloadStrandsLock`).
- On the user function, a failed peer download still stores the container's clock topology (`Lifecycle.FailedPeerDownloadStoresTopology`).

Source paths below are relative to the repository root.

## Model

| member | source | states |
|---|---|---|
| ClockTable.TableStrictlyAscending | src/runtime_src/core/pcie/driver/linux/xocl/subdev/icap.c:205-246 | the step table has 40 entries, from 60 to 500 MHz, strictly ascending |
| ClockTable.FloorIn | src/runtime_src/core/pcie/driver/linux/xocl/subdev/icap.c:319-344 | reference lookup: an in-range index, the last one at or above the top step, an entry at or below the request, and the next entry above it |
| ClockTable.FloorInIsGreatestAtOrBelow | src/runtime_src/core/pcie/driver/linux/xocl/subdev/icap.c:319-344 | the lookup never rounds up: every step at or below the request has an index at most the result |
| ClockTable.FloorInOfEntry | src/runtime_src/core/pcie/driver/linux/xocl/subdev/icap.c:319-344 | looking up a step's own frequency finds that step |
| ClockTable.FloorInMonotone | src/runtime_src/core/pcie/driver/linux/xocl/subdev/icap.c:319-344 | the lookup is monotone in the request |
| ClockTable.FloorInUnique | src/runtime_src/core/pcie/driver/linux/xocl/subdev/icap.c:319-344 | any index with the floor's properties is the floor |
| ClockTable.FindMatchingFreqConfig | src/runtime_src/core/pcie/driver/linux/xocl/subdev/icap.c:319-344 | the driver's binary search (with its early exits and final step back) returns an index whose step is at or below the request and whose successor is above it; 0 below the first step, the last index above the last |
| ClockTable.FindMatchingFreqConfigOfTable | src/runtime_src/core/pcie/driver/linux/xocl/subdev/icap.c:319-344 | over the driver's table the binary search computes exactly the reference floor lookup |
| ClockTable.FloorStepSpec | src/runtime_src/core/pcie/driver/linux/xocl/subdev/icap.c:325-329 | requests below 60 MHz give index 0, above 500 MHz index 39, in between the greatest step at or below; every step finds itself |
| ClockTable.FloorStepMonotone | src/runtime_src/core/pcie/driver/linux/xocl/subdev/icap.c:319-344 | a higher request never resolves to a lower step |
| ClockTable.MatchingFreq | src/runtime_src/core/pcie/driver/linux/xocl/subdev/icap.c:346-351 | find_matching_freq returns a step frequency in 60..500, at most the request once the request is at least 60 |
| ClockTable.Div0 | src/runtime_src/core/pcie/driver/linux/xocl/subdev/icap.c:376 | the input divider is CONFIG0 bits 7:0 |
| ClockTable.MultiplierMilli | src/runtime_src/core/pcie/driver/linux/xocl/subdev/icap.c:377-388 | the multiplier in thousandths, fraction only when bit 26 is set, bounded by 256023 |
| ClockTable.Div1Milli | src/runtime_src/core/pcie/driver/linux/xocl/subdev/icap.c:393-405 | the output divider in thousandths, fraction only when bit 18 is set, bounded by 256023 |
| ClockTable.Decode | src/runtime_src/core/pcie/driver/linux/xocl/subdev/icap.c:406-412 | a zero combined divider reads as 0 MHz |
| ClockTable.DecodeIsRoundedDownFrequency | src/runtime_src/core/pcie/driver/linux/xocl/subdev/icap.c:412 | whenever the result fits 16 bits, it is the rounded-down quotient of numerator by divider |
| ClockTable.DecodeTruncatesLargeFrequency | src/runtime_src/core/pcie/driver/linux/xocl/subdev/icap.c:412 | a frequency of 65536 MHz or more comes back through the 16-bit result short by a positive multiple of 65536, that is, reduced modulo 2^16 |
| ClockTable.DecodeAsWritten | src/runtime_src/core/pcie/driver/linux/xocl/subdev/icap.c:406 | the decode with the u32 `div0 *= div1` agrees with the exact decode whenever the product does not wrap |
| ClockTable.DecodeIntegral | src/runtime_src/core/pcie/driver/linux/xocl/subdev/icap.c:374-412 | for an integral setting (no fractions, input divider 1) the decode is 100 * multiplier / divider |
| ClockTable.AllEntriesDecode | src/runtime_src/core/pcie/driver/linux/xocl/subdev/icap.c:205-246 | every table entry is an integral setting whose quotient is its frequency |
| ClockTable.TableDecodeRoundTrip | src/runtime_src/core/pcie/driver/linux/xocl/subdev/icap.c:205-246 | decoding any entry's registers gives back its frequency, as written too, and looking that up returns the same index |
| ClockTable.DecodeWrapCounterexample | src/runtime_src/core/pcie/driver/linux/xocl/subdev/icap.c:406 | CONFIG0 0xFF41 and CONFIG2 0x44D42 make the divider product reach 2^32: the true frequency is 5 MHz, the driver reports 20960 |
| Bytes.Signed32 | src/runtime_src/core/pcie/driver/linux/xocl/subdev/icap.c:1171-1177 | a u32 read into an `int` is its two's-complement value, non-negative exactly below 2^31 |
| Bytes.Signed32Wraps | src/runtime_src/core/pcie/driver/linux/xocl/subdev/icap.c:1171-1183 | storing that int back in an unsigned gives the register value again |
| Bytes.BE32 | src/runtime_src/core/pcie/driver/linux/xocl/subdev/icap.c:984 | four bytes in big-endian order: the first is the top byte |
| Bytes.Words | src/runtime_src/core/pcie/driver/linux/xocl/subdev/icap.c:1225-1226 | a buffer gives its length / 4 big-endian words, each made of its four bytes; trailing bytes are dropped |
| Bytes.WordsAppend | src/runtime_src/core/pcie/driver/linux/xocl/subdev/icap.c:1219-1230 | splitting a buffer at a word boundary splits its words |
| Registers.FirstHitSpec | src/runtime_src/core/pcie/driver/linux/xocl/subdev/icap.c:966-972 | a poll's hit is the first read satisfying the condition, and there is none exactly when no read in range satisfies it |
| Registers.Poll | src/runtime_src/core/pcie/driver/linux/xocl/subdev/icap.c:966-975 | success stops just after the hit, failure consumes all n reads and reports the given error |
| Registers.PollSpec | src/runtime_src/core/pcie/driver/linux/xocl/subdev/icap.c:966-975 | a poll passes exactly when one of its n reads satisfies the condition, and stops at the first |
| Registers.WriteStrobe | src/runtime_src/core/pcie/driver/linux/xocl/subdev/icap.c:988-998 | the strobe wait reads at most 20 times and fails only with EIO |
| Registers.WriteStrobeSpec | src/runtime_src/core/pcie/driver/linux/xocl/subdev/icap.c:990-998 | the strobe wait passes exactly when one of its 20 reads has bit 0 clear |
| Registers.WriteStrobeLoop | src/runtime_src/core/pcie/driver/linux/xocl/subdev/icap.c:990-998 | the driver's loop computes the same outcome and cursor as the functional strobe wait |
| Registers.WaitForDone | src/runtime_src/core/pcie/driver/linux/xocl/subdev/icap.c:961-976 | at most 10 status reads; failure is ETIMEDOUT after all 10 |
| Registers.WaitForDoneSpec | src/runtime_src/core/pcie/driver/linux/xocl/subdev/icap.c:966-975 | the wait passes exactly when one of its reads has bit 0 or bit 2 set (`w & 0x5`), and then its last read is that one |
| Registers.LockStatus | src/runtime_src/core/pcie/driver/linux/xocl/subdev/icap.c:545-552 | the lock wait always takes exactly 100 reads |
| Registers.LockStatusLoop | src/runtime_src/core/pcie/driver/linux/xocl/subdev/icap.c:545-553 | the loop never leaves early: the value it ends with is the 100th read, whatever the earlier ones were |
| Registers.PollThenRead | src/runtime_src/core/pcie/driver/linux/xocl/subdev/icap.c:446-453 | a poll of n reads followed by one more read: the poll stops at its first hit, two reads before the end, or runs all n reads |
| Registers.ReadAfterPollUnique | src/runtime_src/core/pcie/driver/linux/xocl/subdev/icap.c:446-453 | the reads determine where that final read lands: only one position qualifies |
| Registers.CalibrateMig | src/runtime_src/core/pcie/driver/linux/xocl/subdev/icap.c:853-873 | up to 20 checks stopping at the first calibrated one, then one deciding read; success exactly when that read shows calibration; no state register means ETIMEDOUT without reading |
| Registers.CalibrationNeedsTwoReadings | src/runtime_src/core/pcie/driver/linux/xocl/subdev/icap.c:863-870 | a pass saw the calibrated bit in the deciding read and, unless all 20 checks failed, in the read just before it; no earlier check saw it |
| FreqScaling.OclFrequency | src/runtime_src/core/pcie/driver/linux/xocl/subdev/icap.c:366-412 | 0 without a wizard or without lock (no further read); otherwise the decode of CONFIG0 and CONFIG2, read after the status |
| FreqScaling.OclFrequencyOfProgrammedStep | src/runtime_src/core/pcie/driver/linux/xocl/subdev/icap.c:366-412 | a locked wizard holding step i's registers reads back as step i's frequency, which looks up to i |
| FreqScaling.ScaleClock | src/runtime_src/core/pcie/driver/linux/xocl/subdev/icap.c:505-571 | one clock: a zero request does nothing; the skip when already in the step unless forced; past the skip, forced or not: a missing wizard is a null dereference, a status other than 1 is EBUSY with nothing written, and a status of 1 programs the step, after which success holds exactly when the lock reading is 1; a timed-out lock writes the step and its restore |
| FreqScaling.ScaleFrom | src/runtime_src/core/pcie/driver/linux/xocl/subdev/icap.c:505-575 | the loop writes only to requested clocks in ascending order, stops at the first failure, and a passing run only programs |
| FreqScaling.ForcedScalingProgramsEveryRequest | src/runtime_src/core/pcie/driver/linux/xocl/subdev/icap.c:505-575 | a forced scaling that passes programs every requested clock, once, in clock order |
| FreqScaling.TimedOutScalingEndsInRestore | src/runtime_src/core/pcie/driver/linux/xocl/subdev/icap.c:553-564 | a scaling that fails with ETIMEDOUT ends with the restore of the clock it programmed last |
| FreqScaling.TimedOutClockEndsInRestore | src/runtime_src/core/pcie/driver/linux/xocl/subdev/icap.c:553-564 | a clock that times out is programmed and then restored |
| FreqScaling.Freqscaling | src/runtime_src/core/pcie/driver/linux/xocl/subdev/icap.c:495-575 | over the four clocks the writes go to requested clocks in order; errors are EBUSY, ETIMEDOUT or the absent-wizard dereference |
| FreqScaling.FreqscalingNothingRequested | src/runtime_src/core/pcie/driver/linux/xocl/subdev/icap.c:505-508 | with no request, scaling reads and writes nothing |
| FreqScaling.BusyFrom | src/runtime_src/core/pcie/driver/linux/xocl/subdev/icap.c:674-688 | the busy pre-check is true exactly when one of its status reads has bit 0 clear, and then stops at it |
| FreqScaling.StoreRequests | src/runtime_src/core/pcie/driver/linux/xocl/subdev/icap.c:690-691 | the first min(4, n) stored requests are replaced, the others kept |
| FreqScaling.SetFreqs | src/runtime_src/core/pcie/driver/linux/xocl/subdev/icap.c:668-700 | busy: EBUSY and nothing changes; otherwise the requests are stored, scaling runs unforced, the gate ends free; only requests and gate change |
| FreqScaling.CounterKhz | src/runtime_src/core/pcie/driver/linux/xocl/subdev/icap.c:431-486 | 0 with no xclbin, no counter block, clock past 2 or a missing HBM counter; otherwise the count is the read right after the first status poll that reads 2, or the 11th read when none of the 10 polls does |
| FreqScaling.ReadyCounterIsReadNext | src/runtime_src/core/pcie/driver/linux/xocl/subdev/icap.c:446-453 | a counter ready at its first poll is read right after it, in two reads |
| FreqScaling.UnreadyCounterIsReadAfterTenPolls | src/runtime_src/core/pcie/driver/linux/xocl/subdev/icap.c:446-453 | a counter that is never ready is still read, after all ten polls |
| FreqScaling.OutOfToleranceIsExact | src/runtime_src/core/pcie/driver/linux/xocl/subdev/icap.c:716-720 | the driver's u32 subtraction and `abs` test is exactly abs(counter - 1000 f) > 50 f for every step frequency |
| FreqScaling.VerifyFrom | src/runtime_src/core/pcie/driver/linux/xocl/subdev/icap.c:712-726 | readings are of requested clocks in ascending order; the result is Pass or EDOM, EDOM exactly when the last reading deviates, all earlier ones accepted |
| FreqScaling.PassedVerificationReadEveryRequest | src/runtime_src/core/pcie/driver/linux/xocl/subdev/icap.c:712-726 | a passing verification read every requested clock |
| FreqScaling.SetAndVerifyFreqs | src/runtime_src/core/pcie/driver/linux/xocl/subdev/icap.c:702-729 | a failing set_freqs is returned without a reading; otherwise the verification of the requested clocks decides |
| FreqScaling.VerifyPassIsInTolerance | src/runtime_src/core/pcie/driver/linux/xocl/subdev/icap.c:712-726 | a passing verification has an in-tolerance reading for every requested clock |
| FreqScaling.VerifyFailureIsOutOfTolerance | src/runtime_src/core/pcie/driver/linux/xocl/subdev/icap.c:720-724 | a failing verification stops at a requested clock whose only reading is out of tolerance |
| ClockPolicy.SlotOf | src/runtime_src/core/pcie/driver/linux/xocl/subdev/icap.c:913-928 | system clocks go to slot 2, data to 0, kernel to 1; other types stop the copy |
| ClockPolicy.ArrangeFromFailsOnOverrun | src/runtime_src/core/pcie/driver/linux/xocl/subdev/icap.c:908-931 | the copy fails exactly when the count reaches past the section or a copied entry's slot lies past the copy allocated with the section's size |
| ClockPolicy.ArrangeFromKeepsLastOfEachType | src/runtime_src/core/pcie/driver/linux/xocl/subdev/icap.c:919-931 | a copy that succeeds leaves each slot holding the last copied entry of its type, or its old value |
| ClockPolicy.SetupClockFreqTopology | src/runtime_src/core/pcie/driver/linux/xocl/subdev/icap.c:890-934 | without a usable header the stored topology stays; otherwise it is the declared count and a copy exactly as long as the section, holding the entries in slot order and zero entries elsewhere; nothing else changes |
| ClockPolicy.ShortSectionWithSystemClockOverruns | src/runtime_src/core/pcie/driver/linux/xocl/subdev/icap.c:908-922 | a one-entry section holding a system clock writes slot 2 of a copy with room for one entry: OutOfRange |
| ClockPolicy.TargetsMeetRequests | src/runtime_src/core/pcie/driver/linux/xocl/subdev/icap.c:1709-1726 | for an accepted shape the requests are data, kernel, then the system clocks in order, unused slots 0 |
| ClockPolicy.RequestsAreUnique | src/runtime_src/core/pcie/driver/linux/xocl/subdev/icap.c:1709-1726 | the request list is determined by the topology |
| ClockPolicy.AxlfSetFreqscaling | src/runtime_src/core/pcie/driver/linux/xocl/subdev/icap.c:1657-1733 | no topology: nothing; more than 4 clocks or a wrong shape: EDOM with no register touched; otherwise set_freqs of the four requests |
| ClockPolicy.SecondSystemClockIsNeverRequested | src/runtime_src/core/pcie/driver/linux/xocl/subdev/icap.c:921-922 | a slot-ordered topology never requests the fourth clock, because both system clocks share slot 2 |
| ClockPolicy.DownloadLeavesFourthClockAlone | src/runtime_src/core/pcie/driver/linux/xocl/subdev/icap.c:2234-2237 | after a topology is stored from a section, axlf_set_freqscaling reads past the stored copy when the declared count exceeds the section's entries, and otherwise requests nothing of clock 3 |
| ClockPolicy.ShortSectionIsOverreadLater | src/runtime_src/core/pcie/driver/linux/xocl/subdev/icap.c:903-928 | a section declaring four clocks but holding one unused entry sets up without error into a one-entry copy, which axlf_set_freqscaling and the bounds lookup then read past: OutOfRange |
| ClockPolicy.FreqMaxMin | src/runtime_src/core/pcie/driver/linux/xocl/subdev/icap.c:754-779 | bounds stay (0, 0) without an xclbin or topology or past the declared count; otherwise (the topology's frequency, 60) |
| ClockPolicy.BoundsFromIsWithinBounds | src/runtime_src/core/pcie/driver/linux/xocl/subdev/icap.c:800-820 | the override check passes exactly when every non-zero request lies within its bounds |
| ClockPolicy.UpdateClockFreqTopology | src/runtime_src/core/pcie/driver/linux/xocl/subdev/icap.c:781-833 | no xclbin or no topology or a request out of bounds: EDOM with nothing written; otherwise set_and_verify_freqs of all four |
| ClockPolicy.RequestPastDeclaredClocksIsRefused | src/runtime_src/core/pcie/driver/linux/xocl/subdev/icap.c:769-770 | a request for a clock past the declared count is always refused, with no write |
| BitHeader.Next | src/runtime_src/core/pcie/driver/linux/xocl/subdev/icap.c:1045 | `data[index++]` succeeds exactly inside the buffer and advances a u32 cursor |
| BitHeader.MagicLoop | src/runtime_src/core/pcie/driver/linux/xocl/subdev/icap.c:1049-1057 | the magic run alternates 0x0f at even and 0xf0 at odd iterations; success ends count - i bytes on |
| BitHeader.FieldSpec | src/runtime_src/core/pcie/driver/linux/xocl/subdev/icap.c:1071-1088 | a field reads back exactly when the bytes have the tag, length, contents ending in NUL, and then they are the field's encoding |
| BitHeader.PreambleLayout | src/runtime_src/core/pcie/driver/linux/xocl/subdev/icap.c:1044-1068 | a magic run that checks out ends at M + 1 and the preamble bytes are its encoding |
| BitHeader.Parse | src/runtime_src/core/pcie/driver/linux/xocl/subdev/icap.c:1028-1164 | the parser fails only with EINVAL or a read out of range |
| BitHeader.ParseEncode | src/runtime_src/core/pcie/driver/linux/xocl/subdev/icap.c:1028-1164 | parsing an encoded header, whatever follows it, gives back every field and a header length of M + 21 + the string lengths |
| BitHeader.ParseIsEncoding | src/runtime_src/core/pcie/driver/linux/xocl/subdev/icap.c:1028-1164 | every accepted input begins with exactly the encoding of the header it reports |
| BitHeader.MagicLengthZeroNeverParses | src/runtime_src/core/pcie/driver/linux/xocl/subdev/icap.c:1049 | a magic length of 0 never parses: the loop runs 2^32 - 1 times and either leaves the data or reads byte 0 as a magic byte |
| BitHeader.Be32BytesOfBE32 | src/runtime_src/core/pcie/driver/linux/xocl/subdev/icap.c:1153-1156 | splitting an assembled big-endian length gives back its bytes |
| Stream.HelperQueuesInOrder | src/runtime_src/core/pcie/driver/linux/xocl/subdev/icap.c:1166-1193 | the helper pushes a prefix of its words in order, all of them when it passes; every failure is EIO |
| Stream.HelperStep | src/runtime_src/core/pcie/driver/linux/xocl/subdev/icap.c:1176-1189 | one burst sends min(vacancy, remaining) words; a failed strobe ends with EIO, a passed one continues after them |
| Stream.BitstreamHelper | src/runtime_src/core/pcie/driver/linux/xocl/subdev/icap.c:1166-1193 | what is pushed is a prefix of the words, all of them on success; failures are EIO |
| Stream.BitstreamHelperLoop | src/runtime_src/core/pcie/driver/linux/xocl/subdev/icap.c:1174-1192 | the driver's loop over bursts computes the same transfer as the functional helper |
| Stream.HelperOneBurst | src/runtime_src/core/pcie/driver/linux/xocl/subdev/icap.c:1176-1190 | with room for all words and an immediate strobe the buffer goes in one burst and two reads |
| Stream.ChunkSizesCover | src/runtime_src/core/pcie/driver/linux/xocl/subdev/icap.c:1219-1223 | chunks are non-empty, at most 1024 bytes, all but the last exactly 1024, and sum to the payload length |
| Stream.ChunksFrom | src/runtime_src/core/pcie/driver/linux/xocl/subdev/icap.c:1219-1230 | the chunk loop pushes a prefix of the payload's words, all of them when it passes; failures are EIO |
| Stream.WordsOfChunks | src/runtime_src/core/pcie/driver/linux/xocl/subdev/icap.c:1225-1229 | a full or final chunk contributes exactly its own words |
| Stream.PayloadFitsAsWritten | src/runtime_src/core/pcie/driver/linux/xocl/subdev/icap.c:1212 | the u32 length check agrees with the exact check whenever the sum does not wrap |
| Stream.StreamBitFile | src/runtime_src/core/pcie/driver/linux/xocl/subdev/icap.c:1206-1232 | a header that does not parse or whose data runs past the buffer is EINVAL before any push; a pass pushed exactly the payload's words |
| Stream.StreamPayload | src/runtime_src/core/pcie/driver/linux/xocl/subdev/icap.c:1217-1232 | the payload's words are pushed in order, all of them on success, followed by the wait for done |
| Stream.Download | src/runtime_src/core/pcie/driver/linux/xocl/subdev/icap.c:1195-1240 | an empty buffer is a BUG_ON; otherwise the shared parse-check-stream path |
| Stream.PayloadLengthWrapCounterexample | src/runtime_src/core/pcie/driver/linux/xocl/subdev/icap.c:1212 | a 26-byte file declaring 2^32 - 16 data bytes passes the as-written check while the exact check refuses it |
| Stream.DownloadClearBitstream | src/runtime_src/core/pcie/driver/linux/xocl/subdev/icap.c:1513-1528 | nothing staged: success without reads; otherwise the staged bitstream is streamed and dropped whatever the outcome |
| Stream.ClearBitstreamUsedOnce | src/runtime_src/core/pcie/driver/linux/xocl/subdev/icap.c:1526 | a staged clearing bitstream is streamed at most once |
| Stream.DownloadHw | src/runtime_src/core/pcie/driver/linux/xocl/subdev/icap.c:1736-1798 | a frozen gate is a BUG_ON; otherwise clear, stream, forced scaling in that order, the staged bitstream dropped and the gate freed on every path |
| Stream.DownloadSteps | src/runtime_src/core/pcie/driver/linux/xocl/subdev/icap.c:1748-1789 | each step runs only when all before it passed, and clocks are written only after a pass of both bitstreams |
| Axlf.FirstOfKind | src/runtime_src/core/pcie/driver/linux/xocl/subdev/icap.c:1248-1253 | the first section header of the kind, none exactly when no header has it |
| Axlf.SectionHeaderOf | src/runtime_src/core/pcie/driver/linux/xocl/subdev/icap.c:1242-1269 | a header found has the kind, fits the container and is one of its headers |
| Axlf.SectionHeaderOfIsFirstMatch | src/runtime_src/core/pcie/driver/linux/xocl/subdev/icap.c:1248-1264 | the first header of the kind is returned when it fits and nothing otherwise; later headers are not tried |
| Axlf.SectionHeaderOfMissing | src/runtime_src/core/pcie/driver/linux/xocl/subdev/icap.c:1264-1266 | no header of the kind: nothing found |
| Axlf.SectionHeaderOfAsWritten | src/runtime_src/core/pcie/driver/linux/xocl/subdev/icap.c:1256-1257 | the u64 bounds check agrees with the exact one whenever no offset + size wraps |
| Axlf.SectionBoundsWrapCounterexample | src/runtime_src/core/pcie/driver/linux/xocl/subdev/icap.c:1256-1257 | offset 2^64 - 1 and size 2 pass the as-written check of a 16-byte container; the exact check refuses them |
| Axlf.SectionBytes | src/runtime_src/core/pcie/driver/linux/xocl/subdev/icap.c:1286-1287 | the copy is exactly bytes [offset, offset + size) of the image, or OutOfRange when the image is shorter |
| Axlf.AllocAndGetSection | src/runtime_src/core/pcie/driver/linux/xocl/subdev/icap.c:1271-1292 | no usable header: EINVAL; otherwise exactly the section's bytes |
| Axlf.AllocAndGetSectionOfCompleteImage | src/runtime_src/core/pcie/driver/linux/xocl/subdev/icap.c:1279-1291 | for an image holding all it claims, a found section is always copied, and the copy is the image slice |
| IcapState.FreezeGate | src/runtime_src/core/pcie/driver/linux/xocl/subdev/icap.c:583-617 | freezing a frozen gate is a BUG_ON; otherwise only the flag changes |
| IcapState.FreeGate | src/runtime_src/core/pcie/driver/linux/xocl/subdev/icap.c:619-648 | the gate ends free, and an unfrozen gate is left as it is |
| IcapState.FreeGateUndoesFreeze | src/runtime_src/core/pcie/driver/linux/xocl/subdev/icap.c:583-648 | freeing undoes freezing, and freeing twice is freeing once |
| IcapState.InUse | src/runtime_src/core/pcie/driver/linux/xocl/subdev/icap.c:577-581 | a negative count is a BUG_ON; otherwise in use exactly when the count is positive |
| IcapState.SetupClearBitstream | src/runtime_src/core/pcie/driver/linux/xocl/subdev/icap.c:943-959 | the staged copy becomes the buffer (none when empty); nothing else changes |
| IcapState.DropTarget | src/runtime_src/core/pcie/driver/linux/xocl/subdev/icap.c:2523-2526 | the target of the kind is freed and nothing outside it changes |
| IcapState.ParseSection | src/runtime_src/core/pcie/driver/linux/xocl/subdev/icap.c:2493-2545 | bad magic or unsupported kind: EINVAL, no change; otherwise the target is replaced by the section when it is large enough, left empty on any failure; nothing else changes |
| IcapState.CleanBitstreamAxlf | src/runtime_src/core/pcie/driver/linux/xocl/subdev/icap.c:1800-1836 | the uuid is nulled and the four metadata copies dropped; the clock topology and everything else stay |
| IcapState.CleanBitstreamAxlfIdempotent | src/runtime_src/core/pcie/driver/linux/xocl/subdev/icap.c:1827-1836 | cleaning twice is cleaning once |
| Lifecycle.LockBitstream | src/runtime_src/core/pcie/driver/linux/xocl/subdev/icap.c:2429-2457 | null id: BUG_ON; another id: EBUSY, no change; the loaded id: one more reference, reset notified exactly on the first |
| Lifecycle.UnlockBitstream | src/runtime_src/core/pcie/driver/linux/xocl/subdev/icap.c:2459-2491 | null id: count 0; loaded id: count - 1 unchecked; other: EINVAL, no change; stop notified when the user function reaches 0 |
| Lifecycle.ResetBitstream | src/runtime_src/core/pcie/driver/linux/xocl/subdev/icap.c:2402-2412 | user function: EPERM; otherwise passes exactly at count 0, EBUSY above, BUG_ON below |
| Lifecycle.LockCountsReferences | src/runtime_src/core/pcie/driver/linux/xocl/subdev/icap.c:2445-2446 | n locks with the loaded id add n to the count |
| Lifecycle.UnlockCountsReferences | src/runtime_src/core/pcie/driver/linux/xocl/subdev/icap.c:2471-2472 | n unlocks with the loaded id take n from the count |
| Lifecycle.BalancedLockingRestores | src/runtime_src/core/pcie/driver/linux/xocl/subdev/icap.c:2429-2491 | as many unlocks as locks restore the state; one lock is undone by one unlock |
| Lifecycle.ForcedUnlockFreesDevice | src/runtime_src/core/pcie/driver/linux/xocl/subdev/icap.c:2469-2470 | a forced unlock leaves the device not in use and resettable |
| Lifecycle.UnlockAtZeroTripsBugOn | src/runtime_src/core/pcie/driver/linux/xocl/subdev/icap.c:2471-2472 | unlocking at count 0 leaves -1, after which reset and download hit the BUG_ON of icap.c:579 |
| Lifecycle.VerifySignature | src/runtime_src/core/pcie/driver/linux/xocl/subdev/icap.c:2169-2189 | passes exactly when the signature is valid or the level is none; failure is EKEYREJECTED |
| Lifecycle.RestoreUnsigned | src/runtime_src/core/pcie/driver/linux/xocl/subdev/icap.c:2212-2222 | a signed container is marked unsigned and shortened by the signature; an unsigned one is unchanged |
| Lifecycle.SignaturePolicy | src/runtime_src/core/pcie/driver/linux/xocl/subdev/icap.c:2212-2231 | passes exactly at level none or for a signed container with a valid signature; failure is EKEYREJECTED |
| Lifecycle.SectionsLieBeforeSignature | src/runtime_src/core/pcie/driver/linux/xocl/subdev/icap.c:2212-2222 | after the signature is split off, every section found lies in the signed part |
| Lifecycle.SetupClocks | src/runtime_src/core/pcie/driver/linux/xocl/subdev/icap.c:2233-2240 | the topology is stored, then the clocks requested; only requests, gate and topology change |
| Lifecycle.LoadBitstream | src/runtime_src/core/pcie/driver/linux/xocl/subdev/icap.c:2241-2269 | no bitstream section: EINVAL before anything; nothing streamed without the section; only the staged clearing bitstream changes |
| Lifecycle.LoadBitstreamLoads | src/runtime_src/core/pcie/driver/linux/xocl/subdev/icap.c:2241-2269 | a passing load streamed the staged clearing bitstream, then exactly the new payload, and staged the new clearing section |
| Lifecycle.XclbinDownload | src/runtime_src/core/pcie/driver/linux/xocl/subdev/icap.c:2198-2270 | a rejected signature touches nothing; no clock written and no word streamed before the policy accepts; uuid, count and caches stay |
| Lifecycle.XclbinDownloadLoadsBitstream | src/runtime_src/core/pcie/driver/linux/xocl/subdev/icap.c:2241-2263 | a passing download streamed exactly the unsigned container's bitstream payload and staged its clearing section |
| Lifecycle.Precheck | src/runtime_src/core/pcie/driver/linux/xocl/subdev/icap.c:2281-2312 | passes exactly when magic, interface uuids, version and timestamp check out; EOPNOTSUPP exactly for the timestamp |
| Lifecycle.PrivilegedDownload | src/runtime_src/core/pcie/driver/linux/xocl/subdev/icap.c:2325-2334 | a failed download is returned as is; otherwise only the two metadata caches change beyond it |
| Lifecycle.CacheSection | src/runtime_src/core/pcie/driver/linux/xocl/subdev/icap.c:2330-2347 | caching a metadata section changes nothing but the cache map |
| Lifecycle.TopologySetupIgnoresCaches | src/runtime_src/core/pcie/driver/linux/xocl/subdev/icap.c:890-934 | storing a topology depends only on the stored topology and the container |
| Lifecycle.PeerDownload | src/runtime_src/core/pcie/driver/linux/xocl/subdev/icap.c:2335-2351 | the outcome is the peer's; the caches and topology are updated whatever it was |
| Lifecycle.Bookkeeping | src/runtime_src/core/pcie/driver/linux/xocl/subdev/icap.c:2354-2359 | failure forgets the xclbin, success records its uuid; nothing else changes |
| Lifecycle.DownloadBitstreamAxlf | src/runtime_src/core/pcie/driver/linux/xocl/subdev/icap.c:2272-2363 | failed precheck: no change; negative count: BUG_ON; in use: EBUSY and the xclbin forgotten; the count never changes; only the management function streams |
| Lifecycle.BusyDownloadStrandsLock | src/runtime_src/core/pcie/driver/linux/xocl/subdev/icap.c:2319-2323 | a download while locked is EBUSY and forgets the uuid, so the holder's unlock is EINVAL and relocking is EBUSY while the device stays in use |
| Lifecycle.LockBlocksDownloadAndReset | src/runtime_src/core/pcie/driver/linux/xocl/subdev/icap.c:2319-2323 | a locked xclbin blocks download and reset with EBUSY |
| Lifecycle.DownloadedXclbinCanBeLocked | src/runtime_src/core/pcie/driver/linux/xocl/subdev/icap.c:2357-2358 | after a passing download the new uuid can be locked and the first lock resets the scheduler |
| Lifecycle.FailedPeerDownloadStoresTopology | src/runtime_src/core/pcie/driver/linux/xocl/subdev/icap.c:2336-2355 | on the user function a failed peer download still stores the clock topology, while the xclbin is forgotten |
| MemTopology.CaseCmpZeroIff | src/runtime_src/core/pcie/driver/linux/xocl/subdev/icap.c:1843-1848 | strncasecmp over a prefix's length is 0 exactly when the name starts with the prefix ignoring case |
| MemTopology.ConvertMemTypeSpec | src/runtime_src/core/pcie/driver/linux/xocl/subdev/icap.c:1838-1851 | DRAM exactly for a "DDR" prefix, HBM for "HBM" otherwise, DDR4 for "bank" otherwise, DDR3 when none matches |
| MemTopology.HbmTagIsHbm | src/runtime_src/core/pcie/driver/linux/xocl/subdev/icap.c:1864 | the tag "HBM[0]" is an HBM bank |
| MemTopology.DdrTagIsDram | src/runtime_src/core/pcie/driver/linux/xocl/subdev/icap.c:1865 | the tag "DDR[1]" is a DRAM bank, in either case |
| MemTopology.PlramTagIsDdr3 | src/runtime_src/core/pcie/driver/linux/xocl/subdev/icap.c:1840-1841 | a tag with none of the prefixes falls back to MEM_DDR3 |
| MemTopology.GetMemIdx | src/runtime_src/core/pcie/driver/linux/xocl/subdev/icap.c:1853-1877 | the result is a bank of the type with exactly idx banks of that type before it; INVALID_MEM_IDX exactly when there is no topology, idx is negative or there are not enough such banks |
| PeerCache.Fill | src/runtime_src/core/pcie/driver/linux/xocl/subdev/icap.c:313-317 | the peer's answer is stored and is not yet expired |
| PeerCache.FillLifetime | src/runtime_src/core/pcie/driver/linux/xocl/subdev/icap.c:316 | a filled entry expires exactly once more than the lifetime has passed |
| PeerCache.Read | src/runtime_src/core/pcie/driver/linux/xocl/subdev/icap.c:2547-2557 | the management function does not use the cache; otherwise one round trip exactly when the entry is expired, its answer served; never an expired snapshot |
| PeerCache.PeerXclbinDownload | src/runtime_src/core/pcie/driver/linux/xocl/subdev/icap.c:2118-2166 | an xclbin the peer already holds, by the uuid looked up through the cache, is not sent and leaves the cache as the lookup left it; otherwise the peer's outcome, a peer error keeping the cache and a success emptying it and dating it in the past |
| PeerCache.ReadAfterDownloadGoesToPeer | src/runtime_src/core/pcie/driver/linux/xocl/subdev/icap.c:2164-2165 | after an xclbin was sent and loaded, the next read at any later time asks the peer |
| PeerCache.SkippedDownloadKeepsCache | src/runtime_src/core/pcie/driver/linux/xocl/subdev/icap.c:2121-2124 | an xclbin already on the peer is reported loaded without being sent, and reads keep serving the cached snapshot until it expires |
| PeerCache.SecondReadHitsCache | src/runtime_src/core/pcie/driver/linux/xocl/subdev/icap.c:2554-2557 | two reads of a stale entry within the lifetime cost one round trip, and both serve the peer's answer |
| Keyring.Load | src/runtime_src/core/pcie/driver/linux/xocl/subdev/icap.c:3235-3265 | later users add one; the first creates the keyring on a recent kernel; a failed allocation changes nothing |
| Keyring.Release | src/runtime_src/core/pcie/driver/linux/xocl/subdev/icap.c:3267-3285 | a user is given back, the keyring dropped with the last one; no users: nothing |
| Keyring.LoadKeepsValid | src/runtime_src/core/pcie/driver/linux/xocl/subdev/icap.c:3235-3265 | loading keeps the count non-negative and the keyring present exactly while it is positive, without a BUG_ON |
| Keyring.ReleaseKeepsValid | src/runtime_src/core/pcie/driver/linux/xocl/subdev/icap.c:3267-3285 | releasing keeps that invariant, without a BUG_ON |
| Keyring.ReleaseUndoesLoad | src/runtime_src/core/pcie/driver/linux/xocl/subdev/icap.c:3235-3285 | a release undoes a successful load |
| Keyring.RunKeepsValid | src/runtime_src/core/pcie/driver/linux/xocl/subdev/icap.c:3235-3285 | any sequence of loads and releases keeps the invariant |

## Left out

- Register I/O, `mdelay`/`ndelay`/`msleep` and all timing: register reads are the oracle `rd`, and writes that matter are logged (clock programs and restores, pushed words).
- Locks (`icap_lock`, the device rwlock taken by the gate, the keyring mutex): they serialise callers and do not change the single-threaded behaviour modelled here.
- Allocation failure (ENOMEM) of `vmalloc`/`vzalloc`/`kmalloc`: every allocation is taken to succeed.
- SmartN shells (`xocl_xmc_*`): the gate functions model the flag only; the download path takes SmartN as a flag that skips the clock steps.
- The mailbox transport to the peer: a peer download is its error code, and a cache refill is the peer's answer, both parameters.
- PKCS#7 verification, the interface uuid check, the XRT version check and the ROM timestamp check: these are external calls, modelled as their outcomes in `Lifecycle.Env`.
- The kernel-version switch: a kernel older than 4.7 returns EOPNOTSUPP from signature verification; only the keyring creation models the version, as a flag.
- Scheduler notifications (`xocl_exec_reset`, `xocl_exec_stop`, `xocl_exec_reconfig`): recorded as flags, not modelled.
- Subdevice creation and `icap_verify_bitstream_axlf`: its outcome is a parameter. Only its pure helpers `convert_mem_type` and `icap_get_memidx` are modelled.
- The IPROG boot-sequence words of `icap_reset_bitstream` (Table 7-1 of Xilinx UG470): only the gating before them is modelled.
- sysfs attributes, the char-device write path, probe/remove/online/offline, MicroBlaze firmware loading and the boot firmware download.
- xclbin.h, xocl_drv.h and the mailbox headers are not part of this model. From them, the section kinds, clock types, memory types, the xclbin magic and section record sizes are model constants.
- MemTopology.GetMemIdx: topologies of 2^16 or more banks are not modelled. The driver's 16-bit counter would wrap there and never end the loop. A declared bank count that disagrees with the section's size is not modelled either.
- MemTopology.ConvertMemType: folds ASCII letters only. The kernel's `strncasecmp` also folds Latin-1 letters, but none of those folds to an ASCII letter, so the result is the same.
- BitHeader.Parse: the driver reads past the end of the buffer without a check. The model stops there with `OutOfRange`.
- BitHeader.Field: for a zero-length field the driver computes the unsigned `len - 1`, which is 0xFFFFFFFF, and reads the terminator that far past the empty allocation (about 4 GiB on a 64-bit kernel, icap.c lines 1087, 1106, 1125 and 1144). The model stops there with `OutOfRange` instead of modelling that read.
- BitHeader.NameField: an encoded string of 2^16 or more bytes keeps only the low 16 bits of its length, as the two-byte field does; the round trip is proved for strings below that.
- ClockPolicy.SetupClockFreqTopology: the model-only `OutOfRange` stands for two things the driver does. It reads past the section when the declared count reaches past the section's entries. It writes past its stored copy when an entry's slot lies beyond the entries the section holds. The model does not go on past either. The stored copy is as long as the section, so the later reads of `m_clock_freq[i]` for a declared clock past its end, in axlf_set_freqscaling and icap_get_ocl_frequency_max_min, are `OutOfRange` too.
- FreqScaling.OclFrequency: uses the exact clock decode, not the driver's wrapping u32 `div0 *= div1` (icap.c:406). A setting whose divider product reaches 2^32 is read as its true frequency where the driver reports another. The as-written decode and a counterexample are under "## Findings".
- Stream.StreamBitFile: uses the exact length check, not the driver's wrapping `unsigned int` sum (icap.c:1212, 1757). A header whose declared length wraps the sum is refused with EINVAL, where the driver accepts it and streams past the buffer. The as-written check is under "## Findings".
- Stream.Download: inherits that exact length check from Stream.StreamBitFile.
- Stream.DownloadHw: inherits that exact length check from Stream.StreamBitFile.
- Axlf.SectionHeaderOf: uses the exact bounds check, not the driver's wrapping u64 `m_sectionOffset + m_sectionSize` (icap.c:1256-1257). A header whose offset and size wrap the sum is not returned, where the driver returns it. The as-written check is under "## Findings".
- Axlf.SectionHeaderOfIsFirstMatch: "returned when it fits" refers to the exact check of Axlf.SectionHeaderOf, for the same reason.
- Lifecycle.LockBitstream: the reference count is an unbounded integer. The driver's `int` could overflow after 2^31 locks, which is not modelled.
- PeerCache.Read: boot-clock times are unbounded integers. `ktime_t` overflow is not modelled, and the lifetime is the 0 to 10 seconds the sysfs attribute accepts.

## Findings

| source | as written | input that shows it | evidently intended | confidence | as-written member | corrected member |
|---|---|---|---|---|---|---|
| src/runtime_src/core/pcie/driver/linux/xocl/subdev/icap.c:406 | `div0 *= div1` multiplies two u32 values in u32, so the combined divider wraps modulo 2^32 | CONFIG0 = 0xFF41, CONFIG2 = 0x44D42: true frequency 5 MHz, reported 20960 MHz | the divider product computed without wrap-around | not executed | ClockTable.DecodeAsWritten, ClockTable.DecodeWrapCounterexample | ClockTable.Decode |
| src/runtime_src/core/pcie/driver/linux/xocl/subdev/icap.c:1212 | `HeaderLength + BitstreamLength` is an `unsigned int` sum compared with the buffer length, so a huge declared length wraps below it (same check at icap.c:1757) | a 26-byte `.bit` header declaring 2^32 - 16 data bytes: 26 + 2^32 - 16 wraps to 10, which is at most 26 | refuse any header whose data runs past the buffer | not executed | Stream.PayloadFitsAsWritten, Stream.PayloadLengthWrapCounterexample | Stream.StreamBitFile |
| src/runtime_src/core/pcie/driver/linux/xocl/subdev/icap.c:1256 | `m_sectionOffset + m_sectionSize` is a u64 sum, so a huge offset wraps below `m_length` | a 16-byte container with a BITSTREAM header at offset 2^64 - 1 of size 2: the sum wraps to 1 | return a header only when its section lies inside the container | not executed | Axlf.SectionHeaderOfAsWritten, Axlf.SectionBoundsWrapCounterexample | Axlf.SectionHeaderOf |

=== FILE: axlf.dfy ===
/** The xclbin ("axlf") container as the driver reads it: a header with a
    length, a uuid and a signature length, a table of section headers, and the
    image bytes the sections point into.

    The byte layout of the header and of each section's payload is defined by
    `xclbin.h`, which is not part of this model; the container is given here
    in already-decoded form, and the clock-topology section's payload is given
    as the structure the driver casts it to.
 */
module Axlf {
  import opened Bytes
  import opened Errors

  /** A 16-byte uuid as one number; the null uuid is 0. */
  type Uuid = x: nat | x < 0x1_0000_0000_0000_0000_0000_0000_0000_0000

  const NullUuid: Uuid := 0

  /** The eight magic bytes "xclbin2\0" every container starts with. */
  const XclbinMagic: seq<byte> := [0x78, 0x63, 0x6c, 0x62, 0x69, 0x6e, 0x32, 0x00]

  /** The section kinds the driver asks for by name; any other kind keeps its number. */
  datatype SectionKind =
    | BITSTREAM
    | CLEARING_BITSTREAM
    | MEM_TOPOLOGY
    | IP_LAYOUT
    | DEBUG_IP_LAYOUT
    | CONNECTIVITY
    | CLOCK_FREQ_TOPOLOGY
    | PARTITION_METADATA
    | OtherKind(code: u32)

  datatype SectionHeader = SectionHeader(kind: SectionKind, offset: u64, size: u64)

  /** Clock types of a clock-topology entry (`m_type`). */
  const CT_UNUSED: byte := 0
  const CT_DATA: byte := 1
  const CT_KERNEL: byte := 2
  const CT_SYSTEM: byte := 3

  /** One clock of a clock topology: its frequency in MHz and its type. */
  datatype ClockFreq = ClockFreq(freqMhz: u16, clockType: byte)

  /** A clock topology: the declared count (a signed 16-bit field) and the
      entries actually present. */
  datatype ClockTopology = ClockTopology(count: int, clocks: seq<ClockFreq>)

  datatype Container = Container(
    magic: seq<byte>,
    /** `m_header.m_length`: the length the container claims for itself. */
    length: u64,
    /** `m_signature_length`: -1 when the container is not signed. */
    signatureLength: int,
    uuid: Uuid,
    sections: seq<SectionHeader>,
    /** The container's bytes, from its first byte on. */
    image: seq<byte>,
    /** The clock-topology section's payload, as the driver reads it. */
    clockSection: ClockTopology
  )

  predicate MagicOk(c: Container)
  {
    |c.magic| >= 8 && c.magic[..8] == XclbinMagic
  }

  /** Position of the first section header of kind `kind` at or after `i`. */
  function FirstOfKindFrom(sections: seq<SectionHeader>, kind: SectionKind, i: nat): (r: Option<nat>)
    requires i <= |sections|
    ensures r.Some? ==> i <= r.value < |sections| && sections[r.value].kind == kind
    ensures r.Some? ==> forall j :: i <= j < r.value ==> sections[j].kind != kind
    ensures r.None? <==> (forall j :: i <= j < |sections| ==> sections[j].kind != kind)
    decreases |sections| - i
  {
    if i == |sections| then None
    else if sections[i].kind == kind then Some(i)
    else FirstOfKindFrom(sections, kind, i + 1)
  }

  function FirstOfKind(sections: seq<SectionHeader>, kind: SectionKind): (r: Option<nat>)
    ensures r.Some? ==> r.value < |sections| && sections[r.value].kind == kind
    ensures r.Some? ==> forall j :: 0 <= j < r.value ==> sections[j].kind != kind
    ensures r.None? <==> (forall j :: 0 <= j < |sections| ==> sections[j].kind != kind)
  {
    FirstOfKindFrom(sections, kind, 0)
  }

  /** A section fits the container when it ends within the claimed length. */
  predicate Fits(h: SectionHeader, length: u64)
  {
    h.offset + h.size <= length
  }

  /** get_axlf_section_hdr: the first header of the requested kind, provided
      it fits; a first match that does not fit hides any later one. */
  function SectionHeaderOf(c: Container, kind: SectionKind): (r: Option<SectionHeader>)
    ensures r.Some? ==> r.value.kind == kind && Fits(r.value, c.length)
    ensures r.Some? ==> exists i :: 0 <= i < |c.sections| && c.sections[i] == r.value
                          && forall j :: 0 <= j < i ==> c.sections[j].kind != kind
  {
    match FirstOfKind(c.sections, kind)
    case None => None
    case Some(i) => if Fits(c.sections[i], c.length) then Some(c.sections[i]) else None
  }

  /** The lookup returns exactly the first header of the kind when that one
      fits, and nothing otherwise: a later header of the same kind is never
      returned. */
  lemma SectionHeaderOfIsFirstMatch(c: Container, kind: SectionKind, i: nat)
    requires i < |c.sections| && c.sections[i].kind == kind
    requires forall j :: 0 <= j < i ==> c.sections[j].kind != kind
    ensures SectionHeaderOf(c, kind) == (if Fits(c.sections[i], c.length) then Some(c.sections[i]) else None)
  {
  }

  /** When no header has the kind, the lookup finds nothing. */
  lemma SectionHeaderOfMissing(c: Container, kind: SectionKind)
    requires forall j :: 0 <= j < |c.sections| ==> c.sections[j].kind != kind
    ensures SectionHeaderOf(c, kind) == None
  {
  }

  /** The bounds check as written: `m_sectionOffset + m_sectionSize` is a
      64-bit unsigned sum, so a huge offset wraps it below the length. */
  function SectionHeaderOfAsWritten(c: Container, kind: SectionKind): (r: Option<SectionHeader>)
    ensures (forall j :: 0 <= j < |c.sections| ==> c.sections[j].offset + c.sections[j].size < TWO_64)
              ==> r == SectionHeaderOf(c, kind)
  {
    match FirstOfKind(c.sections, kind)
    case None => None
    case Some(i) =>
      var h := c.sections[i];
      if Wrap64(h.offset + h.size) <= c.length then Some(h) else None
  }

  /** A bitstream header with offset 2^64 - 1 and size 2 in a 16-byte
      container passes the as-written check (the sum wraps to 1) although the
      section starts far past the container's end. */
  lemma SectionBoundsWrapCounterexample()
    ensures var c := Container(XclbinMagic, 16, -1, 1,
                               [SectionHeader(BITSTREAM, TWO_64 - 1, 2)], [], ClockTopology(0, []));
            && SectionHeaderOfAsWritten(c, BITSTREAM) == Some(SectionHeader(BITSTREAM, TWO_64 - 1, 2))
            && SectionHeaderOf(c, BITSTREAM) == None
  {
    var c := Container(XclbinMagic, 16, -1, 1,
                       [SectionHeader(BITSTREAM, TWO_64 - 1, 2)], [], ClockTopology(0, []));
    assert FirstOfKind(c.sections, BITSTREAM) == Some(0);
    assert Wrap64(TWO_64 - 1 + 2) == 1;
  }

  /** The bytes a header designates, or OutOfRange when the claimed length
      exceeds the bytes actually present. */
  function SectionBytes(c: Container, h: SectionHeader): (r: Result<seq<byte>>)
    ensures r.Ok? <==> h.offset + h.size <= |c.image|
    ensures r.Ok? ==> |r.value| == h.size
    ensures r.Ok? ==> forall k :: 0 <= k < h.size ==> r.value[k] == c.image[h.offset + k]
    ensures r.Err? ==> r.error == OutOfRange
  {
    if h.offset + h.size <= |c.image| then Ok(c.image[h.offset .. h.offset + h.size])
    else Err(OutOfRange)
  }

  /** alloc_and_get_axlf_section: a copy of exactly the section's bytes, or
      EINVAL when the lookup finds no usable header. */
  function AllocAndGetSection(c: Container, kind: SectionKind): (r: Result<seq<byte>>)
    ensures SectionHeaderOf(c, kind).None? ==> r == Err(EINVAL)
    ensures r.Ok? ==> SectionHeaderOf(c, kind).Some?
    ensures r.Ok? ==> var h := SectionHeaderOf(c, kind).value;
                      |r.value| == h.size && h.offset + h.size <= |c.image|
                      && forall k :: 0 <= k < h.size ==> r.value[k] == c.image[h.offset + k]
  {
    match SectionHeaderOf(c, kind)
    case None => Err(EINVAL)
    case Some(h) => SectionBytes(c, h)
  }

  /** For a container whose image holds all it claims, a present section is
      always copied successfully, and the copy is the image slice. */
  lemma AllocAndGetSectionOfCompleteImage(c: Container, kind: SectionKind)
    requires c.length <= |c.image|
    requires SectionHeaderOf(c, kind).Some?
    ensures var h := SectionHeaderOf(c, kind).value;
            AllocAndGetSection(c, kind) == Ok(c.image[h.offset .. h.offset + h.size])
  {
  }
}

=== FILE: bit_header.dfy ===
/** The header of a legacy `.bit` bitstream file, as the driver parses it
    before streaming the configuration data behind it.

    Layout: a 16-bit big-endian magic length M; M - 1 magic bytes alternating
    0x0f and 0xf0; one byte that is not checked; the half-word 0x0001; four
    fields 'a' (design name), 'b' (part name), 'c' (date) and 'd' (time), each
    a tag byte, a 16-bit big-endian length and that many bytes ending in NUL;
    then 'e' and the 32-bit big-endian length of the configuration data.

    The driver reads with an `unsigned int` cursor and never compares it with
    the buffer's size; here a read past the end of the data is `OutOfRange`,
    and the cursor wraps modulo 2^32 as the driver's does. A rejected header
    (the driver's -1) is `EINVAL`, which is what every caller reports for it.
 */
module BitHeader {
  import opened Bytes
  import opened Errors

  const EvenMagicByte: byte := 0x0f
  const OddMagicByte: byte := 0xf0

  const TagDesign: byte := 0x61
  const TagPart: byte := 0x62
  const TagDate: byte := 0x63
  const TagTime: byte := 0x64
  const TagLength: byte := 0x65

  /** What a successful parse reports. `headerLength` is the position of the
      first byte after the header, where the configuration data starts. */
  datatype Header = Header(
    headerLength: u32,
    bitstreamLength: u32,
    magicLength: u16,
    designName: seq<byte>,
    partName: seq<byte>,
    date: seq<byte>,
    time: seq<byte>
  )

  /** The magic byte expected at position `k` of the magic run. */
  function MagicByte(k: int): byte
  {
    if k % 2 == 0 then EvenMagicByte else OddMagicByte
  }

  /** `data[index++]`: one byte, and the cursor advanced as an `unsigned int`. */
  function Next(data: seq<byte>, index: u32): (r: Result<(byte, u32)>)
    ensures r.Ok? <==> index < |data|
    ensures r.Ok? ==> r.value.0 == data[index] && r.value.1 == Wrap32(index + 1)
    ensures |data| < TWO_32 && r.Ok? ==> r.value.1 == index + 1
    ensures r.Err? ==> r.error == OutOfRange
  {
    if index < |data| then Ok((data[index], Wrap32(index + 1))) else Err(OutOfRange)
  }

  /** `n` consecutive bytes from `index` on. */
  function ReadRun(data: seq<byte>, index: u32, n: nat): (r: Result<(seq<byte>, u32)>)
    ensures r.Ok? ==> |r.value.0| == n
    ensures |data| < TWO_32 && index + n <= |data| ==> r == Ok((data[index .. index + n], index + n))
    ensures |data| < TWO_32 && index + n > |data| && n > 0 ==> r == Err(OutOfRange)
    ensures r.Err? ==> r.error == OutOfRange
    decreases n
  {
    if n == 0 then
      assert index <= |data| ==> data[index .. index + n] == [];
      Ok(([], index))
    else
      var b :- Next(data, index);
      var rest :- ReadRun(data, b.1, n - 1);
      assert |data| < TWO_32 && index + n <= |data| ==>
               data[index .. index + n] == [data[index]] + data[index + 1 .. index + n];
      Ok(([b.0] + rest.0, rest.1))
  }

  /** The magic loop from iteration `i` on: iteration `i` reads one byte,
      which must be 0x0f when `i` is even and 0xf0 when it is odd. */
  function MagicLoop(data: seq<byte>, i: nat, count: u32, index: u32): (r: Result<u32>)
    requires i <= count
    ensures |data| < TWO_32 ==>
              (r.Ok? <==> i == count
                          || (index + (count - i) <= |data|
                              && forall p :: index <= p < index + (count - i) ==> data[p] == MagicByte(i + p - index)))
    ensures |data| < TWO_32 && r.Ok? ==> r.value == index + (count - i)
    ensures r.Err? ==> r.error in {EINVAL, OutOfRange}
    decreases count - i
  {
    if i == count then Ok(index)
    else
      var b :- Next(data, index);
      if b.0 != MagicByte(i) then Err(EINVAL)
      else MagicLoop(data, i + 1, count, b.1)
  }

  /** A tagged, length-prefixed, NUL-terminated field at `index`. With a
      zero length the driver's unsigned `len - 1` is 0xFFFFFFFF, so its
      terminator check reads that many bytes past the empty allocation; the
      model reports `OutOfRange` there. */
  function Field(data: seq<byte>, index: u32, tag: byte): (r: Result<(seq<byte>, u32)>)
    ensures r.Err? ==> r.error in {EINVAL, OutOfRange}
  {
    var t :- Next(data, index);
    if t.0 != tag then Err(EINVAL)
    else
      var hi :- Next(data, t.1);
      var lo :- Next(data, hi.1);
      var len := BE16(hi.0, lo.0);
      var s :- ReadRun(data, lo.1, len);
      if len == 0 then Err(OutOfRange)
      else if s.0[len - 1] != 0 then Err(EINVAL)
      else Ok(s)
  }

  /** Without wrap-around, a field reads back exactly when the bytes at
      `index` have the field's shape, and then its bytes are the encoding of
      its value. */
  lemma FieldSpec(data: seq<byte>, index: u32, tag: byte)
    requires |data| < TWO_32
    ensures Field(data, index, tag).Ok? <==> FieldAt(data, index, tag)
    ensures Field(data, index, tag).Ok? ==>
              var r := Field(data, index, tag).value;
              && ValidName(r.0)
              && r.1 == index + 3 + |r.0| <= |data|
              && data[index .. r.1] == NameField(tag, r.0)
  {
    if Field(data, index, tag).Ok? {
      var r := Field(data, index, tag).value;
      FieldLayout(data, index, tag, r.0);
    }
  }

  /** A field read back in pieces is the encoding of its value. */
  lemma FieldLayout(data: seq<byte>, index: nat, tag: byte, s: seq<byte>)
    ensures index + 3 + |s| <= |data| && |s| < TWO_16
            && data[index] == tag && BE16(data[index + 1], data[index + 2]) == |s|
            && data[index + 3 .. index + 3 + |s|] == s ==>
              data[index .. index + 3 + |s|] == NameField(tag, s)
  {
    if index + 3 + |s| <= |data| && |s| < TWO_16
       && data[index] == tag && BE16(data[index + 1], data[index + 2]) == |s|
       && data[index + 3 .. index + 3 + |s|] == s {
      FieldHead(data, index, tag, |s|);
      SliceConcat(data, index, index + 3, index + 3 + |s|);
    }
  }

  /** The tag and length bytes of a field, as its encoding writes them. */
  lemma FieldHead(data: seq<byte>, index: nat, tag: byte, n: nat)
    requires index + 3 <= |data| && n < TWO_16
    requires data[index] == tag && BE16(data[index + 1], data[index + 2]) == n
    ensures data[index .. index + 3] == [tag, Hi(n % TWO_16), Lo(n % TWO_16)]
  {
    assert n % TWO_16 == n;
  }

  /** The bytes at `index` form a field with tag `tag`: the tag, a non-zero
      length, and that many bytes, the last of them NUL. */
  predicate FieldAt(data: seq<byte>, index: nat, tag: byte)
  {
    && index + 3 <= |data|
    && data[index] == tag
    && var len := BE16(data[index + 1], data[index + 2]);
       && 0 < len
       && index + 3 + len <= |data|
       && data[index + 3 + len - 1] == 0
  }

  /** Consecutive fields with the given tags, from `index` on. */
  function Names(data: seq<byte>, index: u32, tags: seq<byte>): (r: Result<(seq<seq<byte>>, u32)>)
    ensures r.Err? ==> r.error in {EINVAL, OutOfRange}
    ensures r.Ok? ==> |r.value.0| == |tags|
    decreases |tags|
  {
    if tags == [] then
      Ok(([], index))
    else
      var f :- Field(data, index, tags[0]);
      var rest :- Names(data, f.1, tags[1..]);
      var names := [f.0] + rest.0;
      assert names[0] == f.0 && names[1..] == rest.0;
      Ok((names, rest.1))
  }

  /** Fields read back in order are the encoding of their values. */
  lemma {:induction false} NamesLayout(data: seq<byte>, index: u32, tags: seq<byte>)
    requires |data| < TWO_32 && index <= |data| && Names(data, index, tags).Ok?
    ensures var r := Names(data, index, tags).value;
            && AllValid(r.0)
            && r.1 == index + |EncodeNames(tags, r.0)| <= |data|
            && data[index .. r.1] == EncodeNames(tags, r.0)
    decreases |tags|
  {
    if tags == [] {
      assert Names(data, index, tags).value == ([], index);
    } else {
      NamesUnfold(data, index, tags);
      var f := Field(data, index, tags[0]).value;
      var rest := Names(data, f.1, tags[1..]).value;
      FieldSpec(data, index, tags[0]);
      NamesLayout(data, f.1, tags[1..]);
      var names := [f.0] + rest.0;
      assert names[0] == f.0 && names[1..] == rest.0;
      EncodeNamesCons(data, index, f.1, rest.1, tags, names);
    }
  }

  /** Every value is one the parser accepts. */
  predicate AllValid(names: seq<seq<byte>>)
  {
    forall k :: 0 <= k < |names| ==> ValidName(names[k])
  }

  /** Reading several fields is reading the first, then the rest after it. */
  lemma NamesUnfold(data: seq<byte>, index: u32, tags: seq<byte>)
    requires tags != [] && Names(data, index, tags).Ok?
    ensures Field(data, index, tags[0]).Ok?
    ensures var f := Field(data, index, tags[0]).value;
            && Names(data, f.1, tags[1..]).Ok?
            && Names(data, index, tags).value
               == ([f.0] + Names(data, f.1, tags[1..]).value.0, Names(data, f.1, tags[1..]).value.1)
  {
  }

  /** A field followed by the encoding of the rest is the encoding of all of
      them. */
  lemma EncodeNamesCons(data: seq<byte>, index: nat, mid: nat, end: nat, tags: seq<byte>, names: seq<seq<byte>>)
    requires |tags| == |names| > 0 && index <= mid <= end <= |data|
    requires data[index .. mid] == NameField(tags[0], names[0])
    requires data[mid .. end] == EncodeNames(tags[1..], names[1..])
    requires ValidName(names[0]) && AllValid(names[1..])
    ensures data[index .. end] == EncodeNames(tags, names)
    ensures end == index + |EncodeNames(tags, names)|
    ensures AllValid(names)
  {
    SliceConcat(data, index, mid, end);
    assert EncodeNames(tags, names) == NameField(tags[0], names[0]) + EncodeNames(tags[1..], names[1..]);
    AllValidCons(names);
  }

  lemma SliceConcat(data: seq<byte>, i: nat, j: nat, k: nat)
    requires i <= j <= k <= |data|
    ensures data[i .. k] == data[i .. j] + data[j .. k]
  {
  }

  lemma AllValidCons(names: seq<seq<byte>>)
    requires |names| > 0 && ValidName(names[0]) && AllValid(names[1..])
    ensures AllValid(names)
  {
    forall k | 0 < k < |names|
      ensures ValidName(names[k])
    {
      assert names[k] == names[1..][k - 1];
    }
  }

  /** The start of the header: the magic length, the magic run, the
      unchecked byte after it and the 0x0001 half-word. Gives the magic
      length and the cursor after the half-word. */
  function Preamble(data: seq<byte>): (r: Result<(u16, u32)>)
    ensures r.Err? ==> r.error in {EINVAL, OutOfRange}
    ensures |data| < TWO_32 && r.Ok? ==>
              && r.value.0 >= 1
              && r.value.1 == r.value.0 + 4 <= |data|
              && data[..r.value.1] == EncodePreamble(r.value.0, data[r.value.0 + 1])
  {
    var m0 :- Next(data, 0);
    var m1 :- Next(data, m0.1);
    var magicLength := BE16(m0.0, m1.0);
    var afterMagic :- MagicLoop(data, 0, Wrap32(magicLength - 1), m1.1);
    var nul :- Next(data, afterMagic);
    var one0 :- Next(data, nul.1);
    var one1 :- Next(data, one0.1);
    if BE16(one0.0, one1.0) != 1 then Err(EINVAL)
    else
      PreambleLayout(data, magicLength, m1.1, afterMagic);
      Ok((magicLength, one1.1))
  }

  /** Without wrap-around, a magic run that checks out ends at position
      M + 1 (a zero M would run past any such data), and the bytes read so
      far are the encoding of the preamble once the half-word is 0x0001. */
  lemma PreambleLayout(data: seq<byte>, magicLength: u16, index: u32, afterMagic: u32)
    requires MagicLoop(data, 0, Wrap32(magicLength - 1), index) == Ok(afterMagic)
    ensures |data| < TWO_32 && index == 2 ==> magicLength >= 1 && afterMagic == magicLength + 1
    ensures |data| < TWO_32 && index == 2 && magicLength + 4 <= |data|
            && BE16(data[0], data[1]) == magicLength
            && BE16(data[magicLength + 2], data[magicLength + 3]) == 1 ==>
              data[..magicLength + 4] == EncodePreamble(magicLength, data[magicLength + 1])
  {
    if |data| < TWO_32 && index == 2 {
      if magicLength >= 1 && magicLength + 4 <= |data| && BE16(data[0], data[1]) == magicLength
                && BE16(data[magicLength + 2], data[magicLength + 3]) == 1 {
        var m: nat := magicLength;
        var e := EncodePreamble(magicLength, data[m + 1]);
        assert Wrap32(m - 1) == m - 1;
        forall k | 0 <= k < m + 4
          ensures data[k] == e[k]
        {
          if 2 <= k < m + 1 {
            assert data[k] == MagicByte(0 + k - 2);
          } else if k == m + 2 {
            assert data[m + 2] == 0;
          }
        }
      }
    }
  }

  /** The 'e' tag and the four bytes of the data length. */
  function Trailer(data: seq<byte>, index: u32): (r: Result<(u32, u32)>)
    ensures r.Err? ==> r.error in {EINVAL, OutOfRange}
    ensures |data| < TWO_32 && r.Ok? ==>
              r.value.1 == index + 5 <= |data| && data[index .. index + 5] == EncodeTrailer(r.value.0)
  {
    var e :- Next(data, index);
    if e.0 != TagLength then Err(EINVAL)
    else
      var b :- ReadRun(data, e.1, 4);
      var len := BE32(b.0[0], b.0[1], b.0[2], b.0[3]);
      TrailerLayout(data, index, len);
      Ok((len, b.1))
  }

  lemma TrailerLayout(data: seq<byte>, index: nat, len: u32)
    ensures |data| < TWO_32 && index + 5 <= |data| && data[index] == TagLength
            && len == BE32(data[index + 1], data[index + 2], data[index + 3], data[index + 4]) ==>
              data[index .. index + 5] == EncodeTrailer(len)
  {
    if |data| < TWO_32 && index + 5 <= |data| && data[index] == TagLength
       && len == BE32(data[index + 1], data[index + 2], data[index + 3], data[index + 4]) {
      var bs := Be32Bytes(len);
      Be32BytesOfBE32(data[index + 1], data[index + 2], data[index + 3], data[index + 4]);
      assert EncodeTrailer(len) == [TagLength, bs[0], bs[1], bs[2], bs[3]];
    }
  }

  /** The tags of the four fields, in order. */
  const FieldTags: seq<byte> := [TagDesign, TagPart, TagDate, TagTime]

  /** bitstream_parse_header. */
  function Parse(data: seq<byte>): (r: Result<Header>)
    ensures r.Err? ==> r.error in {EINVAL, OutOfRange}
  {
    var pre :- Preamble(data);
    var names :- Names(data, pre.1, FieldTags);
    var trailer :- Trailer(data, names.1);
    Ok(Header(trailer.1, trailer.0, pre.0, names.0[0], names.0[1], names.0[2], names.0[3]))
  }

  // ---------------------------------------------------------------------
  // Encoding
  // ---------------------------------------------------------------------

  /** The fields of a `.bit` header, including the byte after the magic run
      that the parser skips. */
  datatype BitFile = BitFile(
    magicLength: u16,
    magicEnd: byte,
    designName: seq<byte>,
    partName: seq<byte>,
    date: seq<byte>,
    time: seq<byte>,
    bitstreamLength: u32
  )

  /** A field value the parser accepts: non-empty, NUL-terminated, and short
      enough for its 16-bit length. */
  predicate ValidName(s: seq<byte>)
  {
    0 < |s| < TWO_16 && s[|s| - 1] == 0
  }

  predicate ValidFile(f: BitFile)
  {
    && f.magicLength >= 1
    && ValidName(f.designName) && ValidName(f.partName)
    && ValidName(f.date) && ValidName(f.time)
  }

  function Hi(x: u16): (r: byte)
  {
    x / TWO_8
  }

  function Lo(x: u16): (r: byte)
    ensures BE16(Hi(x), r) == x
  {
    x % TWO_8
  }

  /** The four big-endian bytes of a word. */
  function Be32Bytes(x: u32): (r: seq<byte>)
    ensures |r| == 4 && BE32(r[0], r[1], r[2], r[3]) == x
  {
    var h := x / TWO_16;
    var l := x % TWO_16;
    assert x == h * TWO_16 + l;
    assert BE32(Hi(h), Lo(h), Hi(l), Lo(l)) == BE16(Hi(h), Lo(h)) * TWO_16 + BE16(Hi(l), Lo(l));
    [Hi(h), Lo(h), Hi(l), Lo(l)]
  }

  /** Splitting a word into bytes undoes assembling it. */
  lemma Be32BytesOfBE32(b0: byte, b1: byte, b2: byte, b3: byte)
    ensures Be32Bytes(BE32(b0, b1, b2, b3)) == [b0, b1, b2, b3]
  {
    var x := BE32(b0, b1, b2, b3);
    assert x == BE16(b0, b1) * TWO_16 + BE16(b2, b3);
    assert x / TWO_16 == BE16(b0, b1) && x % TWO_16 == BE16(b2, b3);
  }

  function MagicRun(n: nat): (r: seq<byte>)
    ensures |r| == n && forall k :: 0 <= k < n ==> r[k] == MagicByte(k)
  {
    seq(n, k => MagicByte(k))
  }

  /** A tagged field; its length field keeps the low 16 bits of the length. */
  function NameField(tag: byte, s: seq<byte>): (r: seq<byte>)
    ensures |r| == 3 + |s|
  {
    var len := |s| % TWO_16;
    [tag, Hi(len), Lo(len)] + s
  }

  /** Length, magic run, the byte after it, and 0x0001. */
  function EncodePreamble(magicLength: u16, magicEnd: byte): (r: seq<byte>)
    requires magicLength >= 1
    ensures |r| == magicLength + 4
  {
    [Hi(magicLength), Lo(magicLength)] + MagicRun(magicLength - 1) + [magicEnd, 0, 1]
  }

  function EncodeNames(tags: seq<byte>, names: seq<seq<byte>>): (r: seq<byte>)
    requires |tags| == |names|
    decreases |tags|
  {
    if tags == [] then []
    else NameField(tags[0], names[0]) + EncodeNames(tags[1..], names[1..])
  }

  function EncodeTrailer(len: u32): (r: seq<byte>)
    ensures |r| == 5
  {
    [TagLength] + Be32Bytes(len)
  }

  /** The bytes of a header; the configuration data would follow. */
  function Encode(f: BitFile): (r: seq<byte>)
    requires ValidFile(f)
  {
    EncodePreamble(f.magicLength, f.magicEnd)
    + EncodeNames(FieldTags, [f.designName, f.partName, f.date, f.time])
    + EncodeTrailer(f.bitstreamLength)
  }

  /** Four encoded fields take three bytes each besides their values. */
  lemma NamesLength(names: seq<seq<byte>>)
    requires |names| == 4 && forall k :: 0 <= k < 4 ==> ValidName(names[k])
    ensures |EncodeNames(FieldTags, names)| == 12 + |names[0]| + |names[1]| + |names[2]| + |names[3]|
  {
    var n1, n2, n3 := names[1..], names[1..][1..], names[1..][1..][1..];
    var t1, t2, t3 := FieldTags[1..], FieldTags[1..][1..], FieldTags[1..][1..][1..];
    assert EncodeNames(t3[1..], n3[1..]) == [];
    assert |EncodeNames(t3, n3)| == 3 + |names[3]|;
    assert |EncodeNames(t2, n2)| == 6 + |names[2]| + |names[3]|;
    assert |EncodeNames(t1, n1)| == 9 + |names[1]| + |names[2]| + |names[3]|;
  }

  /** The header parsing the encoding of `f` should report. */
  function HeaderOf(f: BitFile): Header
    requires ValidFile(f)
    requires f.magicLength + 21 + |f.designName| + |f.partName| + |f.date| + |f.time| < TWO_32
  {
    Header(f.magicLength + 21 + |f.designName| + |f.partName| + |f.date| + |f.time|,
           f.bitstreamLength, f.magicLength, f.designName, f.partName, f.date, f.time)
  }

  /** `b` sits at position |a| of `a + b + c`. */
  lemma SliceOfConcat(a: seq<byte>, b: seq<byte>, c: seq<byte>)
    ensures (a + b + c)[|a| .. |a| + |b|] == b
  {
  }

  /** A prefix cut at `a` and `b` is the concatenation of its three parts. */
  lemma SplitPrefix(data: seq<byte>, a: nat, b: nat, c: nat)
    requires a <= b <= c <= |data|
    ensures data[..c] == data[..a] + data[a..b] + data[b..c]
  {
  }

  /** An encoded preamble at the start of the data parses back to its magic
      length, leaving the cursor just after it. */
  lemma PreambleOfEncoded(data: seq<byte>, magicLength: u16, magicEnd: byte)
    requires |data| < TWO_32 && magicLength >= 1 && magicLength + 4 <= |data|
    requires data[..magicLength + 4] == EncodePreamble(magicLength, magicEnd)
    ensures Preamble(data) == Ok((magicLength, magicLength + 4))
  {
    var m: nat := magicLength;
    var e := EncodePreamble(magicLength, magicEnd);
    assert data[0] == e[0] && data[1] == e[1];
    assert BE16(data[0], data[1]) == m;
    assert Wrap32(m - 1) == m - 1;
    forall p | 2 <= p < 2 + (m - 1)
      ensures data[p] == MagicByte(0 + p - 2)
    {
      assert data[p] == e[p];
    }
    assert MagicLoop(data, 0, m - 1, 2) == Ok(m + 1);
    assert data[m + 2] == e[m + 2] && data[m + 3] == e[m + 3];
  }

  /** An encoded field parses back to its value. */
  lemma FieldOfEncoded(data: seq<byte>, index: u32, next: nat, tag: byte, s: seq<byte>)
    requires |data| < TWO_32 && ValidName(s) && next == index + 3 + |s| <= |data|
    requires data[index .. next] == NameField(tag, s)
    ensures Field(data, index, tag) == Ok((s, next))
  {
    var nf := NameField(tag, s);
    assert data[index] == nf[0] && data[index + 1] == nf[1] && data[index + 2] == nf[2];
    assert BE16(data[index + 1], data[index + 2]) == |s|;
    assert data[index + 3 .. index + 3 + |s|] == nf[3..] == s;
  }

  /** Encoded fields parse back to their values, in order. */
  lemma NamesOfEncoded(data: seq<byte>, index: u32, tags: seq<byte>, names: seq<seq<byte>>)
    requires |data| < TWO_32 && |tags| == |names|
    requires forall k :: 0 <= k < |names| ==> ValidName(names[k])
    requires index + |EncodeNames(tags, names)| <= |data|
    requires data[index .. index + |EncodeNames(tags, names)|] == EncodeNames(tags, names)
    ensures Names(data, index, tags) == Ok((names, index + |EncodeNames(tags, names)|))
  {
    FieldsOfEncoded(data, index, tags, names);
    NamesOfFields(data, index, tags, names, index + |EncodeNames(tags, names)|);
  }

  /** The fields of `names` lie one after the other from `index` on. */
  predicate FieldsAt(data: seq<byte>, index: nat, tags: seq<byte>, names: seq<seq<byte>>)
    requires |tags| == |names|
    decreases |tags|
  {
    tags == [] ||
    (&& index + 3 + |names[0]| <= |data|
     && data[index .. index + 3 + |names[0]|] == NameField(tags[0], names[0])
     && FieldsAt(data, index + 3 + |names[0]|, tags[1..], names[1..]))
  }

  lemma {:induction false} FieldsOfEncoded(data: seq<byte>, index: nat, tags: seq<byte>, names: seq<seq<byte>>)
    requires |tags| == |names|
    requires index + |EncodeNames(tags, names)| <= |data|
    requires data[index .. index + |EncodeNames(tags, names)|] == EncodeNames(tags, names)
    ensures FieldsAt(data, index, tags, names)
    decreases |tags|
  {
    if tags != [] {
      var head := NameField(tags[0], names[0]);
      var tail := EncodeNames(tags[1..], names[1..]);
      assert EncodeNames(tags, names) == head + tail;
      SplitSlice(data, index, head, tail);
      FieldsOfEncoded(data, index + |head|, tags[1..], names[1..]);
    }
  }

  lemma {:induction false} NamesOfFields(data: seq<byte>, index: u32, tags: seq<byte>, names: seq<seq<byte>>, end: nat)
    requires |data| < TWO_32 && index <= |data| && |tags| == |names|
    requires forall k :: 0 <= k < |names| ==> ValidName(names[k])
    requires FieldsAt(data, index, tags, names)
    requires end == index + |EncodeNames(tags, names)|
    ensures end <= |data|
    ensures Names(data, index, tags) == Ok((names, end))
    decreases |tags|
  {
    if tags != [] {
      var next := index + 3 + |names[0]|;
      assert end == next + |EncodeNames(tags[1..], names[1..])|;
      FieldOfEncoded(data, index, next, tags[0], names[0]);
      TailValid(names);
      NamesOfFields(data, next, tags[1..], names[1..], end);
      NamesStep(data, index, tags, names, next, end);
    } else {
      assert names == [] && end == index;
      assert Names(data, index, tags) == Ok(([], index));
    }
  }

  /** The two parts of a slice that holds `head + tail`. */
  lemma SplitSlice(data: seq<byte>, index: nat, head: seq<byte>, tail: seq<byte>)
    requires index + |head| + |tail| <= |data|
    requires data[index .. index + |head + tail|] == head + tail
    ensures data[index .. index + |head|] == head
    ensures data[index + |head| .. index + |head| + |tail|] == tail
  {
    var whole := data[index .. index + |head| + |tail|];
    assert data[index .. index + |head|] == whole[..|head|];
    assert data[index + |head| .. index + |head| + |tail|] == whole[|head|..];
  }

  lemma TailValid(names: seq<seq<byte>>)
    requires names != [] && forall k :: 0 <= k < |names| ==> ValidName(names[k])
    ensures forall k :: 0 <= k < |names[1..]| ==> ValidName(names[1..][k])
  {
    forall k | 0 <= k < |names[1..]|
      ensures ValidName(names[1..][k])
    {
      assert names[1..][k] == names[k + 1];
    }
  }

  /** One step of `Names`: the first field, then the rest. */
  lemma NamesStep(data: seq<byte>, index: u32, tags: seq<byte>, names: seq<seq<byte>>, next: u32, end: u32)
    requires tags != [] && |tags| == |names|
    requires Field(data, index, tags[0]) == Ok((names[0], next))
    requires Names(data, next, tags[1..]) == Ok((names[1..], end))
    ensures Names(data, index, tags) == Ok((names, end))
  {
    assert [names[0]] + names[1..] == names;
  }

  /** An encoded trailer parses back to its length. */
  lemma TrailerOfEncoded(data: seq<byte>, index: u32, len: u32)
    requires |data| < TWO_32 && index + 5 <= |data|
    requires data[index .. index + 5] == EncodeTrailer(len)
    ensures Trailer(data, index) == Ok((len, index + 5))
  {
    var t := EncodeTrailer(len);
    assert data[index] == t[0];
    assert data[index + 1 .. index + 5] == t[1..];
  }

  /** Parsing an encoded header, whatever follows it, gives back every field
      of the header and the position where the configuration data starts. */
  lemma ParseEncode(f: BitFile, rest: seq<byte>)
    requires ValidFile(f)
    requires |Encode(f)| + |rest| < TWO_32
    ensures HeaderLengthFits(f)
    ensures Parse(Encode(f) + rest) == Ok(HeaderOf(f))
  {
    var data := Encode(f) + rest;
    var names := [f.designName, f.partName, f.date, f.time];
    var p := EncodePreamble(f.magicLength, f.magicEnd);
    var n := EncodeNames(FieldTags, names);
    var t := EncodeTrailer(f.bitstreamLength);
    NamesLength(names);
    assert data == p + n + (t + rest);
    assert data[..|p|] == p;
    PreambleOfEncoded(data, f.magicLength, f.magicEnd);
    SliceOfConcat(p, n, t + rest);
    NamesOfEncoded(data, |p|, FieldTags, names);
    assert data[|p| + |n| .. |p| + |n| + 5] == t;
    TrailerOfEncoded(data, |p| + |n|, f.bitstreamLength);
  }

  /** The header length of an encoding fits the parser's 32-bit cursor. */
  predicate HeaderLengthFits(f: BitFile)
  {
    f.magicLength + 21 + |f.designName| + |f.partName| + |f.date| + |f.time| < TWO_32
  }

  /** The header a successful parse saw, with the unchecked byte after the
      magic run taken from the data. */
  function FileOf(data: seq<byte>, h: Header): (r: BitFile)
    requires h.magicLength + 1 < |data|
  {
    BitFile(h.magicLength, data[h.magicLength + 1], h.designName, h.partName, h.date, h.time,
            h.bitstreamLength)
  }

  /** Conversely, everything a successful parse accepts is an encoding: the
      bytes up to the reported header length are exactly the encoding of the
      header it reports. */
  lemma ParseIsEncoding(data: seq<byte>)
    requires |data| < TWO_32 && Parse(data).Ok?
    ensures var h := Parse(data).value;
            && h.magicLength + 1 < |data|
            && ValidFile(FileOf(data, h))
            && HeaderLengthFits(FileOf(data, h))
            && HeaderOf(FileOf(data, h)) == h
            && data[..h.headerLength] == Encode(FileOf(data, h))
  {
    ParseUnfold(data);
    var pre := Preamble(data).value;
    var names := Names(data, pre.1, FieldTags).value;
    var trailer := Trailer(data, names.1).value;
    NamesLayout(data, pre.1, FieldTags);
    var h := Parse(data).value;
    assert names.0 == [h.designName, h.partName, h.date, h.time];
    var f := FileOf(data, h);
    assert ValidFile(f) by {
      assert ValidName(names.0[0]) && ValidName(names.0[1]) && ValidName(names.0[2]) && ValidName(names.0[3]);
    }
    NamesLength(names.0);
    assert trailer.1 == h.magicLength + 21 + |h.designName| + |h.partName| + |h.date| + |h.time|;
    var p := EncodePreamble(f.magicLength, f.magicEnd);
    var n := EncodeNames(FieldTags, names.0);
    var t := EncodeTrailer(f.bitstreamLength);
    assert data[..pre.1] == p;
    assert data[pre.1 .. names.1] == n;
    assert data[names.1 .. trailer.1] == t;
    assert Encode(f) == p + n + t;
    SplitPrefix(data, pre.1, names.1, trailer.1);
  }

  /** A successful parse is the preamble, the four fields and the trailer,
      read one after the other. */
  lemma ParseUnfold(data: seq<byte>)
    requires Parse(data).Ok?
    ensures Preamble(data).Ok?
    ensures var pre := Preamble(data).value;
            && Names(data, pre.1, FieldTags).Ok?
            && var names := Names(data, pre.1, FieldTags).value;
               && Trailer(data, names.1).Ok?
               && var trailer := Trailer(data, names.1).value;
                  Parse(data).value
                  == Header(trailer.1, trailer.0, pre.0, names.0[0], names.0[1], names.0[2], names.0[3])
  {
  }

  /** A header whose magic length is 0 never parses: the magic loop runs
      2^32 - 1 times, so it either reads past the data or, once the cursor
      wraps, reads the first byte (0, not 0x0f) as a magic byte. */
  lemma MagicLengthZeroNeverParses(data: seq<byte>)
    requires |data| >= 2 && data[0] == 0 && data[1] == 0
    ensures Parse(data).Err?
  {
    assert Next(data, 0) == Ok((data[0], 1));
    assert Next(data, 1) == Ok((data[1], 2));
    var count := Wrap32(BE16(data[0], data[1]) - 1);
    assert count == TWO_32 - 1;
    MagicZeroLoopFails(data, 0, 2);
    assert MagicLoop(data, 0, count, 2).Err?;
    assert Preamble(data).Err?;
  }

  lemma {:induction false} MagicZeroLoopFails(data: seq<byte>, i: nat, index: u32)
    requires |data| >= 1 && data[0] == 0
    requires i <= TWO_32 - 2 && index == Wrap32(i + 2)
    ensures MagicLoop(data, i, TWO_32 - 1, index).Err?
    decreases TWO_32 - 1 - i
  {
    if i < TWO_32 - 2 && index < |data| && data[index] == MagicByte(i) {
      assert Wrap32(index + 1) == Wrap32(i + 3);
      MagicZeroLoopFails(data, i + 1, Wrap32(index + 1));
    }
  }
}

=== FILE: bytes.dfy ===
/** Fixed-width machine integers, big-endian decoding and the C conversions
    (unsigned wrap-around, signed reinterpretation) the driver relies on.
 */
module Bytes {

  const TWO_8: nat := 0x100
  const TWO_16: nat := 0x1_0000
  const TWO_31: nat := 0x8000_0000
  const TWO_32: nat := 0x1_0000_0000
  const TWO_64: nat := 0x1_0000_0000_0000_0000

  type byte = x: nat | x < TWO_8
  type u16 = x: nat | x < TWO_16
  type u32 = x: nat | x < TWO_32
  type u64 = x: nat | x < TWO_64

  /** C `unsigned int` arithmetic: the mathematical value reduced modulo 2^32. */
  function Wrap32(x: int): (r: u32)
    ensures x >= 0 && x < TWO_32 ==> r == x
  {
    x % TWO_32
  }

  /** C `uint64_t` arithmetic: the mathematical value reduced modulo 2^64. */
  function Wrap64(x: int): (r: u64)
    ensures x >= 0 && x < TWO_64 ==> r == x
  {
    x % TWO_64
  }

  /** Reading a `u32` register into an `int` variable: two's-complement reinterpretation. */
  function Signed32(x: u32): (r: int)
    ensures -(TWO_31 as int) <= r < TWO_31
    ensures r >= 0 <==> x < TWO_31
  {
    if x < TWO_31 then x else x - TWO_32
  }

  /** Storing the reinterpreted value back into an `unsigned int` gives the
      register value again. */
  lemma Signed32Wraps(x: u32)
    ensures Wrap32(Signed32(x)) == x
  {
    if x >= TWO_31 {
      assert Signed32(x) + TWO_32 == x;
    }
  }

  /** Two bytes in big-endian order. */
  function BE16(hi: byte, lo: byte): (r: u16)
    ensures r / TWO_8 == hi && r % TWO_8 == lo
  {
    hi * TWO_8 + lo
  }

  /** Four bytes in big-endian order (the driver's `be32_to_cpu` of a loaded word). */
  function BE32(b0: byte, b1: byte, b2: byte, b3: byte): (r: u32)
    ensures r / 0x100_0000 == b0
    ensures r % 0x100_0000 == BE16(b1, b2) * TWO_8 + b3
  {
    b0 * 0x100_0000 + b1 * 0x1_0000 + b2 * TWO_8 + b3
  }

  /** The 32-bit words (big-endian) of the whole-word prefix of `bytes`; trailing
      bytes that do not fill a word are dropped, as `n / sizeof(u32)` does. */
  function Words(bytes: seq<byte>): (ws: seq<u32>)
    ensures |ws| == |bytes| / 4
    ensures forall k :: 0 <= k < |ws| ==>
      ws[k] == BE32(bytes[4 * k], bytes[4 * k + 1], bytes[4 * k + 2], bytes[4 * k + 3])
    decreases |bytes|
  {
    if |bytes| < 4 then []
    else [BE32(bytes[0], bytes[1], bytes[2], bytes[3])] + Words(bytes[4..])
  }

  /** Splitting a byte buffer at a word boundary splits its words. */
  lemma {:induction false} WordsAppend(a: seq<byte>, b: seq<byte>)
    requires |a| % 4 == 0
    ensures Words(a + b) == Words(a) + Words(b)
  {
    var l := Words(a + b);
    var r := Words(a) + Words(b);
    assert |l| == |r|;
    forall k | 0 <= k < |l|
      ensures l[k] == r[k]
    {
      if k < |a| / 4 {
        BytesOfLeft(a, b, 4 * k);
      } else {
        BytesOfRight(a, b, 4 * k, 4 * (k - |a| / 4));
      }
    }
  }

  lemma BytesOfLeft(a: seq<byte>, b: seq<byte>, i: nat)
    requires i + 4 <= |a|
    ensures (a + b)[i] == a[i] && (a + b)[i + 1] == a[i + 1]
    ensures (a + b)[i + 2] == a[i + 2] && (a + b)[i + 3] == a[i + 3]
  {
  }

  lemma BytesOfRight(a: seq<byte>, b: seq<byte>, i: nat, j: nat)
    requires i == |a| + j && j + 4 <= |b|
    ensures (a + b)[i] == b[j] && (a + b)[i + 1] == b[j + 1]
    ensures (a + b)[i + 2] == b[j + 2] && (a + b)[i + 3] == b[j + 3]
  {
  }

  /** Euclidean division brackets the dividend. */
  lemma DivBounds(n: nat, d: nat)
    requires d > 0
    ensures (n / d) * d <= n < (n / d + 1) * d
  {
  }

  lemma MulAtLeast(a: nat, b: nat, c: nat, e: nat)
    requires a >= c && b >= e
    ensures a * b >= c * e
  {
  }
}

=== FILE: clock_policy.dfy ===
/** What an xclbin's clock topology asks of the clock wizards: the slot
    ordering the driver stores it in, the validation and request order used
    when an xclbin is downloaded, and the bounds a user override must respect.

    Slot numbers follow the order the driver documents for its stored
    topology: 0 for the data clock, 1 for the kernel clock, 2 for the system
    clock. The stored copy has room for as many entries as the section
    holds; entries the copy loop does not write stay zero.
 */
module ClockPolicy {
  import opened Bytes
  import opened Errors
  import opened ClockTable
  import opened Registers
  import opened Axlf
  import opened IcapState
  import opened FreqScaling

  const DataSlot: nat := 0
  const KernelSlot: nat := 1
  const SystemSlot: nat := 2

  /** An empty (zero-filled) entry of the stored topology. */
  const Unused: ClockFreq := ClockFreq(0, CT_UNUSED)

  const EmptySlots: seq<ClockFreq> := [Unused, Unused, Unused, Unused]

  // ---------------------------------------------------------------------
  // icap_setup_clock_freq_topology
  // ---------------------------------------------------------------------

  /** The slot an entry of type `t` is stored in; other types end the copy. */
  function SlotOf(t: byte): (r: Option<nat>)
    ensures r == Some(SystemSlot) <==> t == CT_SYSTEM
    ensures r == Some(DataSlot) <==> t == CT_DATA
    ensures r == Some(KernelSlot) <==> t == CT_KERNEL
    ensures r.Some? ==> r.value < 3
  {
    if t == CT_SYSTEM then Some(SystemSlot)
    else if t == CT_DATA then Some(DataSlot)
    else if t == CT_KERNEL then Some(KernelSlot)
    else None
  }

  /** The copy loop from entry `i` on: entries below the declared count are
      written to their type's slot, a later entry of a type overwriting an
      earlier one; the first entry of any other type ends the copy. An entry
      the declared count reaches but the section does not hold is
      `OutOfRange`, and so is an entry whose slot lies past the stored copy:
      that copy is allocated with the section's size, so it has room for as
      many entries as the section holds, and a section of one or two entries
      has no slot 2. */
  function ArrangeFrom(raw: ClockTopology, i: nat, slots: seq<ClockFreq>): (r: Result<seq<ClockFreq>>)
    requires |slots| == NumClocks
    ensures r.Ok? ==> |r.value| == NumClocks && r.value[3] == slots[3]
    ensures r.Ok? ==> forall k :: 0 <= k < NumClocks && r.value[k] != slots[k] ==>
                        SlotOf(r.value[k].clockType) == Some(k)
    ensures r.Err? ==> r.error == OutOfRange
    decreases |raw.clocks| - i
  {
    if i >= raw.count then Ok(slots)
    else if i >= |raw.clocks| then Err(OutOfRange)
    else
      match SlotOf(raw.clocks[i].clockType)
      case None => Ok(slots)
      case Some(k) =>
        if k >= |raw.clocks| then Err(OutOfRange)
        else ArrangeFrom(raw, i + 1, slots[k := raw.clocks[i]])
  }

  /** Where the copy loop started at `i` stops: at the declared count, at the
      end of the section, or at the first entry of another type. */
  function CopyEnd(raw: ClockTopology, i: nat): (r: nat)
    requires i <= |raw.clocks|
    ensures i <= r <= |raw.clocks|
    ensures forall k :: i <= k < r ==> Copied(raw, k)
    ensures r < |raw.clocks| ==> !Copied(raw, r)
    decreases |raw.clocks| - i
  {
    if !Copied(raw, i) then i else CopyEnd(raw, i + 1)
  }

  /** The copy loop copies entry `k` when it reaches it: within the declared
      count and the section, and of a type that has a slot. */
  predicate Copied(raw: ClockTopology, k: nat)
  {
    k < raw.count && k < |raw.clocks| && SlotOf(raw.clocks[k].clockType).Some?
  }

  /** A copied entry whose slot lies inside the stored copy. */
  predicate SlotFits(raw: ClockTopology, k: nat)
  {
    Copied(raw, k) && SlotOf(raw.clocks[k].clockType).value < |raw.clocks|
  }

  /** The last entry among `lo .. hi - 1` that belongs in slot `s`. */
  function LastInSlot(clocks: seq<ClockFreq>, lo: nat, hi: nat, s: nat): (r: Option<ClockFreq>)
    requires lo <= hi <= |clocks|
    ensures r.None? <==> forall k :: lo <= k < hi ==> SlotOf(clocks[k].clockType) != Some(s)
    ensures r.Some? ==> exists k :: lo <= k < hi && clocks[k] == r.value
                          && SlotOf(clocks[k].clockType) == Some(s)
                          && forall l :: k < l < hi ==> SlotOf(clocks[l].clockType) != Some(s)
    decreases hi - lo
  {
    if lo == hi then None
    else
      var later := LastInSlot(clocks, lo + 1, hi, s);
      if later.Some? then later
      else if SlotOf(clocks[lo].clockType) == Some(s) then Some(clocks[lo])
      else None
  }

  /** The copy fails exactly when the declared count reaches past the section
      before the copy stops or a copied entry's slot lies past the stored
      copy. */
  lemma {:induction false} ArrangeFromFailsOnOverrun(raw: ClockTopology, i: nat, slots: seq<ClockFreq>)
    requires |slots| == NumClocks && i <= |raw.clocks|
    ensures var e := CopyEnd(raw, i);
            ArrangeFrom(raw, i, slots).Ok? <==>
              (e >= raw.count || e < |raw.clocks|) && (forall k :: i <= k < e ==> SlotFits(raw, k))
    decreases |raw.clocks| - i
  {
    if !Copied(raw, i) {
      assert CopyEnd(raw, i) == i;
    } else {
      var k := SlotOf(raw.clocks[i].clockType).value;
      assert CopyEnd(raw, i) == CopyEnd(raw, i + 1);
      if k >= |raw.clocks| {
        assert !SlotFits(raw, i);
      } else {
        var next := slots[k := raw.clocks[i]];
        assert ArrangeFrom(raw, i, slots) == ArrangeFrom(raw, i + 1, next);
        assert SlotFits(raw, i);
        ArrangeFromFailsOnOverrun(raw, i + 1, next);
      }
    }
  }

  /** When the copy succeeds, each slot ends up holding the last copied entry
      of its type, or what it held before when there is none. */
  lemma {:induction false} ArrangeFromKeepsLastOfEachType(raw: ClockTopology, i: nat, slots: seq<ClockFreq>)
    requires |slots| == NumClocks && i <= |raw.clocks|
    ensures ArrangeFrom(raw, i, slots).Ok? ==>
              forall s :: 0 <= s < NumClocks ==>
                ArrangeFrom(raw, i, slots).value[s]
                  == match LastInSlot(raw.clocks, i, CopyEnd(raw, i), s)
                     case None => slots[s]
                     case Some(f) => f
    decreases |raw.clocks| - i
  {
    if !Copied(raw, i) {
      assert CopyEnd(raw, i) == i;
    } else {
      var k := SlotOf(raw.clocks[i].clockType).value;
      assert CopyEnd(raw, i) == CopyEnd(raw, i + 1);
      if k < |raw.clocks| {
        var next := slots[k := raw.clocks[i]];
        assert ArrangeFrom(raw, i, slots) == ArrangeFrom(raw, i + 1, next);
        ArrangeFromKeepsLastOfEachType(raw, i + 1, next);
      }
    }
  }

  /** A section of one entry, a system clock, is stored into a copy with room
      for one entry, yet the entry goes to slot 2: the copy overruns. */
  lemma ShortSectionWithSystemClockOverruns(s: Icap, c: Container)
    requires SectionHeaderOf(c, CLOCK_FREQ_TOPOLOGY).Some?
    requires c.clockSection.count >= 1 && |c.clockSection.clocks| == 1
    requires c.clockSection.clocks[0].clockType == CT_SYSTEM
    ensures SetupClockFreqTopology(s, c) == Err(OutOfRange)
  {
    assert ArrangeFrom(c.clockSection, 0, EmptySlots) == Err(OutOfRange);
  }

  /** The stored entries: entry `s` holds either nothing or an entry whose
      type belongs in slot `s`. No type belongs past slot 2, so every later
      entry holds nothing. */
  predicate SlotOrdered(slots: seq<ClockFreq>)
  {
    forall s :: 0 <= s < |slots| && slots[s] != Unused ==> SlotOf(slots[s].clockType) == Some(s)
  }

  /** The stored copy of a section of `size` entries: the arranged slots
      where the copy has room for them, zero entries everywhere else. */
  function StoredCopy(slots: seq<ClockFreq>, size: nat): (r: seq<ClockFreq>)
    requires |slots| == NumClocks
    ensures |r| == size
    ensures forall k :: 0 <= k < size ==> r[k] == if k < NumClocks then slots[k] else Unused
  {
    seq(size, k => if 0 <= k < NumClocks then slots[k] else Unused)
  }

  /** icap_setup_clock_freq_topology: without a usable clock-topology header
      the stored topology is left as it is; otherwise it is replaced by a
      copy the size of the section holding the declared count and the
      section's entries arranged in slot order. */
  function SetupClockFreqTopology(s: Icap, c: Container): (r: Result<Icap>)
    ensures SectionHeaderOf(c, CLOCK_FREQ_TOPOLOGY).None? ==> r == Ok(s)
    ensures r.Ok? ==> r.value.(topology := s.topology) == s
    ensures r.Ok? && SectionHeaderOf(c, CLOCK_FREQ_TOPOLOGY).Some? ==>
              r.value.topology.Some? && r.value.topology.value.count == c.clockSection.count
              && |r.value.topology.value.clocks| == |c.clockSection.clocks|
              && SlotOrdered(r.value.topology.value.clocks)
    ensures r.Err? ==> r.error == OutOfRange
  {
    if SectionHeaderOf(c, CLOCK_FREQ_TOPOLOGY).None? then Ok(s)
    else
      var slots :- ArrangeFrom(c.clockSection, 0, EmptySlots);
      Ok(s.(topology := Some(ClockTopology(c.clockSection.count,
                                           StoredCopy(slots, |c.clockSection.clocks|)))))
  }

  // ---------------------------------------------------------------------
  // axlf_set_freqscaling
  // ---------------------------------------------------------------------

  /** Entries of type `t`. */
  function TypeCount(clocks: seq<ClockFreq>, t: byte): (r: nat)
    ensures r <= |clocks|
    ensures r == 0 <==> forall k :: 0 <= k < |clocks| ==> clocks[k].clockType != t
  {
    if |clocks| == 0 then 0
    else
      var init := clocks[..|clocks| - 1];
      assert forall k :: 0 <= k < |init| ==> init[k] == clocks[k];
      TypeCount(init, t) + (if clocks[|clocks| - 1].clockType == t then 1 else 0)
  }

  /** Frequency of the last entry of type `t`, 0 when there is none: each
      matching entry overwrites the target. */
  function LastFreqOf(clocks: seq<ClockFreq>, t: byte): u16
  {
    if |clocks| == 0 then 0
    else if clocks[|clocks| - 1].clockType == t then clocks[|clocks| - 1].freqMhz
    else LastFreqOf(clocks[..|clocks| - 1], t)
  }

  /** Frequencies of the system-clock entries, in order. */
  function SystemFreqs(clocks: seq<ClockFreq>): (r: seq<u16>)
    ensures |r| == TypeCount(clocks, CT_SYSTEM)
  {
    if |clocks| == 0 then []
    else
      SystemFreqs(clocks[..|clocks| - 1])
      + (if clocks[|clocks| - 1].clockType == CT_SYSTEM then [clocks[|clocks| - 1].freqMhz] else [])
  }

  /** The shapes axlf_set_freqscaling accepts: one data clock, one kernel
      clock and at most two system clocks. */
  predicate CountsOk(clocks: seq<ClockFreq>)
  {
    TypeCount(clocks, CT_DATA) == 1 && TypeCount(clocks, CT_KERNEL) == 1
    && TypeCount(clocks, CT_SYSTEM) <= 2
  }

  /** The four requests in the driver's order: data, kernel, then the system
      clocks in order, unused requests 0. */
  function Targets(clocks: seq<ClockFreq>): (r: seq<u16>)
    requires TypeCount(clocks, CT_SYSTEM) <= 2
    ensures |r| == NumClocks
  {
    var sys := SystemFreqs(clocks);
    [LastFreqOf(clocks, CT_DATA), LastFreqOf(clocks, CT_KERNEL)] + sys + seq(2 - |sys|, _ => 0)
  }

  /** What a topology asks for: the data clock's frequency first, the kernel
      clock's second, then the system clocks' in order and 0 for the rest. */
  predicate RequestsFor(clocks: seq<ClockFreq>, targets: seq<u16>)
  {
    && |targets| == NumClocks
    && (forall k :: 0 <= k < |clocks| && clocks[k].clockType == CT_DATA ==> targets[0] == clocks[k].freqMhz)
    && (forall k :: 0 <= k < |clocks| && clocks[k].clockType == CT_KERNEL ==> targets[1] == clocks[k].freqMhz)
    && (forall j :: 2 <= j < NumClocks ==>
          targets[j] == if j - 2 < |SystemFreqs(clocks)| then SystemFreqs(clocks)[j - 2] else 0)
  }

  /** With a single entry of type `t`, the last frequency of that type is its frequency. */
  lemma {:induction false} LastFreqOfSingle(clocks: seq<ClockFreq>, t: byte, k: nat)
    requires k < |clocks| && clocks[k].clockType == t && TypeCount(clocks, t) == 1
    ensures LastFreqOf(clocks, t) == clocks[k].freqMhz
    decreases |clocks|
  {
    var n := |clocks| - 1;
    var init := clocks[..n];
    if k < n {
      assert init[k] == clocks[k];
      if clocks[n].clockType == t {
        assert false;
      } else {
        LastFreqOfSingle(init, t, k);
      }
    }
  }

  /** For a topology of an accepted shape, the driver's requests are exactly
      what the topology asks for. */
  lemma TargetsMeetRequests(clocks: seq<ClockFreq>)
    requires CountsOk(clocks)
    ensures RequestsFor(clocks, Targets(clocks))
  {
    var targets := Targets(clocks);
    forall k | 0 <= k < |clocks| && clocks[k].clockType == CT_DATA
      ensures targets[0] == clocks[k].freqMhz
    {
      LastFreqOfSingle(clocks, CT_DATA, k);
    }
    forall k | 0 <= k < |clocks| && clocks[k].clockType == CT_KERNEL
      ensures targets[1] == clocks[k].freqMhz
    {
      LastFreqOfSingle(clocks, CT_KERNEL, k);
    }
  }

  /** The requests are determined by the topology: two request lists that
      both meet an accepted topology agree. */
  lemma RequestsAreUnique(clocks: seq<ClockFreq>, a: seq<u16>, b: seq<u16>)
    requires CountsOk(clocks) && RequestsFor(clocks, a) && RequestsFor(clocks, b)
    ensures a == b
  {
    var d :| 0 <= d < |clocks| && clocks[d].clockType == CT_DATA;
    var k :| 0 <= k < |clocks| && clocks[k].clockType == CT_KERNEL;
    assert a[0] == b[0] && a[1] == b[1];
    assert a[2] == b[2] && a[3] == b[3];
  }

  /** axlf_set_freqscaling: without a stored topology nothing is requested.
      More than four declared clocks, or a shape other than one data, one
      kernel and at most two system clocks among the declared entries, is
      EDOM before any register is touched; otherwise the four requests go to
      set_freqs. */
  function AxlfSetFreqscaling(s: Icap, rd: Reads, c: nat): (r: Update)
    requires WellFormed(s)
    ensures WellFormed(r.state)
    ensures !s.gateFrozen ==> !r.state.gateFrozen
    ensures r.state.(oclFrequency := s.oclFrequency, gateFrozen := s.gateFrozen) == s
    ensures s.topology.None? ==> r == Update(Pass, s, [], c)
    ensures s.topology.Some? && s.topology.value.count > 4 ==> r == Update(Fail(EDOM), s, [], c)
    ensures s.topology.Some? && s.topology.value.count <= 4 ==>
              var t := s.topology.value;
              var n := if t.count < 0 then 0 else t.count;
              && (n > |t.clocks| ==> r == Update(Fail(OutOfRange), s, [], c))
              && (n <= |t.clocks| && !CountsOk(t.clocks[..n]) ==> r == Update(Fail(EDOM), s, [], c))
              && (n <= |t.clocks| && CountsOk(t.clocks[..n]) ==>
                    exists targets :: RequestsFor(t.clocks[..n], targets)
                                      && r == SetFreqs(s, targets, NumClocks, rd, c))
  {
    match s.topology
    case None => Update(Pass, s, [], c)
    case Some(t) =>
      if t.count > 4 then Update(Fail(EDOM), s, [], c)
      else
        var n := if t.count < 0 then 0 else t.count;
        if n > |t.clocks| then Update(Fail(OutOfRange), s, [], c)
        else
          var clocks := t.clocks[..n];
          if !CountsOk(clocks) then Update(Fail(EDOM), s, [], c)
          else
            TargetsMeetRequests(clocks);
            SetFreqs(s, Targets(clocks), NumClocks, rd, c)
  }

  /** Slot-ordered entries hold at most one system clock. */
  lemma {:induction false} SlotOrderedHasOneSystemClock(slots: seq<ClockFreq>, n: nat)
    requires SlotOrdered(slots) && n <= |slots|
    ensures TypeCount(slots[..n], CT_SYSTEM) <= 1
    ensures n <= SystemSlot ==> TypeCount(slots[..n], CT_SYSTEM) == 0
    decreases n
  {
    if n > 0 {
      var init := slots[..n][..n - 1];
      assert init == slots[..n - 1];
      SlotOrderedHasOneSystemClock(slots, n - 1);
      var last := slots[n - 1];
      if n - 1 != SystemSlot {
        assert last.clockType != CT_SYSTEM;
      }
    }
  }

  /** Once the topology is stored in slot order, a download never requests
      the fourth clock: both system clocks share slot 2, so a second system
      clock overwrites the first instead of reaching slot 3. */
  lemma SecondSystemClockIsNeverRequested(slots: seq<ClockFreq>, n: nat)
    requires SlotOrdered(slots) && n <= |slots| && CountsOk(slots[..n])
    ensures Targets(slots[..n])[3] == 0
  {
    SlotOrderedHasOneSystemClock(slots, n);
  }

  /** After icap_setup_clock_freq_topology has stored a topology from a
      section, axlf_set_freqscaling reads past the stored copy when the
      declared count exceeds the section's entries, and otherwise requests
      nothing of the fourth clock. */
  lemma DownloadLeavesFourthClockAlone(s: Icap, c: Container, rd: Reads, cur: nat)
    requires WellFormed(s)
    requires SectionHeaderOf(c, CLOCK_FREQ_TOPOLOGY).Some?
    requires SetupClockFreqTopology(s, c).Ok?
    ensures var stored := SetupClockFreqTopology(s, c).value;
            var t := stored.topology.value;
            t.count <= 4 && Clamp(t.count) > |c.clockSection.clocks| ==>
              AxlfSetFreqscaling(stored, rd, cur) == Update(Fail(OutOfRange), stored, [], cur)
    ensures var stored := SetupClockFreqTopology(s, c).value;
            var t := stored.topology.value;
            t.count <= 4 && Clamp(t.count) <= |c.clockSection.clocks| && CountsOk(t.clocks[..Clamp(t.count)]) ==>
              exists targets :: |targets| == NumClocks && targets[3] == 0
                                && RequestsFor(t.clocks[..Clamp(t.count)], targets)
                                && AxlfSetFreqscaling(stored, rd, cur) == SetFreqs(stored, targets, NumClocks, rd, cur)
  {
    var stored := SetupClockFreqTopology(s, c).value;
    var t := stored.topology.value;
    var n := Clamp(t.count);
    if t.count <= 4 && n <= |t.clocks| && CountsOk(t.clocks[..n]) {
      var targets := Targets(t.clocks[..n]);
      TargetsMeetRequests(t.clocks[..n]);
      SecondSystemClockIsNeverRequested(t.clocks, n);
      assert AxlfSetFreqscaling(stored, rd, cur) == SetFreqs(stored, targets, NumClocks, rd, cur);
    }
  }

  /** A section declaring four clocks but holding one entry of another type
      sets up without error, since the copy stops at that entry; the stored
      copy then holds one entry, and both later readers of the declared
      clocks read past it. */
  lemma ShortSectionIsOverreadLater(s: Icap, c: Container, rd: Reads, cur: nat)
    requires WellFormed(s)
    requires SectionHeaderOf(c, CLOCK_FREQ_TOPOLOGY).Some?
    requires c.clockSection.count == 4 && c.clockSection.clocks == [ClockFreq(0, CT_UNUSED)]
    ensures SetupClockFreqTopology(s, c).Ok?
    ensures |SetupClockFreqTopology(s, c).value.topology.value.clocks| == 1
    ensures AxlfSetFreqscaling(SetupClockFreqTopology(s, c).value, rd, cur).result == Fail(OutOfRange)
    ensures s.uuid != NullUuid ==> FreqMaxMin(SetupClockFreqTopology(s, c).value, 1) == Err(OutOfRange)
  {
    assert ArrangeFrom(c.clockSection, 0, EmptySlots) == Ok(EmptySlots);
  }

  /** A declared count as a number of entries: negative counts read as none. */
  function Clamp(count: int): (r: nat)
    ensures count <= 0 ==> r == 0
    ensures count >= 0 ==> r == count
  {
    if count < 0 then 0 else count
  }

  // ---------------------------------------------------------------------
  // User overrides: icap_ocl_update_clock_freq_topology
  // ---------------------------------------------------------------------

  /** icap_get_ocl_frequency_max_min: the bounds stay (0, 0) without a loaded
      xclbin, without a stored topology, or for a clock past the declared
      count; otherwise the maximum is the topology's frequency for that clock
      and the minimum the table's lowest step. */
  function FreqMaxMin(s: Icap, idx: nat): (r: Result<(u16, u16)>)
    ensures s.uuid == NullUuid || s.topology.None? || idx >= s.topology.value.count ==> r == Ok((0, 0))
    ensures s.uuid != NullUuid && s.topology.Some? && idx < s.topology.value.count ==>
              (idx < |s.topology.value.clocks| <==> r.Ok?)
    ensures r.Ok? && s.uuid != NullUuid && s.topology.Some? && idx < s.topology.value.count ==>
              r.value == (s.topology.value.clocks[idx].freqMhz, Table[0].ocl)
    ensures r.Err? ==> r.error == OutOfRange
  {
    if s.uuid == NullUuid || s.topology.None? then Ok((0, 0))
    else
      var t := s.topology.value;
      if idx >= t.count then Ok((0, 0))
      else if idx >= |t.clocks| then Err(OutOfRange)
      else Ok((t.clocks[idx].freqMhz, Table[0].ocl))
  }

  /** The override check from clock `i` on: a non-zero request outside its
      clock's bounds is EDOM, checked in clock order. */
  function BoundsFrom(s: Icap, targets: seq<u16>, i: nat): (r: Outcome)
    requires i <= |targets|
    decreases |targets| - i
  {
    if i == |targets| then Pass
    else if targets[i] == 0 then BoundsFrom(s, targets, i + 1)
    else
      match FreqMaxMin(s, i)
      case Err(e) => Fail(e)
      case Ok(bounds) =>
        if targets[i] > bounds.0 || targets[i] < bounds.1 then Fail(EDOM)
        else BoundsFrom(s, targets, i + 1)
  }

  /** Every non-zero request names a declared clock of the stored topology
      and lies between the table's lowest step and that clock's frequency. */
  predicate WithinBounds(t: ClockTopology, targets: seq<u16>, lo: nat)
  {
    forall i :: lo <= i < |targets| && targets[i] != 0 ==>
      i < t.count && i < |t.clocks| && Table[0].ocl <= targets[i] <= t.clocks[i].freqMhz
  }

  /** The override check passes exactly when every request is within bounds. */
  lemma {:induction false} BoundsFromIsWithinBounds(s: Icap, targets: seq<u16>, i: nat)
    requires i <= |targets| && s.uuid != NullUuid && s.topology.Some?
    ensures BoundsFrom(s, targets, i) == Pass <==> WithinBounds(s.topology.value, targets, i)
    ensures BoundsFrom(s, targets, i).Fail? ==> BoundsFrom(s, targets, i).error in {EDOM, OutOfRange}
    decreases |targets| - i
  {
    if i < |targets| {
      BoundsFromIsWithinBounds(s, targets, i + 1);
    }
  }

  /** icap_ocl_update_clock_freq_topology: without a loaded xclbin or a
      stored topology, or with any request out of bounds, the request is
      refused before any register is touched; otherwise all four requests go
      to set_and_verify_freqs. */
  function UpdateClockFreqTopology(s: Icap, targets: seq<u16>, rd: Reads, c: nat): (r: Verification)
    requires WellFormed(s) && |targets| == NumClocks
    ensures s.uuid == NullUuid || s.topology.None? ==> r == Verification(Fail(EDOM), s, [], [], c)
    ensures s.uuid != NullUuid && s.topology.Some? && !WithinBounds(s.topology.value, targets, 0) ==>
              r.result.Fail? && r.result.error in {EDOM, OutOfRange} && r == Verification(r.result, s, [], [], c)
    ensures s.uuid != NullUuid && s.topology.Some? && WithinBounds(s.topology.value, targets, 0) ==>
              r == SetAndVerifyFreqs(s, targets, NumClocks, rd, c)
  {
    if s.uuid == NullUuid || s.topology.None? then Verification(Fail(EDOM), s, [], [], c)
    else
      BoundsFromIsWithinBounds(s, targets, 0);
      match BoundsFrom(s, targets, 0)
      case Fail(e) => Verification(Fail(e), s, [], [], c)
      case Pass => SetAndVerifyFreqs(s, targets, NumClocks, rd, c)
  }

  /** A request for a clock past the declared count is always refused: its
      upper bound reads as 0. */
  lemma RequestPastDeclaredClocksIsRefused(s: Icap, targets: seq<u16>, i: nat, rd: Reads, c: nat)
    requires WellFormed(s) && |targets| == NumClocks
    requires s.uuid != NullUuid && s.topology.Some?
    requires i < NumClocks && targets[i] != 0 && i >= s.topology.value.count
    ensures UpdateClockFreqTopology(s, targets, rd, c).result.Fail?
    ensures UpdateClockFreqTopology(s, targets, rd, c).writes == []
  {
  }
}

=== FILE: clock_table.dfy ===
/** The clock-wizard step table, the floor lookup over it, and the decoding of
    a clock wizard's dynamic-reconfiguration registers back into a frequency
    (Clocking Wizard v5.1, "Dynamic Reconfiguration through AXI4-Lite").
 */
module ClockTable {
  import opened Bytes

  /** One precomputed step: target frequency in MHz and the CONFIG0 / CONFIG2
      register values that produce it. */
  datatype ClockWiz = ClockWiz(ocl: u16, config0: u32, config2: u16)

  const TableSize: nat := 40

  /** Reference input clock of every clock wizard, in MHz. */
  const InputFreq: nat := 100

  const Table: seq<ClockWiz> := [
    ClockWiz(60, 0x0601, 0x000a),
    ClockWiz(66, 0x0601, 0x0009),
    ClockWiz(75, 0x0601, 0x0008),
    ClockWiz(80, 0x0801, 0x000a),
    ClockWiz(85, 0x0601, 0x0007),
    ClockWiz(90, 0x0901, 0x000a),
    ClockWiz(100, 0x0a01, 0x000a),
    ClockWiz(110, 0x0b01, 0x000a),
    ClockWiz(116, 0x0701, 0x0006),
    ClockWiz(122, 0x0b01, 0x0009),
    ClockWiz(128, 0x0901, 0x0007),
    ClockWiz(133, 0x0c01, 0x0009),
    ClockWiz(140, 0x0e01, 0x000a),
    ClockWiz(150, 0x0c01, 0x0008),
    ClockWiz(155, 0x0e01, 0x0009),
    ClockWiz(160, 0x0801, 0x0005),
    ClockWiz(166, 0x0a01, 0x0006),
    ClockWiz(171, 0x0c01, 0x0007),
    ClockWiz(180, 0x0901, 0x0005),
    ClockWiz(185, 0x0d01, 0x0007),
    ClockWiz(200, 0x0e01, 0x0007),
    ClockWiz(216, 0x0d01, 0x0006),
    ClockWiz(225, 0x0901, 0x0004),
    ClockWiz(233, 0x0e01, 0x0006),
    ClockWiz(240, 0x0c01, 0x0005),
    ClockWiz(250, 0x0a01, 0x0004),
    ClockWiz(260, 0x0d01, 0x0005),
    ClockWiz(266, 0x0801, 0x0003),
    ClockWiz(275, 0x0b01, 0x0004),
    ClockWiz(280, 0x0e01, 0x0005),
    ClockWiz(300, 0x0c01, 0x0004),
    ClockWiz(325, 0x0d01, 0x0004),
    ClockWiz(333, 0x0a01, 0x0003),
    ClockWiz(350, 0x0e01, 0x0004),
    ClockWiz(366, 0x0b01, 0x0003),
    ClockWiz(400, 0x0c01, 0x0003),
    ClockWiz(433, 0x0d01, 0x0003),
    ClockWiz(450, 0x0901, 0x0002),
    ClockWiz(466, 0x0e01, 0x0003),
    ClockWiz(500, 0x0a01, 0x0002)
  ]

  ghost predicate StrictlyAscending(t: seq<ClockWiz>)
  {
    forall i, j :: 0 <= i < j < |t| ==> t[i].ocl < t[j].ocl
  }

  /** The table has forty entries, strictly ascending by frequency, from 60 to 500 MHz. */
  lemma TableStrictlyAscending()
    ensures |Table| == TableSize
    ensures Table[0].ocl == 60 && Table[TableSize - 1].ocl == 500
    ensures StrictlyAscending(Table)
  {
    assert forall i :: 0 <= i < |Table| - 1 ==> Table[i].ocl < Table[i + 1].ocl;
    AscendingFromNeighbours(Table);
  }

  /** A table whose neighbours ascend is strictly ascending. */
  lemma {:induction false} AscendingFromNeighbours(t: seq<ClockWiz>)
    requires forall i :: 0 <= i < |t| - 1 ==> t[i].ocl < t[i + 1].ocl
    ensures StrictlyAscending(t)
  {
    forall i, j | 0 <= i < j < |t|
      ensures t[i].ocl < t[j].ocl
    {
      NeighboursReach(t, i, j);
    }
  }

  lemma {:induction false} NeighboursReach(t: seq<ClockWiz>, i: nat, j: nat)
    requires forall i :: 0 <= i < |t| - 1 ==> t[i].ocl < t[i + 1].ocl
    requires i < j < |t|
    ensures t[i].ocl < t[j].ocl
    decreases j - i
  {
    if i + 1 < j {
      NeighboursReach(t, i + 1, j);
    }
  }

  /** The largest index j <= i of t whose frequency is at most freq, or 0 if none is. */
  function FloorFrom(t: seq<ClockWiz>, freq: int, i: nat): (r: nat)
    requires i < |t|
    ensures r <= i
    ensures r > 0 || t[0].ocl <= freq ==> t[r].ocl <= freq
    ensures forall j :: r < j <= i ==> freq < t[j].ocl
  {
    if i == 0 || t[i].ocl <= freq then i else FloorFrom(t, freq, i - 1)
  }

  /** Reference lookup in any table: the greatest index whose step is at or
      below freq, or the first index when every step is above it. */
  function FloorIn(t: seq<ClockWiz>, freq: int): (r: nat)
    requires |t| > 0
    ensures r < |t|
    ensures freq >= t[|t| - 1].ocl ==> r == |t| - 1
    ensures r > 0 || t[0].ocl <= freq ==> t[r].ocl <= freq
    ensures r + 1 < |t| ==> freq < t[r + 1].ocl
  {
    FloorFrom(t, freq, |t| - 1)
  }

  /** The lookup never rounds up to a nearer step above the request. */
  lemma FloorInIsGreatestAtOrBelow(t: seq<ClockWiz>, freq: int, j: nat)
    requires StrictlyAscending(t)
    requires j < |t| && t[j].ocl <= freq
    ensures j <= FloorIn(t, freq)
  {
  }

  /** Looking up a step's own frequency finds that step. */
  lemma FloorInOfEntry(t: seq<ClockWiz>, i: nat)
    requires StrictlyAscending(t)
    requires i < |t|
    ensures FloorIn(t, t[i].ocl) == i
  {
    FloorInIsGreatestAtOrBelow(t, t[i].ocl, i);
  }

  /** The lookup is monotone in the requested frequency. */
  lemma FloorInMonotone(t: seq<ClockWiz>, f1: int, f2: int)
    requires StrictlyAscending(t) && |t| > 0
    requires f1 <= f2
    ensures FloorIn(t, f1) <= FloorIn(t, f2)
  {
    var r1 := FloorIn(t, f1);
    if t[0].ocl <= f1 {
      FloorInIsGreatestAtOrBelow(t, f2, r1);
    }
  }

  /** find_matching_freq_config: the driver's binary search, which maintains
      that everything left of start is below freq and end is above it (unless
      end is still the last entry), and steps back by one when it stops on an
      entry above freq. */
  method FindMatchingFreqConfig(t: seq<ClockWiz>, freq: u32) returns (idx: nat)
    requires |t| > 0 && StrictlyAscending(t)
    ensures idx < |t|
    ensures freq < t[0].ocl ==> idx == 0
    ensures freq > t[|t| - 1].ocl ==> idx == |t| - 1
    ensures t[0].ocl <= freq ==> t[idx].ocl <= freq
    ensures idx + 1 < |t| ==> freq < t[idx + 1].ocl
  {
    var start: nat := 0;
    var end: nat := |t| - 1;
    idx := |t| - 1;

    if freq < t[0].ocl {
      return 0;
    }
    if freq > t[|t| - 1].ocl {
      return |t| - 1;
    }

    while start < end
      invariant start <= idx <= end <= |t| - 1
      invariant start > 0 ==> t[start - 1].ocl < freq
      invariant end < |t| - 1 ==> freq < t[end].ocl
      invariant idx == end ==> start == end || end == |t| - 1
      decreases end - start, if idx == end then 1 else 0
    {
      if freq == t[idx].ocl {
        break;
      }
      if freq < t[idx].ocl {
        end := idx;
      } else {
        start := idx + 1;
      }
      idx := start + (end - start) / 2;
    }
    if freq < t[idx].ocl {
      idx := idx - 1;
    }
  }

  /** The driver's lookup over the step table. */
  function FloorStep(freq: int): (r: nat)
    ensures r < TableSize
  {
    FloorIn(Table, freq)
  }

  /** Over the driver's table the lookup clamps to 60 and 500 MHz, returns the
      greatest step at or below any request in between, finds every step from
      its own frequency, and agrees with the binary search. */
  lemma FloorStepSpec(freq: u32, i: nat)
    requires i < TableSize
    ensures freq < 60 ==> FloorStep(freq) == 0
    ensures freq > 500 ==> FloorStep(freq) == TableSize - 1
    ensures 60 <= freq ==> Table[FloorStep(freq)].ocl <= freq
    ensures Table[i].ocl <= freq ==> i <= FloorStep(freq)
    ensures FloorStep(Table[i].ocl) == i
  {
    TableStrictlyAscending();
    if Table[i].ocl <= freq {
      FloorInIsGreatestAtOrBelow(Table, freq, i);
    }
    FloorInOfEntry(Table, i);
  }

  /** The binary search over the driver's table computes the reference lookup. */
  method FindMatchingFreqConfigOfTable(freq: u32) returns (idx: nat)
    ensures idx < TableSize
    ensures idx == FloorStep(freq)
  {
    TableStrictlyAscending();
    idx := FindMatchingFreqConfig(Table, freq);
    FloorInUnique(Table, freq, idx);
  }

  /** An index with the floor's properties is the floor. */
  lemma FloorInUnique(t: seq<ClockWiz>, freq: int, idx: nat)
    requires StrictlyAscending(t) && idx < |t|
    requires freq < t[0].ocl ==> idx == 0
    requires t[0].ocl <= freq ==> t[idx].ocl <= freq
    requires idx + 1 < |t| ==> freq < t[idx + 1].ocl
    ensures idx == FloorIn(t, freq)
  {
    if t[0].ocl <= freq {
      FloorInIsGreatestAtOrBelow(t, freq, idx);
    }
    FloorInAtMost(t, freq, idx);
  }

  /** The lookup stops below any step whose successor is above the request. */
  lemma FloorInAtMost(t: seq<ClockWiz>, freq: int, idx: nat)
    requires StrictlyAscending(t) && idx < |t|
    requires idx + 1 < |t| ==> freq < t[idx + 1].ocl
    ensures FloorIn(t, freq) <= idx
  {
  }

  /** A higher request never resolves to a lower step. */
  lemma FloorStepMonotone(f1: int, f2: int)
    requires f1 <= f2
    ensures FloorStep(f1) <= FloorStep(f2)
  {
    TableStrictlyAscending();
    FloorInMonotone(Table, f1, f2);
  }

  /** find_matching_freq: the frequency of the step a request resolves to. */
  function MatchingFreq(freq: int): (r: u16)
    ensures 60 <= r <= 500
    ensures 60 <= freq ==> r <= freq
  {
    TableStrictlyAscending();
    var i := FloorStep(freq);
    assert Table[0].ocl <= Table[i].ocl by {
      if 0 < i {
        assert Table[0].ocl < Table[i].ocl;
      }
    }
    assert Table[i].ocl <= Table[TableSize - 1].ocl by {
      if i < TableSize - 1 {
        assert Table[i].ocl < Table[TableSize - 1].ocl;
      }
    }
    Table[i].ocl
  }

  // ---------------------------------------------------------------------
  // Decoding CONFIG0 / CONFIG2 (fixed point in thousandths)
  // ---------------------------------------------------------------------

  /** CONFIG0 bits 7:0: the input divider. */
  function Div0(config0: u32): (r: nat)
    ensures r < 0x100
  {
    config0 % 0x100
  }

  /** CONFIG0 bits 15:8, plus bits 25:16 as thousandths when bit 26 is set:
      the feedback multiplier times 1000. */
  function MultiplierMilli(config0: u32): (r: nat)
    ensures r <= 256_023
  {
    var mul := (config0 / 0x100) % 0x100;
    var frac := if (config0 / 0x400_0000) % 2 == 1 then (config0 / 0x1_0000) % 0x400 else 0;
    mul * 1000 + frac
  }

  /** CONFIG2 bits 7:0, plus bits 17:8 as thousandths when bit 18 is set:
      the output divider times 1000. */
  function Div1Milli(config2: u32): (r: nat)
    ensures r <= 256_023
  {
    var div := config2 % 0x100;
    var frac := if (config2 / 0x4_0000) % 2 == 1 then (config2 / 0x100) % 0x400 else 0;
    div * 1000 + frac
  }

  /** The combined divider times 10^6, held exactly. */
  function DividerMicro(config0: u32, config2: u32): nat
  {
    Div0(config0) * 1000 * Div1Milli(config2)
  }

  /** The input frequency times the multiplier, times 10^6. */
  function NumeratorMicro(config0: u32): nat
  {
    InputFreq * (MultiplierMilli(config0) * 1000)
  }

  lemma QuotientFits(n: nat, d: nat)
    requires d > 0 && n < TWO_16 * d
    ensures n / d < TWO_16
    ensures (n / d) % TWO_16 == n / d
    ensures (n / d) * d <= n < (n / d + 1) * d
  {
    var q := n / d;
    DivBounds(n, d);
    if q >= TWO_16 {
      MulAtLeast(q, d, TWO_16, d);
      assert false;
    }
    assert q % TWO_16 == q;
  }

  /** The clock wizard's frequency in MHz, input * (mul + mul_frac/1000) /
      (div0 * (div1 + div1_frac/1000)) rounded down, returned through the
      driver's 16-bit result; a zero divider reads as 0. */
  function Decode(config0: u32, config2: u32): (r: u16)
    ensures DividerMicro(config0, config2) == 0 ==> r == 0
  {
    var d := DividerMicro(config0, config2);
    if d == 0 then 0 else (NumeratorMicro(config0) / d) % TWO_16
  }

  /** Whenever the frequency fits the 16-bit result, the decode is exactly the
      rounded-down quotient of numerator by divider. */
  lemma DecodeIsRoundedDownFrequency(config0: u32, config2: u32)
    requires DividerMicro(config0, config2) > 0
    requires NumeratorMicro(config0) < TWO_16 * DividerMicro(config0, config2)
    ensures Decode(config0, config2) * DividerMicro(config0, config2) <= NumeratorMicro(config0)
    ensures NumeratorMicro(config0) < (Decode(config0, config2) + 1) * DividerMicro(config0, config2)
  {
    var n, d := NumeratorMicro(config0), DividerMicro(config0, config2);
    QuotientFits(n, d);
    var r := Decode(config0, config2);
    assert r == n / d;
  }

  /** A frequency of 65536 MHz or more does not fit the driver's u16 result:
      the report falls short of the rounded-down quotient by a positive
      multiple of 65536, so it is the quotient reduced modulo 2^16. */
  lemma DecodeTruncatesLargeFrequency(config0: u32, config2: u32)
    requires DividerMicro(config0, config2) > 0
    requires NumeratorMicro(config0) >= TWO_16 * DividerMicro(config0, config2)
    ensures NumeratorMicro(config0) / DividerMicro(config0, config2) >= TWO_16
    ensures Decode(config0, config2) < NumeratorMicro(config0) / DividerMicro(config0, config2)
    ensures (NumeratorMicro(config0) / DividerMicro(config0, config2) - Decode(config0, config2)) % TWO_16 == 0
  {
    var n, d := NumeratorMicro(config0), DividerMicro(config0, config2);
    QuotientAtLeast(n, d);
    ModuloFallsShort(n / d);
  }

  lemma QuotientAtLeast(n: nat, d: nat)
    requires d > 0 && n >= TWO_16 * d
    ensures n / d >= TWO_16
  {
    DivBounds(n, d);
    if n / d < TWO_16 {
      MulAtLeast(TWO_16, d, n / d + 1, d);
    }
  }

  lemma ModuloFallsShort(q: nat)
    requires q >= TWO_16
    ensures q % TWO_16 < q
    ensures (q - q % TWO_16) % TWO_16 == 0
  {
    assert q - q % TWO_16 == TWO_16 * (q / TWO_16);
  }

  /** The decode as written: `div0 *= div1` keeps the divider product in a
      u32, so it wraps once the product reaches 2^32. */
  function DecodeAsWritten(config0: u32, config2: u32): (r: u16)
    ensures DividerMicro(config0, config2) < TWO_32 ==> r == Decode(config0, config2)
  {
    var numer := MultiplierMilli(config0) * 1000;
    var denom := Wrap32(Div0(config0) * 1000 * Div1Milli(config2));
    if denom == 0 then 0 else (InputFreq * numer / denom) % TWO_16
  }

  /** Cancelling a common positive factor leaves a Euclidean quotient unchanged. */
  lemma CancelFactor(a: nat, b: nat, k: nat)
    requires b > 0 && k > 0
    ensures (a * k) / (b * k) == a / b
  {
    var q, r := a / b, a % b;
    assert a == q * b + r && 0 <= r < b;
    assert a * k == q * (b * k) + r * k by {
      assert a * k == (q * b + r) * k;
    }
    assert r * k < b * k by {
      MulAtLeast(b - r - 1, k, 0, 0);
      assert (b - r) * k == b * k - r * k;
      MulAtLeast(b - r, k, 1, 1);
    }
    DivUnique(a * k, b * k, q, r * k);
  }

  lemma DivUnique(n: nat, d: nat, q: nat, r: nat)
    requires d > 0 && r < d && n == q * d + r
    ensures n / d == q
  {
    DivBounds(n, d);
    if n / d < q {
      MulAtLeast(q, d, n / d + 1, d);
    } else if n / d > q {
      MulAtLeast(n / d, d, q + 1, d);
    }
  }

  /** Registers with an integral feedback multiplier, an input divider of 1
      and an integral output divider: the form every table entry has. */
  predicate IntegralSetting(config0: u32, config2: u32)
  {
    config0 < 0x1_0000 && config0 % 0x100 == 1 && 0 < config2 < 0x100
  }

  /** For an integral setting the decode is input * multiplier / divider. */
  lemma DecodeIntegral(config0: u32, config2: u32)
    requires IntegralSetting(config0, config2)
    ensures Decode(config0, config2) == (InputFreq * (config0 / 0x100)) / config2
  {
    var n, d := InputFreq * (config0 / 0x100), config2;
    IntegralMicro(config0, config2, n, d);
    CancelFactor(n, d, 1_000_000);
    SmallQuotient(n, d);
  }

  /** Numerator and divider of an integral setting are whole numbers times 10^6. */
  lemma IntegralMicro(config0: u32, config2: u32, n: nat, d: nat)
    requires IntegralSetting(config0, config2)
    requires n == InputFreq * (config0 / 0x100) && d == config2
    ensures DividerMicro(config0, config2) == d * 1_000_000
    ensures NumeratorMicro(config0) == n * 1_000_000
    ensures n <= InputFreq * 0xFF
  {
    var mul := config0 / 0x100;
    IntegralFields(config0, config2);
    assert DividerMicro(config0, config2) == 1 * 1000 * (config2 * 1000);
    assert NumeratorMicro(config0) == InputFreq * (mul * 1000 * 1000);
    MulAtLeast(InputFreq, 0xFF, InputFreq, mul);
  }

  /** A quotient of at most 25500 by a positive divider fits in 16 bits. */
  lemma SmallQuotient(n: nat, d: nat)
    requires 0 < d && n <= InputFreq * 0xFF
    ensures n / d < TWO_16 && (n / d) % TWO_16 == n / d
  {
    var q := n / d;
    DivBounds(n, d);
    if q > n {
      MulAtLeast(q, d, n + 1, 1);
      assert false;
    }
    assert q % TWO_16 == q;
  }

  lemma IntegralFields(config0: u32, config2: u32)
    requires IntegralSetting(config0, config2)
    ensures Div0(config0) == 1
    ensures MultiplierMilli(config0) == (config0 / 0x100) * 1000
    ensures Div1Milli(config2) == config2 * 1000
  {
    assert config0 / 0x400_0000 == 0;
    assert config2 / 0x4_0000 == 0;
    assert (config0 / 0x100) % 0x100 == config0 / 0x100;
  }

  /** Entry `e` is an integral setting whose quotient is its own frequency. */
  predicate EntryDecodes(e: ClockWiz)
  {
    IntegralSetting(e.config0, e.config2) && (InputFreq * (e.config0 / 0x100)) / e.config2 == e.ocl
  }

  /** Every entry of the table has the integral form and its quotient is its frequency. */
  lemma AllEntriesDecode()
    ensures forall k :: 0 <= k < |Table| ==> EntryDecodes(Table[k])
  {
    assert forall k :: 0 <= k < |Table| ==> EntryDecodes(Table[k]);
  }

  /** Programming any step and decoding the registers (lock bit set) reads
      back exactly that step's frequency, so looking the read-back value up
      finds the same step. */
  lemma TableDecodeRoundTrip(i: nat)
    requires i < TableSize
    ensures Decode(Table[i].config0, Table[i].config2) == Table[i].ocl
    ensures DecodeAsWritten(Table[i].config0, Table[i].config2) == Table[i].ocl
    ensures FloorStep(Decode(Table[i].config0, Table[i].config2)) == i
  {
    AllEntriesDecode();
    assert EntryDecodes(Table[i]);
    DecodeIntegral(Table[i].config0, Table[i].config2);
    assert DividerMicro(Table[i].config0, Table[i].config2) < TWO_32 by {
      assert Div0(Table[i].config0) == 1;
    }
    TableStrictlyAscending();
    FloorInOfEntry(Table, i);
  }

  /** The u32 divider product wraps for register values the fields allow: with
      CONFIG0 = 0xFF41 (multiplier 255, input divider 65) and CONFIG2 = 0x44D42
      (output divider 66.077) the true frequency is 5 MHz but the driver
      reports 20960. */
  lemma DecodeWrapCounterexample()
    ensures DividerMicro(0xFF41, 0x44D42) >= TWO_32
    ensures Decode(0xFF41, 0x44D42) == 5
    ensures DecodeAsWritten(0xFF41, 0x44D42) == 20960
  {
    assert Div0(0xFF41) == 65;
    assert MultiplierMilli(0xFF41) == 255_000;
    assert Div1Milli(0x44D42) == 66_077;
    assert DividerMicro(0xFF41, 0x44D42) == 4_295_005_000;
    assert Wrap32(4_295_005_000) == 37_704;
  }
}

=== FILE: errors.dfy ===
/** Error codes and failure-compatible result types shared by every module.

    The driver returns negative Linux errno values; the model keeps the errno
    names and adds three model-only outcomes for what the driver does not
    return but suffers: a read past the end of a buffer, a BUG_ON assertion
    (which halts the kernel) and a dereference of an absent register block.
 */
module Errors {

  datatype Errno =
    | EINVAL
    | EBUSY
    | EIO
    | ETIMEDOUT
    | EDOM
    | EKEYREJECTED
    | EPERM
    | EOPNOTSUPP
    /** Model only: the driver would read outside the buffer it was given. */
    | OutOfRange
    /** Model only: a BUG_ON in the driver fires. */
    | BugOn
    /** Model only: the driver dereferences a register of a device that is absent. */
    | NullDeref

  /** A value or the error that prevented computing it. */
  datatype Result<+T> = Ok(value: T) | Err(error: Errno) {
    predicate IsFailure() { Err? }

    function PropagateFailure<U>(): Result<U>
      requires Err?
    {
      Err(error)
    }

    function Extract(): T
      requires Ok?
    {
      value
    }
  }

  /** Success or the error code of a driver routine that returns only an int. */
  datatype Outcome = Pass | Fail(error: Errno) {
    predicate IsFailure() { Fail? }

    function PropagateFailure<U>(): Result<U>
      requires Fail?
    {
      Err(error)
    }
  }

  /** A present value or nothing (a NULL pointer in the driver). */
  datatype Option<+T> = None | Some(value: T)
}

=== FILE: freq_scaling.dfy ===
/** Reprogramming the four clock wizards: reading a wizard's current
    frequency, the per-clock skip / program / wait-for-lock / restore sequence,
    the busy pre-check and state update of a frequency request, and the
    counter-based verification of the result.

    Only the management function's path is modelled (the one with the clock
    wizards mapped); every register read takes the next value of the read
    stream, and the clock-wizard writes are recorded in a log.
 */
module FreqScaling {
  import opened Bytes
  import opened Errors
  import opened ClockTable
  import opened Registers
  import opened Axlf
  import opened IcapState

  // ---------------------------------------------------------------------
  // Reading a clock wizard
  // ---------------------------------------------------------------------

  /** icap_get_ocl_frequency: 0 when the wizard is absent or its status
      register shows no lock (bit 0 clear); otherwise the frequency decoded
      from CONFIG0 and CONFIG2, read in that order. */
  function OclFrequency(present: bool, rd: Reads, c: nat): (r: Read<u16>)
    ensures !present ==> r == Read(0, c)
    ensures present && !Bit0(rd(c)) ==> r == Read(0, c + 1)
    ensures present && Bit0(rd(c)) ==> r.next == c + 3
    ensures present && Bit0(rd(c)) && DividerMicro(rd(c + 1), rd(c + 2)) == 0 ==> r.value == 0
    ensures present && Bit0(rd(c)) && DividerMicro(rd(c + 1), rd(c + 2)) > 0
            && NumeratorMicro(rd(c + 1)) < TWO_16 * DividerMicro(rd(c + 1), rd(c + 2)) ==>
              r.value * DividerMicro(rd(c + 1), rd(c + 2)) <= NumeratorMicro(rd(c + 1))
              < (r.value + 1) * DividerMicro(rd(c + 1), rd(c + 2))
  {
    if !present then Read(0, c)
    else if !Bit0(rd(c)) then Read(0, c + 1)
    else
      var f := Decode(rd(c + 1), rd(c + 2));
      DecodeBracket(rd(c + 1), rd(c + 2));
      Read(f, c + 3)
  }

  lemma DecodeBracket(config0: u32, config2: u32)
    ensures DividerMicro(config0, config2) > 0
            && NumeratorMicro(config0) < TWO_16 * DividerMicro(config0, config2) ==>
              Decode(config0, config2) * DividerMicro(config0, config2) <= NumeratorMicro(config0)
              < (Decode(config0, config2) + 1) * DividerMicro(config0, config2)
  {
    if DividerMicro(config0, config2) > 0
       && NumeratorMicro(config0) < TWO_16 * DividerMicro(config0, config2) {
      DecodeIsRoundedDownFrequency(config0, config2);
    }
  }

  /** A locked wizard holding the registers of step `i` reads back as that
      step's frequency, which lies in step `i`. */
  lemma OclFrequencyOfProgrammedStep(rd: Reads, c: nat, i: nat)
    requires i < TableSize
    requires Bit0(rd(c)) && rd(c + 1) == Table[i].config0 && rd(c + 2) == Table[i].config2
    ensures OclFrequency(true, rd, c).value == Table[i].ocl
    ensures FloorStep(OclFrequency(true, rd, c).value) == i
  {
    TableDecodeRoundTrip(i);
  }

  // ---------------------------------------------------------------------
  // icap_ocl_freqscaling
  // ---------------------------------------------------------------------

  /** What the driver writes to a clock wizard: a step's CONFIG0 / CONFIG2
      followed by the load-and-reconfigure commands (7, then 2, to CONFIG23),
      or the restore commands (4, then 0, to CONFIG23). */
  datatype ClockWrite = Program(clock: nat, step: nat) | Restore(clock: nat)

  /** Outcome, writes made and position of the next read. */
  datatype Scaling = Scaling(result: Outcome, writes: seq<ClockWrite>, next: nat)

  /** The errors frequency scaling can report. */
  predicate ScalingError(e: Errno)
  {
    e == EBUSY || e == ETIMEDOUT || e == NullDeref
  }

  /** Writes that only program clock `i` with the step of its request, and
      restore it only right after programming it. */
  predicate WritesFor(w: seq<ClockWrite>, freqs: seq<u16>, i: nat)
    requires i < |freqs|
  {
    w == [] || w == [Program(i, FloorStep(freqs[i]))]
    || w == [Program(i, FloorStep(freqs[i])), Restore(i)]
  }

  /** One iteration of the scaling loop for clock `i`. A zero request is
      skipped without a read. Otherwise the wizard's current frequency is
      read; unless `force`, a clock already in the requested step is left
      alone. The status register must then read exactly 1 (EBUSY otherwise);
      the step is programmed and the status read 100 times, the last reading
      deciding: not 1 restores the old configuration and fails with
      ETIMEDOUT; 1 is followed by two read-backs of CONFIG0 and CONFIG2.
      A wizard without registers that is not skipped is dereferenced. */
  function ScaleClock(freqs: seq<u16>, present: seq<bool>, force: bool, i: nat,
                      rd: Reads, c: nat): (r: Scaling)
    requires i < NumClocks && |freqs| == NumClocks && |present| == NumClocks
    ensures freqs[i] == 0 ==> r == Scaling(Pass, [], c)
    ensures r.next >= c
    ensures WritesFor(r.writes, freqs, i)
    ensures r.result.Fail? ==> ScalingError(r.result.error)
    ensures r.result.Fail? && r.result.error == ETIMEDOUT <==> |r.writes| == 2
    ensures r.result == Pass ==> |r.writes| <= 1
    ensures r.writes != [] ==> freqs[i] != 0 && present[i]
    ensures freqs[i] != 0 && !force
            && FloorStep(OclFrequency(present[i], rd, c).value) == FloorStep(freqs[i])
            ==> r.result == Pass && r.writes == []
    ensures freqs[i] != 0 && force && present[i] ==>
              (r.result == Pass <==> rd(OclFrequency(true, rd, c).next) == 1
                                     && LockStatus(rd, OclFrequency(true, rd, c).next + 1).value == 1)
    // Once the skip does not apply: a missing wizard is dereferenced, a status
    // other than 1 is EBUSY with nothing written, and otherwise the step is
    // programmed and the lock reading alone decides success or timeout.
    ensures freqs[i] != 0 && !present[i]
            && (force || FloorStep(OclFrequency(present[i], rd, c).value) != FloorStep(freqs[i]))
            ==> r == Scaling(Fail(NullDeref), [], OclFrequency(present[i], rd, c).next)
    ensures freqs[i] != 0 && present[i]
            && (force || FloorStep(OclFrequency(present[i], rd, c).value) != FloorStep(freqs[i]))
            && rd(OclFrequency(present[i], rd, c).next) != 1
            ==> r == Scaling(Fail(EBUSY), [], OclFrequency(present[i], rd, c).next + 1)
    ensures freqs[i] != 0 && present[i]
            && (force || FloorStep(OclFrequency(present[i], rd, c).value) != FloorStep(freqs[i]))
            && rd(OclFrequency(present[i], rd, c).next) == 1
            ==> && r.writes != [] && r.writes[0] == Program(i, FloorStep(freqs[i]))
                && (r.result == Pass <==> LockStatus(rd, OclFrequency(present[i], rd, c).next + 1).value == 1)
  {
    if freqs[i] == 0 then Scaling(Pass, [], c)
    else ScaleAfterReading(i, FloorStep(freqs[i]), present[i], force,
                           OclFrequency(present[i], rd, c), rd)
  }

  /** The rest of one iteration once the wizard's frequency `current` has
      been read. */
  function ScaleAfterReading(i: nat, step: nat, present: bool, force: bool,
                             current: Read<u16>, rd: Reads): (r: Scaling)
    ensures !force && FloorStep(current.value) == step ==> r == Scaling(Pass, [], current.next)
    ensures (force || FloorStep(current.value) != step) && !present
            ==> r == Scaling(Fail(NullDeref), [], current.next)
    ensures (force || FloorStep(current.value) != step) && present && rd(current.next) != 1
            ==> r == Scaling(Fail(EBUSY), [], current.next + 1)
    ensures (force || FloorStep(current.value) != step) && present && rd(current.next) == 1
            ==> r == (if LockStatus(rd, current.next + 1).value != 1
                      then Scaling(Fail(ETIMEDOUT), [Program(i, step), Restore(i)],
                                   LockStatus(rd, current.next + 1).next)
                      else Scaling(Pass, [Program(i, step)], LockStatus(rd, current.next + 1).next + 2))
  {
    if !force && FloorStep(current.value) == step then Scaling(Pass, [], current.next)
    else if !present then Scaling(Fail(NullDeref), [], current.next)
    else if rd(current.next) != 1 then Scaling(Fail(EBUSY), [], current.next + 1)
    else
      var lock := LockStatus(rd, current.next + 1);
      if lock.value != 1 then Scaling(Fail(ETIMEDOUT), [Program(i, step), Restore(i)], lock.next)
      else Scaling(Pass, [Program(i, step)], lock.next + 2)
  }

  /** The clocks a write log programs, in order. */
  function ProgrammedClocks(w: seq<ClockWrite>): (r: seq<nat>)
    ensures |r| <= |w|
  {
    if w == [] then []
    else (if w[0].Program? then [w[0].clock] else []) + ProgrammedClocks(w[1..])
  }

  lemma {:induction false} ProgrammedClocksAppend(a: seq<ClockWrite>, b: seq<ClockWrite>)
    ensures ProgrammedClocks(a + b) == ProgrammedClocks(a) + ProgrammedClocks(b)
    decreases |a|
  {
    if a == [] {
      assert a + b == b;
    } else {
      assert (a + b)[0] == a[0];
      assert (a + b)[1..] == a[1..] + b;
      ProgrammedClocksAppend(a[1..], b);
      var head := if a[0].Program? then [a[0].clock] else [];
      assert ProgrammedClocks(a + b) == head + ProgrammedClocks(a[1..] + b);
      assert ProgrammedClocks(a) == head + ProgrammedClocks(a[1..]);
    }
  }

  /** The clocks from `i` on with a non-zero request, in order. */
  function RequestedFrom(freqs: seq<u16>, i: nat): (r: seq<nat>)
    requires i <= |freqs|
    ensures forall k :: 0 <= k < |r| ==> i <= r[k] < |freqs| && freqs[r[k]] != 0
    decreases |freqs| - i
  {
    if i == |freqs| then []
    else (if freqs[i] != 0 then [i] else []) + RequestedFrom(freqs, i + 1)
  }

  /** Every write of the log concerns a clock at or after `i` with a non-zero
      request and programs that request's step. */
  predicate WritesFrom(w: seq<ClockWrite>, freqs: seq<u16>, i: nat)
  {
    forall k :: 0 <= k < |w| ==>
      i <= w[k].clock < |freqs| && freqs[w[k].clock] != 0
      && (w[k].Program? ==> w[k].step == FloorStep(freqs[w[k].clock]))
  }

  /** The scaling loop from clock `i` on: it stops at the first failing clock. */
  function ScaleFrom(freqs: seq<u16>, present: seq<bool>, force: bool, i: nat,
                     rd: Reads, c: nat): (r: Scaling)
    requires i <= NumClocks && |freqs| == NumClocks && |present| == NumClocks
    ensures r.next >= c
    ensures WritesFrom(r.writes, freqs, i)
    ensures r.result.Fail? ==> ScalingError(r.result.error)
    ensures r.result == Pass ==> forall k :: 0 <= k < |r.writes| ==> r.writes[k].Program?
    decreases NumClocks - i
  {
    if i == NumClocks then Scaling(Pass, [], c)
    else
      var one := ScaleClock(freqs, present, force, i, rd, c);
      if one.result.Fail? then one
      else
        var rest := ScaleFrom(freqs, present, force, i + 1, rd, one.next);
        WritesFromCons(one.writes, rest.writes, freqs, i, rest.result == Pass);
        Scaling(rest.result, one.writes + rest.writes, rest.next)
  }

  /** The writes of a passing clock `i` in front of those of the clocks after it. */
  lemma WritesFromCons(a: seq<ClockWrite>, b: seq<ClockWrite>, freqs: seq<u16>, i: nat, programsOnly: bool)
    requires i < |freqs| && WritesFor(a, freqs, i) && |a| <= 1
    requires a != [] ==> freqs[i] != 0
    requires WritesFrom(b, freqs, i + 1)
    requires programsOnly ==> forall k :: 0 <= k < |b| ==> b[k].Program?
    ensures WritesFrom(a + b, freqs, i)
    ensures programsOnly ==> forall k :: 0 <= k < |a + b| ==> (a + b)[k].Program?
  {
    if a == [] {
      assert a + b == b;
    } else {
      var w := a + b;
      forall k | 1 <= k < |w|
        ensures w[k] == b[k - 1]
      {
      }
    }
  }

  /** A forced scaling that succeeds programs every clock with a non-zero
      request, once each, in clock order. */
  lemma {:induction false} ForcedScalingProgramsEveryRequest(freqs: seq<u16>, present: seq<bool>,
                                                             i: nat, rd: Reads, c: nat)
    requires i <= NumClocks && |freqs| == NumClocks && |present| == NumClocks
    requires ScaleFrom(freqs, present, true, i, rd, c).result == Pass
    ensures ProgrammedClocks(ScaleFrom(freqs, present, true, i, rd, c).writes) == RequestedFrom(freqs, i)
    decreases NumClocks - i
  {
    if i < NumClocks {
      var one := ScaleClock(freqs, present, true, i, rd, c);
      var rest := ScaleFrom(freqs, present, true, i + 1, rd, one.next);
      ForcedScalingProgramsEveryRequest(freqs, present, i + 1, rd, one.next);
      ProgrammedClocksAppend(one.writes, rest.writes);
      if freqs[i] != 0 {
        assert one.writes == [Program(i, FloorStep(freqs[i]))];
      }
    }
  }

  /** The log ends by programming a clock with the step of its request and
      then restoring it. */
  predicate EndsInRestore(w: seq<ClockWrite>, freqs: seq<u16>)
  {
    && |w| >= 2 && w[|w| - 1].Restore? && w[|w| - 1].clock < |freqs|
    && w[|w| - 2] == Program(w[|w| - 1].clock, FloorStep(freqs[w[|w| - 1].clock]))
  }

  /** A scaling that times out ends with the restore of the clock it programmed last. */
  lemma {:induction false} TimedOutScalingEndsInRestore(freqs: seq<u16>, present: seq<bool>, force: bool,
                                                        i: nat, rd: Reads, c: nat)
    requires i <= NumClocks && |freqs| == NumClocks && |present| == NumClocks
    requires ScaleFrom(freqs, present, force, i, rd, c).result == Fail(ETIMEDOUT)
    ensures EndsInRestore(ScaleFrom(freqs, present, force, i, rd, c).writes, freqs)
    decreases NumClocks - i
  {
    if i < NumClocks {
      var one := ScaleClock(freqs, present, force, i, rd, c);
      if one.result.Fail? {
        TimedOutClockEndsInRestore(freqs, present, force, i, rd, c);
      } else {
        var rest := ScaleFrom(freqs, present, force, i + 1, rd, one.next);
        TimedOutScalingEndsInRestore(freqs, present, force, i + 1, rd, one.next);
        EndsInRestoreAppend(one.writes, rest.writes, freqs);
      }
    }
  }

  /** A clock that times out is programmed and then restored. */
  lemma TimedOutClockEndsInRestore(freqs: seq<u16>, present: seq<bool>, force: bool,
                                   i: nat, rd: Reads, c: nat)
    requires i < NumClocks && |freqs| == NumClocks && |present| == NumClocks
    requires ScaleClock(freqs, present, force, i, rd, c).result == Fail(ETIMEDOUT)
    ensures EndsInRestore(ScaleClock(freqs, present, force, i, rd, c).writes, freqs)
  {
    var w := ScaleClock(freqs, present, force, i, rd, c).writes;
    assert w == [Program(i, FloorStep(freqs[i])), Restore(i)];
  }

  /** Earlier writes do not change how a log ends. */
  lemma EndsInRestoreAppend(a: seq<ClockWrite>, b: seq<ClockWrite>, freqs: seq<u16>)
    requires EndsInRestore(b, freqs)
    ensures EndsInRestore(a + b, freqs)
  {
    var w := a + b;
    assert w[|w| - 1] == b[|b| - 1] && w[|w| - 2] == b[|b| - 2];
  }

  /** icap_ocl_freqscaling over all four clocks. */
  function Freqscaling(freqs: seq<u16>, present: seq<bool>, force: bool,
                       rd: Reads, c: nat): (r: Scaling)
    requires |freqs| == NumClocks && |present| == NumClocks
    ensures WritesFrom(r.writes, freqs, 0)
    ensures r.result.Fail? ==> ScalingError(r.result.error)
  {
    ScaleFrom(freqs, present, force, 0, rd, c)
  }

  /** With no clock requested, scaling reads nothing and writes nothing. */
  lemma FreqscalingNothingRequested(freqs: seq<u16>, present: seq<bool>, force: bool,
                                    rd: Reads, c: nat)
    requires |freqs| == NumClocks && |present| == NumClocks
    requires forall k :: 0 <= k < NumClocks ==> freqs[k] == 0
    ensures Freqscaling(freqs, present, force, rd, c) == Scaling(Pass, [], c)
  {
    assert ScaleClock(freqs, present, force, 3, rd, c) == Scaling(Pass, [], c);
    assert ScaleFrom(freqs, present, force, 3, rd, c) == Scaling(Pass, [], c);
    assert ScaleFrom(freqs, present, force, 2, rd, c) == Scaling(Pass, [], c);
    assert ScaleFrom(freqs, present, force, 1, rd, c) == Scaling(Pass, [], c);
  }

  // ---------------------------------------------------------------------
  // set_freqs
  // ---------------------------------------------------------------------

  function Min(a: nat, b: nat): nat
  {
    if a < b then a else b
  }

  /** Clocks among `i .. m - 1` the busy pre-check reads: a non-zero request
      on a wizard that has registers. */
  function Checked(freqs: seq<u16>, present: seq<bool>, m: nat, i: nat): nat
    requires i <= m <= |freqs| && m <= |present|
    decreases m - i
  {
    if i == m then 0
    else (if freqs[i] != 0 && present[i] then 1 else 0) + Checked(freqs, present, m, i + 1)
  }

  /** set_freqs' pre-check: a status read with bit 0 clear means busy; the
      check stops at the first busy clock. */
  function BusyFrom(freqs: seq<u16>, present: seq<bool>, m: nat, i: nat,
                    rd: Reads, c: nat): (r: Read<bool>)
    requires i <= m <= |freqs| && m <= |present|
    ensures c <= r.next <= c + Checked(freqs, present, m, i)
    ensures r.value <==> exists k :: c <= k < r.next && !Bit0(rd(k))
    ensures !r.value ==> r.next == c + Checked(freqs, present, m, i)
    decreases m - i
  {
    if i == m then Read(false, c)
    else if freqs[i] == 0 || !present[i] then BusyFrom(freqs, present, m, i + 1, rd, c)
    else if !Bit0(rd(c)) then Read(true, c + 1)
    else BusyFrom(freqs, present, m, i + 1, rd, c + 1)
  }

  /** The first `m` stored requests are replaced by those of `freqs`, the
      others kept. */
  function StoreRequests(stored: seq<u16>, freqs: seq<u16>, m: nat): (r: seq<u16>)
    requires m <= |stored| && m <= |freqs|
    ensures Stores(r, stored, freqs, m)
  {
    freqs[..m] + stored[m..]
  }

  predicate Stores(r: seq<u16>, stored: seq<u16>, freqs: seq<u16>, m: nat)
    requires m <= |freqs|
  {
    && |r| == |stored|
    && (forall k :: 0 <= k < m && k < |r| ==> r[k] == freqs[k])
    && (forall k :: m <= k < |r| ==> r[k] == stored[k])
  }

  /** State, outcome, clock-wizard writes and next read position. */
  datatype Update = Update(result: Outcome, state: Icap, writes: seq<ClockWrite>, next: nat)

  /** set_freqs: when no requested clock is busy, the first min(4, n)
      requested frequencies replace the stored ones, the gate is frozen and
      scaling runs without `force` over all four stored requests, and the gate
      is freed whatever scaling returned. A busy clock fails with EBUSY and
      changes nothing. */
  function SetFreqs(s: Icap, freqs: seq<u16>, n: nat, rd: Reads, c: nat): (r: Update)
    requires WellFormed(s) && |freqs| >= Min(NumClocks, n)
    ensures BusyFrom(freqs, s.clockPresent, Min(NumClocks, n), 0, rd, c).value ==>
              r.result == Fail(EBUSY) && r.state == s && r.writes == []
    ensures s.gateFrozen && !BusyFrom(freqs, s.clockPresent, Min(NumClocks, n), 0, rd, c).value ==>
              r.result == Fail(BugOn)
    ensures r.result != Fail(BugOn) ==> !r.state.gateFrozen || r.state == s
    ensures !s.gateFrozen ==> !r.state.gateFrozen
    ensures r.state.(oclFrequency := s.oclFrequency, gateFrozen := s.gateFrozen) == s
    ensures r.result != Fail(EBUSY) && r.result != Fail(BugOn) ==>
              && !r.state.gateFrozen
              && Stores(r.state.oclFrequency, s.oclFrequency, freqs, Min(NumClocks, n))
              && WritesFrom(r.writes, r.state.oclFrequency, 0)
    ensures WellFormed(r.state)
    ensures r.result.Fail? ==> r.result.error == BugOn || ScalingError(r.result.error)
  {
    var m := Min(NumClocks, n);
    var busy := BusyFrom(freqs, s.clockPresent, m, 0, rd, c);
    if busy.value then Update(Fail(EBUSY), s, [], busy.next)
    else
      var stored := s.(oclFrequency := StoreRequests(s.oclFrequency, freqs, m));
      match FreezeGate(stored)
      case Err(e) => Update(Fail(e), stored, [], busy.next)
      case Ok(frozen) =>
        var scaled := Freqscaling(frozen.oclFrequency, frozen.clockPresent, false, rd, busy.next);
        Update(scaled.result, FreeGate(frozen), scaled.writes, scaled.next)
  }

  // ---------------------------------------------------------------------
  // Frequency counters and set_and_verify_freqs
  // ---------------------------------------------------------------------

  predicate CounterReady(w: u32)
  {
    w == 2
  }

  /** icap_get_clock_frequency_counter_khz: 0 without a loaded xclbin or a
      counter block; for clocks 0 and 1 the counter block, for clock 2 the HBM
      counter block (0 when absent), for any other clock 0. A counter is
      started, its status polled up to 10 times for 2, and the count read
      whether or not it became ready. */
  function CounterKhz(s: Icap, idx: nat, rd: Reads, c: nat): (r: Read<u32>)
    ensures s.uuid == NullUuid || !s.counterPresent || idx > 2 || (idx == 2 && !s.hbmCounterPresent)
            ==> r == Read(0, c)
    ensures s.uuid != NullUuid && s.counterPresent && (idx < 2 || (idx == 2 && s.hbmCounterPresent))
            ==> ReadAfterPoll(rd, c, 10, CounterReady, r.next) && r.value == rd(r.next - 1)
  {
    if s.uuid == NullUuid || !s.counterPresent then Read(0, c)
    else if idx < 2 || (idx == 2 && s.hbmCounterPresent) then
      var ready := Poll(rd, c, 10, CounterReady, ETIMEDOUT);
      PollThenRead(rd, c, 10, CounterReady, ETIMEDOUT);
      Read(rd(ready.next), ready.next + 1)
    else Read(0, c)
  }

  /** A counter that reports ready at its first poll is read right after it. */
  lemma ReadyCounterIsReadNext(s: Icap, idx: nat, rd: Reads, c: nat)
    requires s.uuid != NullUuid && s.counterPresent && (idx < 2 || (idx == 2 && s.hbmCounterPresent))
    requires rd(c) == 2
    ensures CounterKhz(s, idx, rd, c) == Read(rd(c + 1), c + 2)
  {
    var r := CounterKhz(s, idx, rd, c);
    assert CounterReady(rd(c));
  }

  /** A counter that never reports ready is read after all ten polls. */
  lemma UnreadyCounterIsReadAfterTenPolls(s: Icap, idx: nat, rd: Reads, c: nat)
    requires s.uuid != NullUuid && s.counterPresent && (idx < 2 || (idx == 2 && s.hbmCounterPresent))
    requires forall k :: c <= k < c + 10 ==> rd(k) != 2
    ensures CounterKhz(s, idx, rd, c) == Read(rd(c + 10), c + 11)
  {
    var r := CounterKhz(s, idx, rd, c);
    assert !CounterReady(rd(r.next - 2));
  }

  function Abs(x: int): nat
  {
    if x < 0 then -x else x
  }

  /** `tolerance < abs(clock_freq_counter - request_in_khz)` in the driver's
      types: the difference is taken in u32, abs() reads it as a signed int,
      and the comparison with the u32 tolerance converts the result back to
      u32. */
  predicate OutOfTolerance(counter: u32, lookup: nat)
  {
    var request := Wrap32(lookup * 1000);
    var tolerance := Wrap32(lookup * 50);
    var diff := Signed32(Wrap32(counter - request));
    tolerance < Wrap32(if diff < 0 then -diff else diff)
  }

  /** For every step frequency the driver's mixed-width test is exactly
      |counter - 1000 f| > 50 f. */
  lemma OutOfToleranceIsExact(counter: u32, lookup: nat)
    requires lookup * 1000 < TWO_31
    ensures OutOfTolerance(counter, lookup) <==> Abs(counter - lookup * 1000) > lookup * 50
  {
    var request := lookup * 1000;
    var d := counter - request;
    if d >= 0 {
      if d >= TWO_31 {
        assert Signed32(Wrap32(d)) == d - TWO_32;
        assert Wrap32(-(d - TWO_32)) == TWO_32 - d;
      }
    } else {
      assert Wrap32(d) == d + TWO_32;
      assert Signed32(Wrap32(d)) == d;
    }
  }

  /** A counter reading the set_and_verify loop compared. */
  datatype Reading = Reading(clock: nat, counterKhz: u32)

  datatype Verified = Verified(result: Outcome, readings: seq<Reading>, next: nat)

  /** The step frequency of a request, as find_matching_freq returns it. */
  function Lookup(req: u16): nat
  {
    MatchingFreq(req)
  }

  /** The driver's comparison of a counter reading with a request. */
  predicate ClockDeviates(counter: u32, req: u16)
  {
    OutOfTolerance(counter, Lookup(req))
  }

  /** The verification loop from clock `i` on: one counter reading per
      clock with a non-zero request, stopping with EDOM at the first reading
      the comparison `deviates` rejects (the driver's comparison is
      `ClockDeviates`). */
  function VerifyFrom(s: Icap, freqs: seq<u16>, m: nat, i: nat, deviates: (u32, u16) -> bool,
                      rd: Reads, c: nat): (r: Verified)
    requires i <= m <= |freqs|
    ensures StopsAtDeviation(r, freqs, i, m, deviates)
    decreases m - i
  {
    if i == m then Verified(Pass, [], c)
    else if freqs[i] == 0 then
      var rest := VerifyFrom(s, freqs, m, i + 1, deviates, rd, c);
      StopsAtDeviationFromLater(rest, freqs, i, m, deviates);
      rest
    else
      var counter := CounterKhz(s, i, rd, c);
      var reading := Reading(i, counter.value);
      if deviates(counter.value, freqs[i]) then Verified(Fail(EDOM), [reading], counter.next)
      else
        var rest := VerifyFrom(s, freqs, m, i + 1, deviates, rd, counter.next);
        StopsAtDeviationCons(reading, rest, freqs, i, m, deviates);
        Verified(rest.result, [reading] + rest.readings, rest.next)
  }

  /** The readings are of requested clocks among `i .. m - 1`, in strictly
      increasing clock order; every reading but the last was accepted, and the
      verification fails, with EDOM, exactly when the last one was rejected. */
  predicate StopsAtDeviation(v: Verified, freqs: seq<u16>, i: nat, m: nat, deviates: (u32, u16) -> bool)
    requires m <= |freqs|
  {
    && (forall k :: 0 <= k < |v.readings| ==>
          i <= v.readings[k].clock < m && freqs[v.readings[k].clock] != 0)
    && (forall k, l :: 0 <= k < l < |v.readings| ==> v.readings[k].clock < v.readings[l].clock)
    && (v.result == Pass || v.result == Fail(EDOM))
    && (v.result == Fail(EDOM) <==>
          |v.readings| > 0 && deviates(v.readings[|v.readings| - 1].counterKhz,
                                       freqs[v.readings[|v.readings| - 1].clock]))
    && (forall k :: 0 <= k < |v.readings| - 1 ==>
          !deviates(v.readings[k].counterKhz, freqs[v.readings[k].clock]))
  }

  lemma StopsAtDeviationFromLater(v: Verified, freqs: seq<u16>, i: nat, m: nat, deviates: (u32, u16) -> bool)
    requires i < m <= |freqs|
    requires StopsAtDeviation(v, freqs, i + 1, m, deviates)
    ensures StopsAtDeviation(v, freqs, i, m, deviates)
  {
  }

  /** An accepted reading of clock `i` in front of a verification from `i + 1`. */
  lemma StopsAtDeviationCons(reading: Reading, rest: Verified, freqs: seq<u16>, i: nat, m: nat,
                             deviates: (u32, u16) -> bool)
    requires i < m <= |freqs| && reading.clock == i && freqs[i] != 0
    requires !deviates(reading.counterKhz, freqs[i])
    requires StopsAtDeviation(rest, freqs, i + 1, m, deviates)
    ensures StopsAtDeviation(Verified(rest.result, [reading] + rest.readings, rest.next), freqs, i, m, deviates)
  {
    var all := [reading] + rest.readings;
    assert forall k :: 0 < k < |all| ==> all[k] == rest.readings[k - 1];
  }

  /** Every clock among `lo .. m - 1` with a request has a reading. */
  predicate ReadsEveryRequest(readings: seq<Reading>, freqs: seq<u16>, lo: nat, m: nat)
    requires m <= |freqs|
  {
    forall j :: lo <= j < m && freqs[j] != 0 ==>
      exists k :: 0 <= k < |readings| && readings[k].clock == j
  }

  /** Prefixing a reading of clock `lo` extends the coverage from `lo + 1` to `lo`. */
  lemma ReadsEveryRequestCons(r: Reading, rest: seq<Reading>, freqs: seq<u16>, lo: nat, m: nat)
    requires lo < m <= |freqs| && r.clock == lo
    requires ReadsEveryRequest(rest, freqs, lo + 1, m)
    ensures ReadsEveryRequest([r] + rest, freqs, lo, m)
  {
    var all := [r] + rest;
    forall j | lo <= j < m && freqs[j] != 0
      ensures exists k :: 0 <= k < |all| && all[k].clock == j
    {
      if j == lo {
        assert all[0].clock == j;
      } else {
        var k :| 0 <= k < |rest| && rest[k].clock == j;
        assert all[k + 1].clock == j;
      }
    }
  }

  /** A verification that passes has read the counter of every requested clock. */
  lemma {:induction false} PassedVerificationReadEveryRequest(s: Icap, freqs: seq<u16>, m: nat, i: nat,
                                                              deviates: (u32, u16) -> bool,
                                                              rd: Reads, c: nat)
    requires i <= m <= |freqs|
    requires VerifyFrom(s, freqs, m, i, deviates, rd, c).result == Pass
    ensures ReadsEveryRequest(VerifyFrom(s, freqs, m, i, deviates, rd, c).readings, freqs, i, m)
    decreases m - i
  {
    if i < m {
      if freqs[i] == 0 {
        VerifySkips(s, freqs, m, i, deviates, rd, c);
        PassedVerificationReadEveryRequest(s, freqs, m, i + 1, deviates, rd, c);
        ReadsEveryRequestSkip(VerifyFrom(s, freqs, m, i, deviates, rd, c).readings, freqs, i, m);
      } else {
        var counter := CounterKhz(s, i, rd, c);
        var rest := VerifyFrom(s, freqs, m, i + 1, deviates, rd, counter.next);
        VerifyAccepts(s, freqs, m, i, deviates, rd, c);
        PassedVerificationReadEveryRequest(s, freqs, m, i + 1, deviates, rd, counter.next);
        ReadsEveryRequestCons(Reading(i, counter.value), rest.readings, freqs, i, m);
      }
    }
  }

  /** A clock without a request is passed over without a read. */
  lemma VerifySkips(s: Icap, freqs: seq<u16>, m: nat, i: nat, deviates: (u32, u16) -> bool, rd: Reads, c: nat)
    requires i < m <= |freqs| && freqs[i] == 0
    ensures VerifyFrom(s, freqs, m, i, deviates, rd, c) == VerifyFrom(s, freqs, m, i + 1, deviates, rd, c)
  {
  }

  /** A requested clock whose verification passes was read and accepted
      before the rest went on. */
  lemma VerifyAccepts(s: Icap, freqs: seq<u16>, m: nat, i: nat, deviates: (u32, u16) -> bool, rd: Reads, c: nat)
    requires i < m <= |freqs| && freqs[i] != 0
    requires VerifyFrom(s, freqs, m, i, deviates, rd, c).result == Pass
    ensures var counter := CounterKhz(s, i, rd, c);
            var rest := VerifyFrom(s, freqs, m, i + 1, deviates, rd, counter.next);
            && rest.result == Pass
            && VerifyFrom(s, freqs, m, i, deviates, rd, c).readings == [Reading(i, counter.value)] + rest.readings
  {
  }

  /** Clock `lo` has no request, so coverage from `lo + 1` is coverage from `lo`. */
  lemma ReadsEveryRequestSkip(readings: seq<Reading>, freqs: seq<u16>, lo: nat, m: nat)
    requires lo < m <= |freqs| && freqs[lo] == 0
    requires ReadsEveryRequest(readings, freqs, lo + 1, m)
    ensures ReadsEveryRequest(readings, freqs, lo, m)
  {
  }

  datatype Verification = Verification(result: Outcome, state: Icap, writes: seq<ClockWrite>,
                             readings: seq<Reading>, next: nat)

  /** set_and_verify_freqs: set_freqs, then, if it succeeded, the counter
      comparison of every requested clock. */
  function SetAndVerifyFreqs(s: Icap, freqs: seq<u16>, n: nat, rd: Reads, c: nat): (r: Verification)
    requires WellFormed(s) && |freqs| >= Min(NumClocks, n)
    ensures r.state == SetFreqs(s, freqs, n, rd, c).state
    ensures r.writes == SetFreqs(s, freqs, n, rd, c).writes
    ensures SetFreqs(s, freqs, n, rd, c).result.Fail? ==>
              r.result == SetFreqs(s, freqs, n, rd, c).result && r.readings == []
    ensures SetFreqs(s, freqs, n, rd, c).result == Pass ==>
              (r.result == Pass <==> AllInTolerance(r.readings, freqs, Min(NumClocks, n)))
  {
    var applied := SetFreqs(s, freqs, n, rd, c);
    if applied.result.Fail? then Verification(applied.result, applied.state, applied.writes, [], applied.next)
    else
      var m := Min(NumClocks, n);
      var v := VerifyFrom(applied.state, freqs, m, 0, ClockDeviates, rd, applied.next);
      VerifyPassIsInTolerance(applied.state, freqs, m, rd, applied.next);
      VerifyFailureIsOutOfTolerance(applied.state, freqs, m, rd, applied.next);
      Verification(v.result, applied.state, applied.writes, v.readings, v.next)
  }

  /** Every clock among the first `m` with a request has a counter reading
      within tolerance of that request. */
  predicate AllInTolerance(readings: seq<Reading>, freqs: seq<u16>, m: nat)
    requires m <= |freqs|
  {
    forall j :: 0 <= j < m && freqs[j] != 0 ==>
      exists k :: 0 <= k < |readings| && readings[k].clock == j
        && !ClockDeviates(readings[k].counterKhz, freqs[j])
  }

  /** A passed verification has a reading in tolerance for every requested clock. */
  lemma VerifyPassIsInTolerance(s: Icap, freqs: seq<u16>, m: nat, rd: Reads, c: nat)
    requires m <= |freqs|
    ensures var v := VerifyFrom(s, freqs, m, 0, ClockDeviates, rd, c);
            v.result == Pass ==> AllInTolerance(v.readings, freqs, m)
  {
    var v := VerifyFrom(s, freqs, m, 0, ClockDeviates, rd, c);
    if v.result == Pass {
      PassedVerificationReadEveryRequest(s, freqs, m, 0, ClockDeviates, rd, c);
      PassedVerificationAcceptsEveryReading(s, freqs, m, ClockDeviates, rd, c);
      forall j | 0 <= j < m && freqs[j] != 0
        ensures exists k :: 0 <= k < |v.readings| && v.readings[k].clock == j
                  && !ClockDeviates(v.readings[k].counterKhz, freqs[j])
      {
        var k :| 0 <= k < |v.readings| && v.readings[k].clock == j;
        assert !ClockDeviates(v.readings[k].counterKhz, freqs[v.readings[k].clock]);
      }
    }
  }

  /** A verification that passes rejected none of its readings. */
  lemma PassedVerificationAcceptsEveryReading(s: Icap, freqs: seq<u16>, m: nat, deviates: (u32, u16) -> bool,
                                              rd: Reads, c: nat)
    requires m <= |freqs|
    requires VerifyFrom(s, freqs, m, 0, deviates, rd, c).result == Pass
    ensures var r := VerifyFrom(s, freqs, m, 0, deviates, rd, c).readings;
            forall k :: 0 <= k < |r| ==> !deviates(r[k].counterKhz, freqs[r[k].clock])
  {
  }

  /** A failed verification leaves a requested clock with no reading in
      tolerance: the clock of its last reading was read only once. */
  lemma VerifyFailureIsOutOfTolerance(s: Icap, freqs: seq<u16>, m: nat, rd: Reads, c: nat)
    requires m <= |freqs|
    ensures var v := VerifyFrom(s, freqs, m, 0, ClockDeviates, rd, c);
            v.result.Fail? ==> !AllInTolerance(v.readings, freqs, m)
  {
    var v := VerifyFrom(s, freqs, m, 0, ClockDeviates, rd, c);
    if v.result.Fail? {
      var last := |v.readings| - 1;
      var j := v.readings[last].clock;
      assert ClockDeviates(v.readings[last].counterKhz, freqs[j]);
      forall k | 0 <= k < |v.readings| && v.readings[k].clock == j
        ensures ClockDeviates(v.readings[k].counterKhz, freqs[j])
      {
        assert k == last;
      }
    }
  }
}

=== FILE: icap_state.dfy ===
/** The driver's per-device state record and the operations that only move
    its flags and caches: the AXI gate, the in-use test, the staged clearing
    bitstream and the per-section metadata caches.
 */
module IcapState {
  import opened Bytes
  import opened Errors
  import opened Axlf

  /** Number of clock wizards the driver manages. */
  const NumClocks: nat := 4

  /** How strictly xclbin signatures are enforced (`enum icap_sec_level`). */
  datatype SecLevel = SecNone | SecDedicate | SecSystem
  {
    /** The enumerator's value: NONE = 0, DEDICATE = 1, SYSTEM = 2. */
    function Level(): (r: nat)
      ensures r <= 2 && (r == 0 <==> this == SecNone)
    {
      match this
      case SecNone => 0
      case SecDedicate => 1
      case SecSystem => 2
    }
  }

  datatype Icap = Icap(
    /** The management function: the configuration port's registers are mapped. */
    privileged: bool,
    /** The xclbin currently on the device; null when none. */
    uuid: Uuid,
    /** Users holding the current xclbin locked. */
    ref: int,
    gateFrozen: bool,
    /** The staged clearing bitstream; empty when none is staged. */
    clear: seq<byte>,
    secLevel: SecLevel,
    /** The frequency most recently requested for each clock, 0 for none. */
    oclFrequency: seq<u16>,
    /** Which of the four clock wizards have a register block. */
    clockPresent: seq<bool>,
    counterPresent: bool,
    hbmCounterPresent: bool,
    /** The MIG calibration state register is mapped. */
    statePresent: bool,
    topology: Option<ClockTopology>,
    /** Copies of the memory-topology, IP-layout, debug-IP-layout and
        connectivity sections; a kind that is absent has no copy. */
    caches: map<SectionKind, seq<byte>>
  )

  predicate WellFormed(s: Icap)
  {
    |s.oclFrequency| == NumClocks && |s.clockPresent| == NumClocks
  }

  // ---------------------------------------------------------------------
  // The AXI gate
  // ---------------------------------------------------------------------

  /** icap_freeze_axi_gate: freezing a frozen gate is a BUG_ON. */
  function FreezeGate(s: Icap): (r: Result<Icap>)
    ensures s.gateFrozen <==> r == Err(BugOn)
    ensures r.Ok? ==> r.value.gateFrozen && r.value.(gateFrozen := false) == s
  {
    if s.gateFrozen then Err(BugOn) else Ok(s.(gateFrozen := true))
  }

  /** icap_free_axi_gate: returns at once when the gate is not frozen. */
  function FreeGate(s: Icap): (r: Icap)
    ensures !r.gateFrozen
    ensures !s.gateFrozen ==> r == s
  {
    if !s.gateFrozen then s else s.(gateFrozen := false)
  }

  /** Freeing undoes freezing, and freeing twice is freeing once. */
  lemma FreeGateUndoesFreeze(s: Icap)
    requires !s.gateFrozen
    ensures FreezeGate(s).Ok? && FreeGate(FreezeGate(s).value) == s
    ensures FreeGate(FreeGate(s)) == FreeGate(s)
  {
  }

  // ---------------------------------------------------------------------
  // In-use test
  // ---------------------------------------------------------------------

  /** icap_bitstream_in_use: a negative reference count is a BUG_ON. */
  function InUse(s: Icap): (r: Result<bool>)
    ensures s.ref < 0 <==> r == Err(BugOn)
    ensures r.Ok? ==> (r.value <==> s.ref > 0)
  {
    if s.ref < 0 then Err(BugOn) else Ok(s.ref != 0)
  }

  // ---------------------------------------------------------------------
  // The staged clearing bitstream
  // ---------------------------------------------------------------------

  /** icap_setup_clear_bitstream: drops the staged copy, then keeps a copy of
      `buffer` unless it is empty. Nothing else changes. */
  function SetupClearBitstream(s: Icap, buffer: seq<byte>): (r: Icap)
    ensures r.clear == buffer
    ensures r.(clear := s.clear) == s
  {
    var freed := s.(clear := []);
    if |buffer| == 0 then freed else freed.(clear := buffer)
  }

  // ---------------------------------------------------------------------
  // Metadata caches
  // ---------------------------------------------------------------------

  /** The kinds icap_parse_bitstream_axlf_section accepts. */
  predicate Parsable(kind: SectionKind)
  {
    kind in {IP_LAYOUT, MEM_TOPOLOGY, DEBUG_IP_LAYOUT, CONNECTIVITY, CLOCK_FREQ_TOPOLOGY}
  }

  /** The copy a kind's pointer holds, `None` for NULL. */
  function Cached(s: Icap, kind: SectionKind): Option<seq<byte>>
  {
    if kind in s.caches then Some(s.caches[kind]) else None
  }

  /** Free the target of `kind` and leave it NULL. The clock topology has its
      own field; the other kinds live in the cache map. */
  function DropTarget(s: Icap, kind: SectionKind): (r: Icap)
    requires Parsable(kind)
    ensures kind == CLOCK_FREQ_TOPOLOGY ==> r == s.(topology := None)
    ensures kind != CLOCK_FREQ_TOPOLOGY ==> r == s.(caches := s.caches - {kind})
    ensures SameOutside(s, r, kind)
  {
    if kind == CLOCK_FREQ_TOPOLOGY then s.(topology := None)
    else s.(caches := s.caches - {kind})
  }

  /** Every field outside the target of `kind` agrees between `a` and `b`. */
  ghost predicate SameOutside(a: Icap, b: Icap, kind: SectionKind)
  {
    && a.(topology := b.topology, caches := b.caches) == b
    && (kind != CLOCK_FREQ_TOPOLOGY ==> a.topology == b.topology)
    && (forall k :: k != kind ==> (k in a.caches <==> k in b.caches))
    && (forall k :: k != kind && k in a.caches ==> a.caches[k] == b.caches[k])
  }

  /** icap_parse_bitstream_axlf_section. A container with a bad magic or an
      unsupported kind is refused before anything changes. Otherwise the
      target is freed first; the section is then copied in, and the copy is
      kept only if the section holds at least `requiredSize` bytes (the size
      its own entry count implies). Any failure leaves the target NULL. */
  function ParseSection(s: Icap, c: Container, kind: SectionKind,
                        requiredSize: (SectionKind, seq<byte>) -> nat): (r: (Outcome, Icap))
    ensures !MagicOk(c) || !Parsable(kind) ==> r == (Fail(EINVAL), s)
    ensures SameOutside(s, r.1, kind)
    ensures MagicOk(c) && Parsable(kind) && r.0.Fail? ==>
              if kind == CLOCK_FREQ_TOPOLOGY then r.1.topology == None else kind !in r.1.caches
    ensures r.0 == Pass <==>
              MagicOk(c) && Parsable(kind) && AllocAndGetSection(c, kind).Ok?
              && requiredSize(kind, AllocAndGetSection(c, kind).value) <= |AllocAndGetSection(c, kind).value|
    ensures r.0 == Pass && kind != CLOCK_FREQ_TOPOLOGY ==>
              Cached(r.1, kind) == Some(AllocAndGetSection(c, kind).value)
    ensures r.0 == Pass && kind == CLOCK_FREQ_TOPOLOGY ==> r.1.topology == Some(c.clockSection)
  {
    if !MagicOk(c) || !Parsable(kind) then (Fail(EINVAL), s)
    else
      var dropped := DropTarget(s, kind);
      match AllocAndGetSection(c, kind)
      case Err(e) => (Fail(e), dropped)
      case Ok(bytes) =>
        if requiredSize(kind, bytes) > |bytes| then (Fail(EINVAL), dropped)
        else if kind == CLOCK_FREQ_TOPOLOGY then (Pass, dropped.(topology := Some(c.clockSection)))
        else
          var r := dropped.(caches := dropped.caches[kind := bytes]);
          SameOutsideAfterStore(s, dropped, r, kind);
          (Pass, r)
  }

  /** Storing into the target of `kind` keeps the fields outside it. */
  lemma SameOutsideAfterStore(s: Icap, dropped: Icap, r: Icap, kind: SectionKind)
    requires SameOutside(s, dropped, kind) && r == dropped.(caches := r.caches)
    requires forall k :: k != kind ==> (k in r.caches <==> k in dropped.caches)
    requires forall k :: k != kind && k in r.caches ==> r.caches[k] == dropped.caches[k]
    ensures SameOutside(s, r, kind)
  {
  }

  /** The metadata kinds icap_clean_bitstream_axlf drops. */
  predicate CleanedKind(kind: SectionKind)
  {
    kind in {IP_LAYOUT, MEM_TOPOLOGY, DEBUG_IP_LAYOUT, CONNECTIVITY}
  }

  /** icap_clean_bitstream_axlf: forget the xclbin's uuid and its four
      metadata copies; the clock topology and everything else stay. */
  function CleanBitstreamAxlf(s: Icap): (r: Icap)
    ensures r.uuid == NullUuid
    ensures forall k :: CleanedKind(k) ==> k !in r.caches
    ensures forall k :: !CleanedKind(k) && k in s.caches ==> k in r.caches && r.caches[k] == s.caches[k]
    ensures forall k :: k in r.caches ==> k in s.caches
    ensures r.(uuid := s.uuid, caches := s.caches) == s
  {
    s.(uuid := NullUuid, caches := s.caches - {IP_LAYOUT, MEM_TOPOLOGY, DEBUG_IP_LAYOUT, CONNECTIVITY})
  }

  /** Cleaning is idempotent. */
  lemma CleanBitstreamAxlfIdempotent(s: Icap)
    ensures CleanBitstreamAxlf(CleanBitstreamAxlf(s)) == CleanBitstreamAxlf(s)
  {
    var once := CleanBitstreamAxlf(s);
    assert CleanBitstreamAxlf(once).caches == once.caches;
  }
}

=== FILE: keyring.dfy ===
/** The signing keyring shared by every device instance (icap_load_keyring
    and icap_release_keyring in icap.c): created by the first user, counted
    per user, and dropped when the last user releases it.

    Allocation of the keyring by the kernel is abstract: its outcome is a
    parameter. `hasKeyrings` says whether the kernel is recent enough (4.7 or
    later) for the driver to create a keyring at all.
 */
module Keyring {
  import opened Errors

  datatype Keyring = Keyring(users: int, keys: bool)

  /** No keyring and no users at module load. */
  const Initial: Keyring := Keyring(0, false)

  /** The counter never goes negative, and a keyring exists exactly while
      someone uses it. */
  predicate Valid(k: Keyring) {
    k.users >= 0 && (k.users == 0 <==> !k.keys)
  }

  /** icap_load_keyring. */
  function Load(k: Keyring, hasKeyrings: bool, alloc: Outcome): (r: (Outcome, Keyring))
    ensures Valid(k) && r.0 == Pass && hasKeyrings ==> r.1.users == k.users + 1 && r.1.keys
    ensures Valid(k) && !hasKeyrings ==> r.0 == Pass && (k.users == 0 ==> r.1 == k)
    ensures r.0.Fail? ==> r.1 == k && (r.0 == alloc || r.0 == Fail(BugOn))
  {
    if k.users < 0 then (Fail(BugOn), k)
    else if k.users != 0 then (Pass, k.(users := k.users + 1))
    else if k.keys then (Fail(BugOn), k)
    else if !hasKeyrings then (Pass, k)
    else if alloc.Fail? then (alloc, k)
    else (Pass, Keyring(1, true))
  }

  /** icap_release_keyring. */
  function Release(k: Keyring): (r: (Outcome, Keyring))
    ensures k.users > 0 ==> r == (Pass, k.(users := k.users - 1, keys := k.users > 1 && k.keys))
    ensures k.users == 0 ==> r == (Pass, k)
    ensures k.users < 0 ==> r.0 == Fail(BugOn)
  {
    if k.users < 0 then (Fail(BugOn), k)
    else if k.users != 0 then
      var users := k.users - 1;
      (Pass, Keyring(users, if users == 0 then false else k.keys))
    else (Pass, k)
  }

  /** Neither operation leaves the valid states, and from a valid state neither
      trips a BUG_ON. */
  lemma LoadKeepsValid(k: Keyring, hasKeyrings: bool, alloc: Outcome)
    requires Valid(k)
    requires alloc != Fail(BugOn)
    ensures Valid(Load(k, hasKeyrings, alloc).1)
    ensures Load(k, hasKeyrings, alloc).0 != Fail(BugOn)
  {
  }

  lemma ReleaseKeepsValid(k: Keyring)
    requires Valid(k)
    ensures Valid(Release(k).1) && Release(k).0 == Pass
  {
  }

  /** A release undoes a successful load. */
  lemma ReleaseUndoesLoad(k: Keyring, hasKeyrings: bool, alloc: Outcome)
    requires Valid(k) && hasKeyrings
    requires Load(k, hasKeyrings, alloc).0 == Pass
    ensures Release(Load(k, hasKeyrings, alloc).1) == (Pass, k)
  {
  }

  /** The state after a run of calls from module load. */
  datatype Call = LoadCall(hasKeyrings: bool, alloc: Outcome) | ReleaseCall

  function Run(k: Keyring, calls: seq<Call>): (r: Keyring)
    decreases |calls|
  {
    if calls == [] then k
    else
      var c := calls[0];
      var next := if c.LoadCall? then Load(k, c.hasKeyrings, c.alloc).1 else Release(k).1;
      Run(next, calls[1..])
  }

  /** Any run of loads and releases from a valid state keeps it valid; in
      particular the last release always drops the keyring. */
  lemma {:induction false} RunKeepsValid(k: Keyring, calls: seq<Call>)
    requires Valid(k)
    requires forall i :: 0 <= i < |calls| ==> (calls[i].LoadCall? ==> calls[i].alloc != Fail(BugOn))
    ensures Valid(Run(k, calls))
    decreases |calls|
  {
    if calls != [] {
      var c := calls[0];
      if c.LoadCall? {
        LoadKeepsValid(k, c.hasKeyrings, c.alloc);
      } else {
        ReleaseKeepsValid(k);
      }
      var next := if c.LoadCall? then Load(k, c.hasKeyrings, c.alloc).1 else Release(k).1;
      assert forall i :: 0 <= i < |calls[1..]| ==> calls[1..][i] == calls[i + 1];
      RunKeepsValid(next, calls[1..]);
    }
  }
}

=== FILE: lifecycle.dfy ===
/** The xclbin lifecycle of the ICAP subdevice: locking the loaded xclbin
    for use, resetting the device, the signature policy, and the two-level
    download (__icap_xclbin_download on the management function, the peer
    request on the user function) with its success and failure bookkeeping.

    What the driver asks other subsystems (the platform device tree, the XRT
    version and ROM timestamp checks, PKCS#7, the peer over the mailbox, the
    creation of subdevices) arrives as an `Env` of answers.
 */
module Lifecycle {
  import opened Bytes
  import opened Errors
  import opened Axlf
  import opened Registers
  import opened IcapState
  import opened FreqScaling
  import opened ClockPolicy
  import opened BitHeader
  import opened Stream

  // ---------------------------------------------------------------------
  // Locking the loaded xclbin
  // ---------------------------------------------------------------------

  /** Outcome, new state, and whether the driver notifies the command
      scheduler: exec_reset on a lock, exec_stop on an unlock. */
  datatype Locking = Locking(result: Outcome, state: Icap, notify: bool)

  /** icap_lock_bitstream: a null id is a BUG_ON; an id other than the loaded
      xclbin's is EBUSY; otherwise one more reference, and the scheduler is
      reset on the first one. Only the reference count ever changes. */
  function LockBitstream(s: Icap, id: Uuid): (r: Locking)
    ensures id == NullUuid ==> r.result == Fail(BugOn)
    ensures r.result == Pass <==> id != NullUuid && id == s.uuid
    ensures r.result.Fail? ==> r.state == s && !r.notify
    ensures r.result == Pass ==> r.state == s.(ref := s.ref + 1) && (r.notify <==> s.ref == 0)
    ensures id != NullUuid && id != s.uuid ==> r.result == Fail(EBUSY)
  {
    if id == NullUuid then Locking(Fail(BugOn), s, false)
    else if id != s.uuid then Locking(Fail(EBUSY), s, false)
    else Locking(Pass, s.(ref := s.ref + 1), s.ref == 0)
  }

  /** icap_unlock_bitstream (a NULL id is the null uuid): the null uuid drops
      every reference, the loaded xclbin's uuid drops one, with no check
      that one is held, and any other id is EINVAL. After a successful unlock
      the user function stops the scheduler once no reference is left. */
  function UnlockBitstream(s: Icap, id: Uuid): (r: Locking)
    ensures r.result == Pass <==> id == NullUuid || id == s.uuid
    ensures r.result.Fail? ==> r == Locking(Fail(EINVAL), s, false)
    ensures r.state.(ref := s.ref) == s
    ensures id == NullUuid ==> r.state.ref == 0
    ensures id != NullUuid && id == s.uuid ==> r.state.ref == s.ref - 1
    ensures r.notify <==> r.result == Pass && r.state.ref == 0 && !s.privileged
  {
    var after :=
      if id == NullUuid then Some(s.(ref := 0))
      else if id == s.uuid then Some(s.(ref := s.ref - 1))
      else None;
    match after
    case None => Locking(Fail(EINVAL), s, false)
    case Some(t) => Locking(Pass, t, t.ref == 0 && !s.privileged)
  }

  /** icap_reset_bitstream: only the management function may reset, and not
      while the xclbin is in use. The boot command words it then writes are
      not modelled. */
  function ResetBitstream(s: Icap): (r: Outcome)
    ensures !s.privileged ==> r == Fail(EPERM)
    ensures s.privileged ==> (r == Pass <==> s.ref == 0)
    ensures s.privileged && s.ref > 0 ==> r == Fail(EBUSY)
    ensures s.privileged && s.ref < 0 ==> r == Fail(BugOn)
  {
    if !s.privileged then Fail(EPERM)
    else
      match InUse(s)
      case Err(e) => Fail(e)
      case Ok(busy) => if busy then Fail(EBUSY) else Pass
  }

  /** `n` locks with the same id, one after the other. */
  function LockTimes(s: Icap, id: Uuid, n: nat): Icap
  {
    if n == 0 then s else LockBitstream(LockTimes(s, id, n - 1), id).state
  }

  /** `n` unlocks with the same id, one after the other. */
  function UnlockTimes(s: Icap, id: Uuid, n: nat): Icap
  {
    if n == 0 then s else UnlockBitstream(UnlockTimes(s, id, n - 1), id).state
  }

  /** The reference count counts the locks taken with the loaded xclbin's id. */
  lemma {:induction false} LockCountsReferences(s: Icap, id: Uuid, n: nat)
    requires id != NullUuid && id == s.uuid
    ensures LockTimes(s, id, n) == s.(ref := s.ref + n)
  {
    if n > 0 {
      LockCountsReferences(s, id, n - 1);
    }
  }

  /** Each unlock with the loaded xclbin's id gives one reference back. */
  lemma {:induction false} UnlockCountsReferences(s: Icap, id: Uuid, n: nat)
    requires id != NullUuid && id == s.uuid
    ensures UnlockTimes(s, id, n) == s.(ref := s.ref - n)
  {
    if n > 0 {
      UnlockCountsReferences(s, id, n - 1);
    }
  }

  /** As many unlocks as locks restore the state, and each single lock is
      undone by a single unlock. */
  lemma BalancedLockingRestores(s: Icap, id: Uuid, n: nat)
    requires id != NullUuid && id == s.uuid
    ensures UnlockTimes(LockTimes(s, id, n), id, n) == s
    ensures UnlockBitstream(LockBitstream(s, id).state, id) == Locking(Pass, s, s.ref == 0 && !s.privileged)
  {
    LockCountsReferences(s, id, n);
    UnlockCountsReferences(s.(ref := s.ref + n), id, n);
  }

  /** A forced unlock frees the device whatever the count was: it is no
      longer in use and the management function may reset it. */
  lemma ForcedUnlockFreesDevice(s: Icap)
    ensures var t := UnlockBitstream(s, NullUuid).state;
            InUse(t) == Ok(false) && (s.privileged ==> ResetBitstream(t) == Pass)
  {
  }

  /** The unlock of a matching id at reference count 0 succeeds and leaves the
      count at -1, after which the in-use test is a BUG_ON: reset and download
      trip it. */
  lemma UnlockAtZeroTripsBugOn(s: Icap, c: Container, env: Env, rd: Reads, cur: nat)
    requires s.uuid != NullUuid && s.ref == 0 && WellFormed(s)
    requires Precheck(c, env) == Pass
    ensures var u := UnlockBitstream(s, s.uuid);
            && u.result == Pass && u.state.ref == -1
            && InUse(u.state) == Err(BugOn)
            && (s.privileged ==> ResetBitstream(u.state) == Fail(BugOn))
            && DownloadBitstreamAxlf(u.state, c, env, rd, cur).result == Fail(BugOn)
  {
  }

  // ---------------------------------------------------------------------
  // The signature policy
  // ---------------------------------------------------------------------

  /** icap_verify_signature, given the PKCS#7 verdict `valid`: a bad
      signature is forgiven when signatures are not enforced. */
  function VerifySignature(level: SecLevel, valid: bool): (r: Outcome)
    ensures r == Pass <==> valid || level == SecNone
    ensures r.Fail? ==> r.error == EKEYREJECTED
  {
    if valid then Pass
    else if level == SecNone then Pass
    else Fail(EKEYREJECTED)
  }

  /** The container as __icap_xclbin_download leaves it: a signed container
      is marked unsigned and its claimed length shrinks by the signature's
      length, in 64-bit arithmetic. */
  function RestoreUnsigned(c: Container): (r: Container)
    ensures r.signatureLength == -1
    ensures c.signatureLength == -1 ==> r == c
    ensures r.(length := c.length, signatureLength := c.signatureLength) == c
    ensures 0 <= c.signatureLength <= c.length ==> r.length == c.length - c.signatureLength
  {
    if c.signatureLength == -1 then c
    else c.(signatureLength := -1, length := Wrap64(c.length - c.signatureLength))
  }

  /** The signature decision of __icap_xclbin_download: a signed container is
      verified; an unsigned one is rejected unless signatures are not
      enforced. */
  function SignaturePolicy(c: Container, level: SecLevel, valid: bool): (r: Outcome)
    ensures r == Pass <==> level == SecNone || (c.signatureLength != -1 && valid)
    ensures r.Fail? ==> r.error == EKEYREJECTED
  {
    if c.signatureLength != -1 then VerifySignature(level, valid)
    else if level.Level() > SecNone.Level() then Fail(EKEYREJECTED)
    else Pass
  }

  /** After the signature is split off, every section the driver finds lies
      in the part the signature covers. */
  lemma SectionsLieBeforeSignature(c: Container, kind: SectionKind)
    requires 0 <= c.signatureLength <= c.length
    requires SectionHeaderOf(RestoreUnsigned(c), kind).Some?
    ensures var h := SectionHeaderOf(RestoreUnsigned(c), kind).value;
            h.offset + h.size <= c.length - c.signatureLength
  {
  }

  // ---------------------------------------------------------------------
  // __icap_xclbin_download
  // ---------------------------------------------------------------------

  /** The answers of the subsystems a download consults. */
  datatype Env = Env(
    /** The platform's device tree is present. */
    fdtPresent: bool,
    /** xocl_fdt_check_uuids accepts the partition metadata. */
    interfaceUuidsMatch: bool,
    /** xocl_xrt_version_check accepts the container. */
    xrtVersionOk: bool,
    /** xocl_verify_timestamp accepts the feature ROM timestamp. */
    timestampOk: bool,
    /** The shell is a SmartN platform, which programs no clocks here. */
    smartN: bool,
    /** The shell is unified or has expanded partial reconfiguration, so the
        memory controllers recalibrate after a download. */
    migCalibration: bool,
    /** verify_pkcs7_signature accepts the signature. */
    signatureValid: bool,
    /** The outcome of __icap_peer_xclbin_download for this container, as
        PeerCache.PeerXclbinDownload computes it: Pass when the peer already
        holds the xclbin, the peer's answer otherwise. */
    peer: Outcome,
    /** icap_verify_bitstream_axlf. */
    verifyAxlf: Outcome,
    /** The size a section's own entry count implies. */
    requiredSize: (SectionKind, seq<byte>) -> nat
  )

  /** Outcome, state, the container as the driver left it, clock-wizard
      writes, words of the clearing bitstream, words of the new bitstream,
      next register read. */
  datatype Attempt = Attempt(result: Outcome, state: Icap, container: Container,
                             clockWrites: seq<ClockWrite>, cleared: seq<u32>,
                             pushed: seq<u32>, next: nat)

  /** The clearing section of `c`: none is an empty clearing bitstream. */
  function ClearingOf(c: Container): Result<seq<byte>>
  {
    if SectionHeaderOf(c, CLEARING_BITSTREAM).None? then Ok([])
    else AllocAndGetSection(c, CLEARING_BITSTREAM)
  }

  /** The clock steps of __icap_xclbin_download: the container's topology is
      stored, then its clocks are requested. Only the requested frequencies,
      the gate and the topology change; an unfrozen gate stays unfrozen. */
  function SetupClocks(s: Icap, c: Container, rd: Reads, cur: nat): (r: Update)
    requires WellFormed(s)
    ensures WellFormed(r.state)
    ensures !s.gateFrozen ==> !r.state.gateFrozen
    ensures r.state.(oclFrequency := s.oclFrequency, gateFrozen := s.gateFrozen, topology := s.topology) == s
    ensures SetupClockFreqTopology(s, c).Err? ==> r == Update(Fail(OutOfRange), s, [], cur)
    ensures SetupClockFreqTopology(s, c).Ok? ==> r == AxlfSetFreqscaling(SetupClockFreqTopology(s, c).value, rd, cur)
  {
    match SetupClockFreqTopology(s, c)
    case Err(e) => Update(Fail(e), s, [], cur)
    case Ok(t) => AxlfSetFreqscaling(t, rd, cur)
  }

  /** The clock steps as the platform takes them: a SmartN shell skips them. */
  function ClockStep(s: Icap, u: Container, smartN: bool, rd: Reads, cur: nat): (r: Update)
    requires WellFormed(s)
    ensures WellFormed(r.state)
    ensures !s.gateFrozen ==> !r.state.gateFrozen
    ensures r.state.(oclFrequency := s.oclFrequency, gateFrozen := s.gateFrozen, topology := s.topology) == s
    ensures smartN ==> r == Update(Pass, s, [], cur)
  {
    if smartN then Update(Pass, s, [], cur) else SetupClocks(s, u, rd, cur)
  }

  /** The bitstream steps of __icap_xclbin_download on the unsigned
      container `u`: the bitstream section goes to icap_download_hw, then the
      clearing section is staged for the next download, then the memory
      controllers are awaited. A missing bitstream section is EINVAL before
      anything happens; a successful load streamed the staged clearing
      bitstream, then exactly the new bitstream's payload, and staged the new
      clearing section. Only the staged clearing bitstream changes. */
  function LoadBitstream(s: Icap, u: Container, mig: bool, rd: Reads, cur: nat): (r: Attempt)
    requires WellFormed(s)
    ensures r.container == u
    ensures r.state.(clear := s.clear) == s
    ensures AllocAndGetSection(u, BITSTREAM).Err? ==>
              r == Attempt(Fail(AllocAndGetSection(u, BITSTREAM).error), s, u, [], [], [], cur)
    ensures AllocAndGetSection(u, BITSTREAM).Ok? && s.gateFrozen ==> r.result == Fail(BugOn)
    ensures r.pushed != [] ==> AllocAndGetSection(u, BITSTREAM).Ok?
    ensures mig && !s.statePresent ==> r.result.Fail?
  {
    match AllocAndGetSection(u, BITSTREAM)
    case Err(e) => Attempt(Fail(e), s, u, [], [], [], cur)
    case Ok(bit) =>
      var hw := DownloadHw(s, bit, rd, cur);
      var st := hw.steps;
      if st.result.Fail? then Attempt(st.result, hw.state, u, st.clockWrites, st.cleared, st.pushed, st.next)
      else
        match ClearingOf(u)
        case Err(e) => Attempt(Fail(e), hw.state, u, st.clockWrites, st.cleared, st.pushed, st.next)
        case Ok(clear) =>
          var staged := SetupClearBitstream(hw.state, clear);
          if !mig then Attempt(Pass, staged, u, st.clockWrites, st.cleared, st.pushed, st.next)
          else
            var cal := CalibrateMig(staged.statePresent, rd, st.next);
            Attempt(cal.value, staged, u, st.clockWrites, st.cleared, st.pushed, cal.next)
  }

  /** A successful load streamed the staged clearing bitstream, then exactly
      the new bitstream's payload, and staged the new clearing section. */
  lemma LoadBitstreamLoads(s: Icap, u: Container, mig: bool, rd: Reads, cur: nat)
    requires WellFormed(s)
    requires LoadBitstream(s, u, mig, rd, cur).result == Pass
    ensures var r := LoadBitstream(s, u, mig, rd, cur);
            var bit := AllocAndGetSection(u, BITSTREAM);
            && bit.Ok? && Parse(bit.value).Ok? && PayloadFits(Parse(bit.value).value, |bit.value|)
            && r.pushed == PayloadWords(bit.value, Parse(bit.value).value)
            && (|s.clear| > 0 ==> StreamBitFile(s.clear, rd, cur).result == Pass)
            && ClearingOf(u).Ok? && r.state.clear == ClearingOf(u).value
  {
    var bit := AllocAndGetSection(u, BITSTREAM).value;
    var hw := DownloadHw(s, bit, rd, cur);
    assert !s.gateFrozen;
    assert hw.steps == DownloadSteps(s.clear, s.oclFrequency, s.clockPresent, bit, rd, cur);
  }

  /** __icap_xclbin_download: the signature policy, then (except on SmartN)
      the clocks, then the bitstream. A rejected signature touches nothing
      but the container; no clock is written and no word streamed before the
      policy accepts; the uuid, reference count, caches and everything but
      the clocks, gate, topology and staged clearing bitstream stay. */
  function XclbinDownload(s: Icap, c: Container, env: Env, rd: Reads, cur: nat): (r: Attempt)
    requires WellFormed(s)
    ensures WellFormed(r.state)
    ensures r.container == RestoreUnsigned(c)
    ensures r.state.(oclFrequency := s.oclFrequency, gateFrozen := s.gateFrozen,
                     topology := s.topology, clear := s.clear) == s
    ensures SignaturePolicy(c, s.secLevel, env.signatureValid).Fail? ==>
              r == Attempt(SignaturePolicy(c, s.secLevel, env.signatureValid), s, RestoreUnsigned(c), [], [], [], cur)
    ensures r.clockWrites != [] || r.pushed != [] ==> SignaturePolicy(c, s.secLevel, env.signatureValid) == Pass
    ensures r.result == Pass ==> SignaturePolicy(c, s.secLevel, env.signatureValid) == Pass
    ensures SectionHeaderOf(RestoreUnsigned(c), BITSTREAM).None? ==> r.result.Fail?
    ensures !s.gateFrozen && r.result != Fail(BugOn) ==> !r.state.gateFrozen
  {
    var u := RestoreUnsigned(c);
    var verdict := SignaturePolicy(c, s.secLevel, env.signatureValid);
    if verdict.Fail? then Attempt(verdict, s, u, [], [], [], cur)
    else
      var clocked := ClockStep(s, u, env.smartN, rd, cur);
      if clocked.result.Fail? then Attempt(clocked.result, clocked.state, u, clocked.writes, [], [], clocked.next)
      else
        var loaded := LoadBitstream(clocked.state, u, env.migCalibration, rd, clocked.next);
        loaded.(clockWrites := clocked.writes + loaded.clockWrites)
  }

  /** A successful __icap_xclbin_download streamed exactly the payload of the
      unsigned container's bitstream section and staged its clearing
      section. */
  lemma XclbinDownloadLoadsBitstream(s: Icap, c: Container, env: Env, rd: Reads, cur: nat)
    requires WellFormed(s)
    requires XclbinDownload(s, c, env, rd, cur).result == Pass
    ensures var r := XclbinDownload(s, c, env, rd, cur);
            var bit := AllocAndGetSection(RestoreUnsigned(c), BITSTREAM);
            && bit.Ok? && Parse(bit.value).Ok? && PayloadFits(Parse(bit.value).value, |bit.value|)
            && r.pushed == PayloadWords(bit.value, Parse(bit.value).value)
            && ClearingOf(RestoreUnsigned(c)).Ok?
            && r.state.clear == ClearingOf(RestoreUnsigned(c)).value
  {
    var u := RestoreUnsigned(c);
    var clocked := ClockStep(s, u, env.smartN, rd, cur);
    var loaded := LoadBitstream(clocked.state, u, env.migCalibration, rd, clocked.next);
    assert XclbinDownload(s, c, env, rd, cur) == loaded.(clockWrites := clocked.writes + loaded.clockWrites);
    LoadBitstreamLoads(clocked.state, u, env.migCalibration, rd, clocked.next);
  }

  // ---------------------------------------------------------------------
  // icap_download_bitstream_axlf
  // ---------------------------------------------------------------------

  /** The checks icap_download_bitstream_axlf makes before taking the lock:
      the magic, the interface uuids of a container with partition metadata,
      the XRT version and the ROM timestamp. */
  function Precheck(c: Container, env: Env): (r: Outcome)
    ensures r == Pass <==>
              && MagicOk(c)
              && (SectionHeaderOf(c, PARTITION_METADATA).Some? ==> env.fdtPresent && env.interfaceUuidsMatch)
              && env.xrtVersionOk && env.timestampOk
    ensures r == Fail(EOPNOTSUPP) <==>
              && MagicOk(c) && env.xrtVersionOk && !env.timestampOk
              && (SectionHeaderOf(c, PARTITION_METADATA).Some? ==> env.fdtPresent && env.interfaceUuidsMatch)
    ensures r.Fail? ==> r.error in {EINVAL, EOPNOTSUPP}
  {
    if !MagicOk(c) then Fail(EINVAL)
    else if SectionHeaderOf(c, PARTITION_METADATA).Some? && !env.fdtPresent then Fail(EINVAL)
    else if SectionHeaderOf(c, PARTITION_METADATA).Some? && !env.interfaceUuidsMatch then Fail(EINVAL)
    else if !env.xrtVersionOk then Fail(EINVAL)
    else if !env.timestampOk then Fail(EOPNOTSUPP)
    else Pass
  }

  /** The management function's branch: the download, then the memory
      topology and IP layout are cached from the unsigned container (their
      outcomes ignored), then the subdevices are verified. */
  function PrivilegedDownload(s: Icap, c: Container, env: Env, rd: Reads, cur: nat): (r: Attempt)
    requires WellFormed(s)
    ensures WellFormed(r.state)
    ensures r.state.uuid == s.uuid && r.state.ref == s.ref
    ensures XclbinDownload(s, c, env, rd, cur).result.Fail? ==> r == XclbinDownload(s, c, env, rd, cur)
    ensures XclbinDownload(s, c, env, rd, cur).result == Pass ==>
              r.result == env.verifyAxlf && r.pushed == XclbinDownload(s, c, env, rd, cur).pushed
    ensures !s.gateFrozen && r.result != Fail(BugOn) ==> !r.state.gateFrozen
  {
    var d := XclbinDownload(s, c, env, rd, cur);
    if d.result.Fail? then d
    else
      var mem := CacheSection(d.state, d.container, MEM_TOPOLOGY, env.requiredSize);
      var ip := CacheSection(mem, d.container, IP_LAYOUT, env.requiredSize);
      d.(result := env.verifyAxlf, state := ip)
  }

  /** icap_parse_bitstream_axlf_section for one of the metadata kinds the
      driver keeps in its cache map: nothing but the cache map changes. */
  function CacheSection(s: Icap, c: Container, kind: SectionKind,
                        requiredSize: (SectionKind, seq<byte>) -> nat): (r: Icap)
    requires CleanedKind(kind)
    ensures r.(caches := s.caches) == s
  {
    ParseSection(s, c, kind, requiredSize).1
  }

  /** Storing a container's clock topology depends on the stored topology
      and the container only. */
  lemma TopologySetupIgnoresCaches(s: Icap, t: Icap, c: Container)
    requires s.topology == t.topology
    ensures SetupClockFreqTopology(s, c).Ok? == SetupClockFreqTopology(t, c).Ok?
    ensures SetupClockFreqTopology(s, c).Ok? ==>
              SetupClockFreqTopology(s, c).value.topology == SetupClockFreqTopology(t, c).value.topology
  {
  }

  /** The user function's branch: the peer downloads, then the IP layout,
      memory topology, connectivity and debug IP layout are cached and the
      clock topology stored whatever the peer answered. The peer's outcome
      comes from `env.peer`; the request itself and its effect on the peer
      cache are modelled by PeerCache.PeerXclbinDownload. */
  function PeerDownload(s: Icap, c: Container, env: Env): (r: (Outcome, Icap))
    ensures r.0 == env.peer
    ensures r.1.(topology := s.topology, caches := s.caches) == s
    ensures SetupClockFreqTopology(s, c).Ok? ==> r.1.topology == SetupClockFreqTopology(s, c).value.topology
  {
    var a := CacheSection(s, c, IP_LAYOUT, env.requiredSize);
    var b := CacheSection(a, c, MEM_TOPOLOGY, env.requiredSize);
    var d := CacheSection(b, c, CONNECTIVITY, env.requiredSize);
    var e := CacheSection(d, c, DEBUG_IP_LAYOUT, env.requiredSize);
    TopologySetupIgnoresCaches(s, e, c);
    var t := match SetupClockFreqTopology(e, c) case Ok(t) => t case Err(_) => e;
    (env.peer, t)
  }

  /** The end of icap_download_bitstream_axlf: a failure forgets the xclbin
      (its uuid and metadata), a success remembers its uuid. */
  function Bookkeeping(result: Outcome, s: Icap, c: Container): (r: Icap)
    ensures result.Fail? ==> r == CleanBitstreamAxlf(s)
    ensures result == Pass ==> r == s.(uuid := c.uuid)
    ensures r.(uuid := s.uuid, caches := s.caches) == s
  {
    if result.Fail? then CleanBitstreamAxlf(s) else s.(uuid := c.uuid)
  }

  /** icap_download_bitstream_axlf. A failed precheck changes nothing; a
      negative reference count halts on the BUG_ON; an xclbin in use is EBUSY
      and still forgets the loaded xclbin's uuid and metadata; otherwise the
      branch of the function runs and the outcome decides the bookkeeping.
      The reference count never changes, and only the management function
      streams a bitstream. */
  function DownloadBitstreamAxlf(s: Icap, c: Container, env: Env, rd: Reads, cur: nat): (r: Attempt)
    requires WellFormed(s)
    ensures WellFormed(r.state)
    ensures r.state.ref == s.ref
    ensures Precheck(c, env).Fail? ==> r == Attempt(Precheck(c, env), s, c, [], [], [], cur)
    ensures Precheck(c, env) == Pass && s.ref < 0 ==> r.result == Fail(BugOn) && r.state == s
    ensures Precheck(c, env) == Pass && s.ref > 0 ==>
              r == Attempt(Fail(EBUSY), CleanBitstreamAxlf(s), c, [], [], [], cur)
    ensures r.result == Pass ==> s.ref == 0 && r.state.uuid == c.uuid
    ensures Precheck(c, env) == Pass && r.result.Fail? && r.result != Fail(BugOn) ==>
              r.state.uuid == NullUuid && forall k :: CleanedKind(k) ==> k !in r.state.caches
    ensures r.pushed != [] ==> s.privileged && s.ref == 0
    ensures !s.gateFrozen && r.result != Fail(BugOn) ==> !r.state.gateFrozen
  {
    var pre := Precheck(c, env);
    if pre.Fail? then Attempt(pre, s, c, [], [], [], cur)
    else
      match InUse(s)
      case Err(e) => Attempt(Fail(e), s, c, [], [], [], cur)
      case Ok(busy) =>
        if busy then Attempt(Fail(EBUSY), Bookkeeping(Fail(EBUSY), s, c), c, [], [], [], cur)
        else if s.privileged then
          var d := PrivilegedDownload(s, c, env, rd, cur);
          if d.result == Fail(BugOn) then d
          else d.(state := Bookkeeping(d.result, d.state, d.container))
        else
          var p := PeerDownload(s, c, env);
          Attempt(p.0, Bookkeeping(p.0, p.1, c), c, [], [], [], cur)
  }

  /** A download while the xclbin is locked is refused with EBUSY, and it
      strands the lock: the uuid is forgotten, so the holder's unlock is
      EINVAL and a new lock with the old id is EBUSY, while the reference
      count still marks the device in use. Only a forced unlock frees it. */
  lemma BusyDownloadStrandsLock(s: Icap, c: Container, env: Env, rd: Reads, cur: nat)
    requires WellFormed(s) && s.uuid != NullUuid && s.ref > 0
    requires Precheck(c, env) == Pass
    ensures var after := DownloadBitstreamAxlf(s, c, env, rd, cur);
            && after.result == Fail(EBUSY)
            && after.state.uuid == NullUuid && after.state.ref == s.ref
            && UnlockBitstream(after.state, s.uuid).result == Fail(EINVAL)
            && LockBitstream(after.state, s.uuid).result == Fail(EBUSY)
            && InUse(after.state) == Ok(true)
            && InUse(UnlockBitstream(after.state, NullUuid).state) == Ok(false)
  {
  }

  /** Locking the loaded xclbin blocks a new download and a reset. */
  lemma LockBlocksDownloadAndReset(s: Icap, id: Uuid, c: Container, env: Env, rd: Reads, cur: nat)
    requires WellFormed(s) && s.ref >= 0
    requires LockBitstream(s, id).result == Pass
    requires Precheck(c, env) == Pass
    ensures var t := LockBitstream(s, id).state;
            && InUse(t) == Ok(true)
            && DownloadBitstreamAxlf(t, c, env, rd, cur).result == Fail(EBUSY)
            && ResetBitstream(t) == (if s.privileged then Fail(EBUSY) else Fail(EPERM))
  {
  }

  /** After a successful download the new xclbin can be locked by its uuid,
      and the first lock resets the scheduler. */
  lemma DownloadedXclbinCanBeLocked(s: Icap, c: Container, env: Env, rd: Reads, cur: nat)
    requires WellFormed(s) && c.uuid != NullUuid
    requires DownloadBitstreamAxlf(s, c, env, rd, cur).result == Pass
    ensures var t := DownloadBitstreamAxlf(s, c, env, rd, cur).state;
            LockBitstream(t, c.uuid) == Locking(Pass, t.(ref := 1), true)
  {
  }

  /** On the user function a failed peer download still stores the
      container's clock topology, although the xclbin is forgotten. */
  lemma FailedPeerDownloadStoresTopology(s: Icap, c: Container, env: Env, rd: Reads, cur: nat)
    requires WellFormed(s) && !s.privileged && s.ref == 0
    requires Precheck(c, env) == Pass && env.peer.Fail?
    requires SetupClockFreqTopology(s, c).Ok?
    ensures var r := DownloadBitstreamAxlf(s, c, env, rd, cur);
            && r.result == env.peer
            && r.state.uuid == NullUuid
            && r.state.topology == SetupClockFreqTopology(s, c).value.topology
  {
  }
}

=== FILE: mem_topology.dfy ===
/** Memory-topology lookups used when controllers are created for an xclbin
    (convert_mem_type and icap_get_memidx in icap.c).

    A bank's type is derived from its tag rather than from the type the
    xclbin declares: "DDR..." is a DRAM bank, "HBM..." is high-bandwidth
    memory, "bank..." is a DDR4 bank, and anything else yields MEM_DDR3, which
    the driver uses as "no usable type". Tags are modelled as the characters of
    the C string before its terminating NUL.
 */
module MemTopology {
  import opened Bytes
  import opened Errors

  /** The memory types the driver tells apart; the numeric values of the
      xclbin enum are not needed. */
  datatype MemType = MemDDR3 | MemDDR4 | MemDRAM | MemHBM | MemOtherType

  /** The characters of a C string: no NUL before its end. */
  type CString = s: string | forall k :: 0 <= k < |s| ==> s[k] != '\0'

  /** One bank of the memory topology; only its tag is read. */
  datatype MemData = MemData(tag: CString)

  /** The banks of a memory topology. The driver walks them with a 16-bit
      counter and returns that counter, so the model keeps fewer than 2^16. */
  type MemEntries = s: seq<MemData> | |s| < TWO_16

  /** Returned when no bank matches. */
  const InvalidMemIdx: u16 := 0xFFFF

  /** The character at position k, or NUL past the end of the string. */
  function At(s: string, k: nat): char {
    if k < |s| then s[k] else '\0'
  }

  /** ASCII case folding as strncasecmp applies it. */
  function Fold(c: char): int {
    if 'A' <= c <= 'Z' then c as int + 32 else c as int
  }

  /** strncasecmp from position k on: the difference of the first pair of
      characters that differ ignoring case, stopping at a NUL or after n. */
  function CaseCmpFrom(a: string, b: string, n: nat, k: nat): int
    requires k <= n
    decreases n - k
  {
    if k == n then 0
    else if At(a, k) == '\0' || At(b, k) == '\0' then At(a, k) as int - At(b, k) as int
    else if Fold(At(a, k)) != Fold(At(b, k)) then Fold(At(a, k)) - Fold(At(b, k))
    else CaseCmpFrom(a, b, n, k + 1)
  }

  function StrNCaseCmp(a: string, b: string, n: nat): int {
    CaseCmpFrom(a, b, n, 0)
  }

  /** The reference meaning of a case-insensitive prefix test. */
  predicate StartsWithIgnoringCase(name: string, prefix: string) {
    |prefix| <= |name| && forall k :: 0 <= k < |prefix| ==> Fold(name[k]) == Fold(prefix[k])
  }

  /** From position k on, every character of the prefix is matched. */
  predicate MatchesFrom(a: string, p: string, k: nat) {
    (|p| <= k || |p| <= |a|) && forall j :: k <= j < |p| ==> Fold(a[j]) == Fold(p[j])
  }

  lemma MatchesFromStep(a: string, p: string, k: nat)
    requires k < |p|
    ensures MatchesFrom(a, p, k)
        <==> k < |a| && Fold(a[k]) == Fold(p[k]) && MatchesFrom(a, p, k + 1)
  {
    if k < |a| && Fold(a[k]) == Fold(p[k]) && MatchesFrom(a, p, k + 1) {
      forall j | k <= j < |p|
        ensures Fold(a[j]) == Fold(p[j])
      {
        if j > k {
          assert k + 1 <= j;
        }
      }
    }
  }

  /** From position k on, the comparison is 0 exactly when the rest of the
      prefix is matched ignoring case. */
  lemma {:induction false} CaseCmpFromZero(a: CString, p: CString, k: nat)
    requires k <= |p|
    ensures CaseCmpFrom(a, p, |p|, k) == 0 <==> MatchesFrom(a, p, k)
    decreases |p| - k
  {
    if k < |p| {
      MatchesFromStep(a, p, k);
      if k < |a| && Fold(a[k]) == Fold(p[k]) {
        assert a[k] != '\0' && p[k] != '\0';
        assert CaseCmpFrom(a, p, |p|, k) == CaseCmpFrom(a, p, |p|, k + 1);
        CaseCmpFromZero(a, p, k + 1);
      } else if k < |a| {
        assert a[k] != '\0' && p[k] != '\0';
        assert CaseCmpFrom(a, p, |p|, k) == Fold(a[k]) - Fold(p[k]);
      } else {
        assert p[k] != '\0';
        assert CaseCmpFrom(a, p, |p|, k) == 0 - p[k] as int;
      }
    }
  }

  /** strncasecmp(name, prefix, |prefix|) == 0 is the prefix test. */
  lemma CaseCmpZeroIff(name: CString, prefix: CString)
    ensures StrNCaseCmp(name, prefix, |prefix|) == 0 <==> StartsWithIgnoringCase(name, prefix)
  {
    CaseCmpFromZero(name, prefix, 0);
  }

  /** convert_mem_type: the bank type named by a tag. */
  function ConvertMemType(name: CString): (t: MemType)
    ensures t != MemOtherType
  {
    if StrNCaseCmp(name, "DDR", 3) == 0 then MemDRAM
    else if StrNCaseCmp(name, "HBM", 3) == 0 then MemHBM
    else if StrNCaseCmp(name, "bank", 4) == 0 then MemDDR4
    else MemDDR3
  }

  /** The type follows the first of the prefixes "DDR", "HBM", "bank" that
      the tag starts with, ignoring case; MEM_DDR3 when none does. */
  lemma ConvertMemTypeSpec(name: CString)
    ensures ConvertMemType(name) == MemDRAM <==> StartsWithIgnoringCase(name, "DDR")
    ensures ConvertMemType(name) == MemHBM
        <==> !StartsWithIgnoringCase(name, "DDR") && StartsWithIgnoringCase(name, "HBM")
    ensures ConvertMemType(name) == MemDDR4
        <==> !StartsWithIgnoringCase(name, "DDR") && !StartsWithIgnoringCase(name, "HBM")
             && StartsWithIgnoringCase(name, "bank")
    ensures ConvertMemType(name) == MemDDR3
        <==> !StartsWithIgnoringCase(name, "DDR") && !StartsWithIgnoringCase(name, "HBM")
             && !StartsWithIgnoringCase(name, "bank")
  {
    CaseCmpZeroIff(name, "DDR");
    CaseCmpZeroIff(name, "HBM");
    CaseCmpZeroIff(name, "bank");
  }

  /** The driver's own example: an "HBM[0]" tag is an HBM bank. */
  lemma HbmTagIsHbm()
    ensures ConvertMemType("HBM[0]") == MemHBM
  {
    var name: CString := "HBM[0]";
    ConvertMemTypeSpec(name);
    assert Fold(name[0]) != Fold("DDR"[0]);
    assert Fold(name[0]) == Fold("HBM"[0]) && Fold(name[1]) == Fold("HBM"[1])
        && Fold(name[2]) == Fold("HBM"[2]);
  }

  /** The driver's own example: a "DDR[1]" tag is a DRAM bank, whatever the case. */
  lemma DdrTagIsDram()
    ensures ConvertMemType("DDR[1]") == MemDRAM
    ensures ConvertMemType("ddr[1]") == MemDRAM
  {
    var upper: CString := "DDR[1]";
    var lower: CString := "ddr[1]";
    ConvertMemTypeSpec(upper);
    ConvertMemTypeSpec(lower);
    assert Fold(upper[0]) == Fold("DDR"[0]) && Fold(upper[1]) == Fold("DDR"[1])
        && Fold(upper[2]) == Fold("DDR"[2]);
    assert Fold(lower[0]) == Fold("DDR"[0]) && Fold(lower[1]) == Fold("DDR"[1])
        && Fold(lower[2]) == Fold("DDR"[2]);
  }

  /** A tag with none of the three prefixes falls back to MEM_DDR3. */
  lemma PlramTagIsDdr3()
    ensures ConvertMemType("PLRAM[0]") == MemDDR3
  {
    var name: CString := "PLRAM[0]";
    ConvertMemTypeSpec(name);
    assert Fold(name[0]) != Fold("DDR"[0]);
    assert Fold(name[0]) != Fold("HBM"[0]);
    assert Fold(name[0]) != Fold("bank"[0]);
  }

  /** How many banks of the list have type t. */
  function CountOfType(s: seq<MemData>, t: MemType): nat {
    if s == [] then 0
    else CountOfType(s[..|s| - 1], t) + (if ConvertMemType(s[|s| - 1].tag) == t then 1 else 0)
  }

  lemma CountOfTypeStep(s: seq<MemData>, t: MemType, i: nat)
    requires i < |s|
    ensures CountOfType(s[..i + 1], t)
         == CountOfType(s[..i], t) + (if ConvertMemType(s[i].tag) == t then 1 else 0)
  {
    assert s[..i + 1][..i] == s[..i];
  }

  lemma {:induction false} CountOfTypeMonotone(s: seq<MemData>, t: MemType, i: nat)
    requires i <= |s|
    ensures CountOfType(s[..i], t) <= CountOfType(s, t)
    decreases |s| - i
  {
    if i < |s| {
      CountOfTypeStep(s, t, i);
      CountOfTypeMonotone(s, t, i + 1);
      if i + 1 == |s| {
        assert s[..i + 1] == s;
      }
    } else {
      assert s[..i] == s;
    }
  }

  /** icap_get_memidx: the position of the idx-th bank (counting from 0) of
      type t, or INVALID_MEM_IDX when there is no topology or fewer banks of
      that type. */
  method GetMemIdx(topo: Option<MemEntries>, t: MemType, idx: int) returns (r: u16)
    ensures r != InvalidMemIdx ==>
              topo.Some? && r < |topo.value| && ConvertMemType(topo.value[r].tag) == t
              && CountOfType(topo.value[..r], t) == idx
    ensures r == InvalidMemIdx <==>
              topo.None? || idx < 0 || CountOfType(topo.value, t) <= idx
  {
    r := InvalidMemIdx;
    if topo.None? {
      return;
    }
    var entries := topo.value;
    var i: nat := 0;
    var seen: nat := 0;
    while i < |entries|
      invariant i <= |entries|
      invariant seen == CountOfType(entries[..i], t)
      invariant idx >= 0 ==> seen <= idx
    {
      var ty := ConvertMemType(entries[i].tag);
      CountOfTypeStep(entries, t, i);
      if ty == t {
        if idx == seen {
          r := i;
          CountOfTypeMonotone(entries, t, i + 1);
          return;
        }
        seen := seen + 1;
      }
      i := i + 1;
    }
    assert entries[..i] == entries;
  }
}

=== FILE: peer_cache.dfy ===
/** The user function's cache of the management function's hardware facts
    (icap_set_data, icap_get_data_nolock and the cache handling of
    __icap_peer_xclbin_download in icap.c).

    Times are boot-clock nanoseconds. The snapshot itself is abstract: the
    model only tracks which snapshot is served and when it is replaced.
 */
module PeerCache {
  import opened Errors

  const NsPerSec: int := 1_000_000_000

  /** The sysfs attribute that sets the lifetime accepts 0 to 10 seconds. */
  const MaxExpireSecs: nat := 10

  type ExpireSecs = x: nat | x <= MaxExpireSecs

  datatype Cache<S> = Cache(snapshot: S, expires: int)

  /** A read finds the entry stale once the clock is strictly past expiry. */
  predicate Expired<S>(c: Cache<S>, now: int) {
    now > c.expires
  }

  /** icap_set_data: store the peer's answer, valid for `secs` seconds from `now`. */
  function Fill<S>(answer: S, now: int, secs: ExpireSecs): (c: Cache<S>)
    ensures c.snapshot == answer
    ensures !Expired(c, now)
  {
    Cache(answer, now + secs * NsPerSec)
  }

  /** The freshly filled entry is served for exactly `secs` seconds. */
  lemma FillLifetime<S>(answer: S, now: int, secs: ExpireSecs, t: int)
    requires now <= t
    ensures Expired(Fill(answer, now, secs), t) <==> t - now > secs * NsPerSec
  {
  }

  /** What a read hands back: the snapshot served (None on the management
      function, which reads its own registers) and the cache afterwards. */
  datatype Lookup<S> = Lookup(served: Option<S>, cache: Cache<S>, roundTrip: bool)

  /** icap_get_data_nolock: a stale entry is refreshed by one round trip to
      the peer before it is read. `answer` is what the peer returns and
      `later` the clock reading icap_set_data takes after the round trip. */
  function Read<S>(c: Cache<S>, privileged: bool, now: int, later: int, answer: S, secs: ExpireSecs)
    : (r: Lookup<S>)
    requires now <= later
    ensures privileged ==> r.served.None? && r.cache == c && !r.roundTrip
    ensures !privileged ==> r.served == Some(r.cache.snapshot)
    ensures !privileged ==> !Expired(r.cache, now)
    ensures r.roundTrip <==> !privileged && Expired(c, now)
    ensures !r.roundTrip ==> r.cache == c
    ensures r.roundTrip ==> r.cache.snapshot == answer
  {
    if privileged then Lookup(None, c, false)
    else if Expired(c, now) then
      var filled := Fill(answer, later, secs);
      Lookup(Some(filled.snapshot), filled, true)
    else Lookup(Some(c.snapshot), c, false)
  }

  /** What the user function's download through the peer returns, the cache
      afterwards, and whether the xclbin was sent to the peer at all. */
  datatype PeerResult<S> = PeerResult(result: Outcome, cache: Cache<S>, sent: bool)

  /** __icap_peer_xclbin_download, as far as the cache is concerned. The
      peer's uuid is first looked up through the cache (a read at `now`,
      refreshed with `answer` at `later` when stale; `uuidOf` picks the uuid
      out of a snapshot). An xclbin the peer already holds is not sent, and
      the cache is left as the lookup left it. Otherwise the outcome is the
      error `peer` reports; on success the cache is emptied (`empty`) and
      dated one second before `done`, the boot-clock reading taken then. */
  function PeerXclbinDownload<S, U(==)>(c: Cache<S>, uuidOf: S -> U, xclbin: U, now: int, later: int,
                                        answer: S, secs: ExpireSecs, peer: Outcome, empty: S, done: int)
    : (r: PeerResult<S>)
    requires now <= later
    ensures var look := Read(c, false, now, later, answer, secs);
            uuidOf(look.cache.snapshot) == xclbin ==> r == PeerResult(Pass, look.cache, false)
    ensures var look := Read(c, false, now, later, answer, secs);
            uuidOf(look.cache.snapshot) != xclbin ==> r.sent && r.result == peer
    ensures var look := Read(c, false, now, later, answer, secs);
            uuidOf(look.cache.snapshot) != xclbin && peer.Fail? ==> r.cache == look.cache
    ensures r.sent && peer == Pass ==> r.cache.snapshot == empty && Expired(r.cache, done)
  {
    var look := Read(c, false, now, later, answer, secs);
    if uuidOf(look.cache.snapshot) == xclbin then PeerResult(Pass, look.cache, false)
    else if peer.Fail? then PeerResult(peer, look.cache, true)
    else PeerResult(Pass, Cache(empty, done - NsPerSec), true)
  }

  /** After an xclbin was sent and loaded by the peer, the next read, at any
      later time, goes to the peer and serves its answer rather than the
      emptied snapshot. */
  lemma ReadAfterDownloadGoesToPeer<S, U>(c: Cache<S>, uuidOf: S -> U, xclbin: U, now: int, later: int,
                                              answer: S, secs: ExpireSecs, empty: S, done: int,
                                              now2: int, later2: int, answer2: S)
    requires now <= later && done <= now2 <= later2
    requires PeerXclbinDownload(c, uuidOf, xclbin, now, later, answer, secs, Pass, empty, done).sent
    ensures var d := PeerXclbinDownload(c, uuidOf, xclbin, now, later, answer, secs, Pass, empty, done);
            var r := Read(d.cache, false, now2, later2, answer2, secs);
            r.roundTrip && r.served == Some(answer2)
  {
  }

  /** An xclbin the peer already holds is reported loaded without being sent,
      and the cache is not cleared: until it expires, reads keep serving the
      snapshot the uuid lookup saw, with no round trip. */
  lemma SkippedDownloadKeepsCache<S, U>(c: Cache<S>, uuidOf: S -> U, xclbin: U, now: int, later: int,
                                            answer: S, secs: ExpireSecs, peer: Outcome, empty: S, done: int,
                                            now2: int, later2: int, answer2: S)
    requires now <= later && now2 <= later2
    requires uuidOf(Read(c, false, now, later, answer, secs).cache.snapshot) == xclbin
    requires now2 <= Read(c, false, now, later, answer, secs).cache.expires
    ensures var look := Read(c, false, now, later, answer, secs);
            var d := PeerXclbinDownload(c, uuidOf, xclbin, now, later, answer, secs, peer, empty, done);
            var r := Read(d.cache, false, now2, later2, answer2, secs);
            d.result == Pass && !d.sent && !r.roundTrip && r.served == Some(look.cache.snapshot)
  {
  }

  /** Two reads of a stale entry within the lifetime of the refill cost one
      round trip: the second serves the peer's first answer without asking
      again. */
  lemma SecondReadHitsCache<S>(c: Cache<S>, now: int, later: int, answer: S, secs: ExpireSecs,
                               now2: int, later2: int, answer2: S)
    requires Expired(c, now)
    requires now <= later <= now2 <= later2
    requires now2 - later <= secs * NsPerSec
    ensures var r := Read(c, false, now, later, answer, secs);
            var r2 := Read(r.cache, false, now2, later2, answer2, secs);
            r.roundTrip && !r2.roundTrip && r2.served == Some(answer)
  {
    FillLifetime(answer, later, secs, now2);
  }
}

=== FILE: registers.dfy ===
/** The hardware as the driver sees it: a stream of values returned by its
    register reads, and the bounded polling loops built on them.

    Every register read whose value the driver uses, whatever its address,
    takes the next value of one stream `rd`; each operation receives the
    position of its first read and reports the position after its last. Reads
    whose value is thrown away (the AXI gate's read-backs) do not consume it. Writes are not
    observed by the stream; operations that matter record them separately.
    Delays between reads are left out: they change when a value arrives, not
    which value the driver acts on.
 */
module Registers {
  import opened Bytes
  import opened Errors

  /** `rd(k)` is the value returned by the k-th register read. */
  type Reads = nat -> u32

  /** A value computed from register reads, and the position of the next read. */
  datatype Read<+T> = Read(value: T, next: nat)

  /** Position of the first read in `lo .. hi - 1` whose value satisfies
      `p`; `None` when none of them does. */
  function FirstHit(rd: Reads, lo: nat, hi: nat, p: u32 -> bool): (r: Option<nat>)
    requires lo <= hi
    ensures r.Some? ==> lo <= r.value < hi && p(rd(r.value))
    decreases hi - lo
  {
    if lo == hi then None
    else if p(rd(lo)) then Some(lo)
    else FirstHit(rd, lo + 1, hi, p)
  }

  /** The hit is the first read satisfying `p`, and there is none exactly
      when no read in the range satisfies it. */
  lemma {:induction false} FirstHitSpec(rd: Reads, lo: nat, hi: nat, p: u32 -> bool)
    requires lo <= hi
    ensures var r := FirstHit(rd, lo, hi, p);
            && (r.Some? ==> forall k :: lo <= k < r.value ==> !p(rd(k)))
            && (r.None? <==> (forall k :: lo <= k < hi ==> !p(rd(k))))
    decreases hi - lo
  {
    if lo < hi && !p(rd(lo)) {
      FirstHitSpec(rd, lo + 1, hi, p);
    }
  }

  /** Poll up to `n` reads from position `c` for one satisfying `p`: success
      stops just after the hit, failure consumes all `n` reads and reports `error`. */
  function Poll(rd: Reads, c: nat, n: nat, p: u32 -> bool, error: Errno): (r: Read<Outcome>)
    ensures r.value.Fail? ==> r.value.error == error && r.next == c + n
    ensures r.value == Pass ==> c < r.next <= c + n
  {
    match FirstHit(rd, c, c + n, p)
    case Some(k) => Read(Pass, k + 1)
    case None => Read(Fail(error), c + n)
  }

  /** A poll succeeds exactly when one of its reads satisfies `p`, and then
      it stops at the first such read. */
  lemma PollSpec(rd: Reads, c: nat, n: nat, p: u32 -> bool, error: Errno)
    ensures var r := Poll(rd, c, n, p, error);
            && (r.value == Pass <==> exists k :: c <= k < c + n && p(rd(k)))
            && (r.value == Pass ==> p(rd(r.next - 1)))
            && (r.value == Pass ==> forall k :: c <= k < r.next - 1 ==> !p(rd(k)))
  {
    var r := Poll(rd, c, n, p, error);
    FirstHitSpec(rd, c, c + n, p);
    match FirstHit(rd, c, c + n, p)
    case Some(k) =>
      assert r.next - 1 == k;
    case None =>
  }

  /** Bit 0 of a value. */
  predicate Bit0(w: u32)
  {
    w % 2 == 1
  }

  /** Bit 2 of a value. */
  predicate Bit2(w: u32)
  {
    (w / 4) % 2 == 1
  }

  // ---------------------------------------------------------------------
  // The polling loops of the configuration port and the clock wizard
  // ---------------------------------------------------------------------

  /** The configuration port's control register no longer shows the write
      strobe (bit 0) it was given. */
  predicate StrobeDone(w: u32)
  {
    !Bit0(w)
  }

  /** The status register reports done (bit 0) or an error-done (bit 2): `w & 0x5`. */
  predicate TransferDone(w: u32)
  {
    Bit0(w) || Bit2(w)
  }

  /** After a burst of words is queued, the control register is read up to 20
      times for the strobe to clear; it fails with EIO otherwise. */
  function WriteStrobe(rd: Reads, c: nat): (r: Read<Outcome>)
    ensures r.value.Fail? ==> r.value.error == EIO
    ensures c < r.next <= c + 20
  {
    Poll(rd, c, 20, StrobeDone, EIO)
  }

  /** The strobe wait succeeds exactly when one of its 20 reads shows bit 0
      clear. */
  lemma WriteStrobeSpec(rd: Reads, c: nat)
    ensures WriteStrobe(rd, c).value == Pass <==> exists k :: c <= k < c + 20 && !Bit0(rd(k))
  {
    PollSpec(rd, c, 20, StrobeDone, EIO);
  }

  /** The icap_write strobe wait as a loop: it returns at the first read
      whose bit 0 is clear. */
  method WriteStrobeLoop(rd: Reads, c: nat) returns (result: Outcome, next: nat)
    ensures Read(result, next) == WriteStrobe(rd, c)
  {
    var i := 0;
    while i < 20
      invariant 0 <= i <= 20
      invariant FirstHit(rd, c, c + 20, StrobeDone) == FirstHit(rd, c + i, c + 20, StrobeDone)
    {
      var value := rd(c + i);
      if value % 2 == 0 {
        return Pass, c + i + 1;
      }
      i := i + 1;
    }
    return Fail(EIO), c + 20;
  }

  /** The end of a download: up to 10 status reads for done or error-done,
      ETIMEDOUT otherwise. */
  function WaitForDone(rd: Reads, c: nat): (r: Read<Outcome>)
    ensures r.value.Fail? ==> r.value.error == ETIMEDOUT && r.next == c + 10
    ensures c < r.next <= c + 10
  {
    Poll(rd, c, 10, TransferDone, ETIMEDOUT)
  }

  /** The wait succeeds exactly when one of its 10 reads shows done or
      error-done, and then its last read is the one that did. */
  lemma WaitForDoneSpec(rd: Reads, c: nat)
    ensures WaitForDone(rd, c).value == Pass <==> exists k :: c <= k < c + 10 && (Bit0(rd(k)) || Bit2(rd(k)))
    ensures WaitForDone(rd, c).value == Pass ==> TransferDone(rd(WaitForDone(rd, c).next - 1))
  {
    PollSpec(rd, c, 10, TransferDone, ETIMEDOUT);
  }

  /** The clock wizard's wait for lock: 100 status reads that never leave the
      loop early, so only the last read decides. */
  function LockStatus(rd: Reads, c: nat): (r: Read<u32>)
    ensures r.next == c + 100
  {
    Read(rd(c + 99), c + 100)
  }

  /** The lock wait as the driver writes it: each read overwrites `val`, and a
      locked reading does not end the loop. */
  method LockStatusLoop(rd: Reads, c: nat) returns (val: u32, next: nat)
    ensures val == rd(c + 99) && next == c + 100
    ensures Read(val, next) == LockStatus(rd, c)
  {
    val := 0;
    var j := 0;
    while j < 100
      invariant 0 <= j <= 100
      invariant j > 0 ==> val == rd(c + j - 1)
    {
      val := rd(c + j);
      j := j + 1;
    }
    next := c + 100;
  }

  /** A poll of up to `n` reads followed by one more read, which lands at
      `next - 1`: the poll ended at its first read satisfying `p` (at
      `next - 2`), or it ran all `n` reads without leaving early. */
  predicate ReadAfterPoll(rd: Reads, c: nat, n: nat, p: u32 -> bool, next: nat)
  {
    && c + 2 <= next <= c + n + 1
    && (forall k :: c <= k < next - 2 ==> !p(rd(k)))
    && (p(rd(next - 2)) || next == c + n + 1)
  }

  /** Reading once more after a poll of `n >= 1` reads. */
  lemma PollThenRead(rd: Reads, c: nat, n: nat, p: u32 -> bool, error: Errno)
    requires n >= 1
    ensures ReadAfterPoll(rd, c, n, p, Poll(rd, c, n, p, error).next + 1)
  {
    PollSpec(rd, c, n, p, error);
  }

  /** The reads determine where the final read lands: there is one such
      position only. */
  lemma ReadAfterPollUnique(rd: Reads, c: nat, n: nat, p: u32 -> bool, a: nat, b: nat)
    requires ReadAfterPoll(rd, c, n, p, a) && ReadAfterPoll(rd, c, n, p, b)
    ensures a == b
  {
  }

  /** MIG calibration: up to 20 checks of bit 0 of the calibration state,
      then one more check that decides; without the state register every
      check reads as not calibrated and no read is made. */
  function CalibrateMig(statePresent: bool, rd: Reads, c: nat): (r: Read<Outcome>)
    ensures !statePresent ==> r == Read(Fail(ETIMEDOUT), c)
    ensures statePresent ==> ReadAfterPoll(rd, c, 20, Bit0, r.next)
    ensures statePresent ==> (r.value == Pass <==> Bit0(rd(r.next - 1)))
    ensures r.value.Fail? ==> r.value.error == ETIMEDOUT
  {
    if !statePresent then Read(Fail(ETIMEDOUT), c)
    else
      var waited := Poll(rd, c, 20, Bit0, ETIMEDOUT);
      PollThenRead(rd, c, 20, Bit0, ETIMEDOUT);
      var last := rd(waited.next);
      Read(if Bit0(last) then Pass else Fail(ETIMEDOUT), waited.next + 1)
  }

  /** A passing calibration saw the calibrated bit twice in a row, the second
      time in the deciding read, unless all 20 checks had failed and only the
      deciding read showed it. */
  lemma CalibrationNeedsTwoReadings(rd: Reads, c: nat)
    requires CalibrateMig(true, rd, c).value == Pass
    ensures var r := CalibrateMig(true, rd, c);
            && Bit0(rd(r.next - 1))
            && (r.next == c + 21 || (c + 2 <= r.next && Bit0(rd(r.next - 2))))
            && (forall k :: c <= k < r.next - 2 ==> !Bit0(rd(k)))
  {
  }
}

=== FILE: stream.dfy ===
/** Streaming a `.bit` file's configuration data into the configuration
    port: the write-FIFO bursts of bitstream_helper, the 1 KiB chunking of
    icap_download and icap_download_hw, the staged clearing bitstream, and the
    gate and clock bookkeeping around a full download.

    Every FIFO vacancy and control/status value comes from the read stream;
    the words queued in the write FIFO are recorded, in order, in `pushed`.
 */
module Stream {
  import opened Bytes
  import opened Errors
  import opened Registers
  import opened BitHeader
  import opened IcapState
  import opened FreqScaling

  /** DMA_HWICAP_BITFILE_BUFFER_SIZE: the bytes handed to the FIFO loop at a time. */
  const ChunkBytes: nat := 1024

  /** Outcome, the words queued in the write FIFO in order, and the next read. */
  datatype Transfer = Transfer(result: Outcome, pushed: seq<u32>, next: nat)

  /** `prefix` pushed before `t`. */
  function After(prefix: seq<u32>, t: Transfer): Transfer
  {
    Transfer(t.result, prefix + t.pushed, t.next)
  }

  lemma AfterAfter(a: seq<u32>, b: seq<u32>, t: Transfer)
    ensures After(a, After(b, t)) == After(a + b, t)
  {
    assert a + (b + t.pushed) == (a + b) + t.pushed;
  }

  // ---------------------------------------------------------------------
  // bitstream_helper
  // ---------------------------------------------------------------------

  /** bitstream_helper from word `pos` on. Each burst reads the FIFO vacancy
      into an `int`; a vacancy of 0 or less fails with EIO. Otherwise
      min(vacancy, remaining) words are queued and icap_write waits for the
      strobe, whose time-out also fails with EIO. */
  function HelperFrom(words: seq<u32>, pos: nat, rd: Reads, c: nat): Transfer
    requires pos <= |words|
    decreases |words| - pos
  {
    if pos == |words| then Transfer(Pass, [], c)
    else
      var vacancy := Signed32(rd(c));
      if vacancy <= 0 then Transfer(Fail(EIO), [], c + 1)
      else
        var n := Min(vacancy, |words| - pos);
        var batch := words[pos .. pos + n];
        var strobe := WriteStrobe(rd, c + 1);
        if strobe.value.Fail? then Transfer(Fail(EIO), batch, strobe.next)
        else After(batch, HelperFrom(words, pos + n, rd, strobe.next))
  }

  /** One burst of the helper, unfolded: `n` words go out, and the strobe
      wait ends at `after` with `strobe`. */
  lemma HelperStep(words: seq<u32>, pos: nat, rd: Reads, c: nat, n: nat, strobe: Outcome, after: nat)
    requires pos < |words| && Signed32(rd(c)) > 0 && n == Min(Signed32(rd(c)), |words| - pos)
    requires WriteStrobe(rd, c + 1) == Read(strobe, after)
    ensures strobe.Fail? ==> HelperFrom(words, pos, rd, c) == Transfer(Fail(EIO), words[pos .. pos + n], after)
    ensures strobe.Pass? ==> HelperFrom(words, pos, rd, c) == After(words[pos .. pos + n], HelperFrom(words, pos + n, rd, after))
  {
    if strobe.Fail? {
      HelperStrobeFails(words, pos, rd, c, n, strobe, after);
    } else {
      HelperStrobePasses(words, pos, rd, c, n, after);
    }
  }

  lemma HelperStrobeFails(words: seq<u32>, pos: nat, rd: Reads, c: nat, n: nat, strobe: Outcome, after: nat)
    requires pos < |words| && Signed32(rd(c)) > 0 && n == Min(Signed32(rd(c)), |words| - pos)
    requires WriteStrobe(rd, c + 1) == Read(strobe, after) && strobe.Fail?
    ensures HelperFrom(words, pos, rd, c) == Transfer(Fail(EIO), words[pos .. pos + n], after)
  {
  }

  lemma HelperStrobePasses(words: seq<u32>, pos: nat, rd: Reads, c: nat, n: nat, after: nat)
    requires pos < |words| && Signed32(rd(c)) > 0 && n == Min(Signed32(rd(c)), |words| - pos)
    requires WriteStrobe(rd, c + 1) == Read(Pass, after)
    ensures HelperFrom(words, pos, rd, c) == After(words[pos .. pos + n], HelperFrom(words, pos + n, rd, after))
  {
  }

  lemma HelperNoVacancy(words: seq<u32>, pos: nat, rd: Reads, c: nat)
    requires pos < |words| && Signed32(rd(c)) <= 0
    ensures HelperFrom(words, pos, rd, c) == Transfer(Fail(EIO), [], c + 1)
  {
  }

  /** The words are queued in order, so whatever the helper pushed is a
      prefix of what it was asked for, and all of it when it succeeds; every
      failure is EIO. */
  lemma {:induction false} HelperQueuesInOrder(words: seq<u32>, pos: nat, rd: Reads, c: nat)
    requires pos <= |words|
    ensures QueuedInOrder(words, pos, HelperFrom(words, pos, rd, c), c)
    decreases |words| - pos
  {
    if pos == |words| {
      assert words[pos..] == [];
    } else if Signed32(rd(c)) <= 0 {
      HelperNoVacancy(words, pos, rd, c);
    } else {
      var n := Min(Signed32(rd(c)), |words| - pos);
      var strobe := WriteStrobe(rd, c + 1);
      var after := strobe.next;
      HelperStep(words, pos, rd, c, n, strobe.value, after);
      if strobe.value.Pass? {
        HelperQueuesInOrder(words, pos + n, rd, after);
        QueuedAfterBurst(words, pos, n, HelperFrom(words, pos + n, rd, after), c, after);
      } else {
        QueuedFailedBurst(words, pos, n, c, after);
      }
    }
  }

  /** What the helper from `pos` promises of its transfer `t`, started at
      read `c`. */
  predicate QueuedInOrder(words: seq<u32>, pos: nat, t: Transfer, c: nat)
    requires pos <= |words|
  {
    && t.pushed <= words[pos..]
    && (t.result == Pass ==> t.pushed == words[pos..])
    && (t.result.Fail? ==> t.result.error == EIO)
    && c <= t.next
  }

  lemma QueuedAfterBurst(words: seq<u32>, pos: nat, n: nat, rest: Transfer, c: nat, after: nat)
    requires pos + n <= |words| && c <= after
    requires QueuedInOrder(words, pos + n, rest, after)
    ensures QueuedInOrder(words, pos, After(words[pos .. pos + n], rest), c)
  {
    assert words[pos..] == words[pos .. pos + n] + words[pos + n..];
    PrefixAppend(words[pos .. pos + n], rest.pushed, words[pos + n..]);
  }

  lemma QueuedFailedBurst(words: seq<u32>, pos: nat, n: nat, c: nat, after: nat)
    requires pos + n <= |words| && c <= after
    ensures QueuedInOrder(words, pos, Transfer(Fail(EIO), words[pos .. pos + n], after), c)
  {
    assert words[pos..] == words[pos .. pos + n] + words[pos + n..];
  }

  /** Pushing the same words first keeps one sequence a prefix of another. */
  lemma PrefixAppend(a: seq<u32>, b: seq<u32>, c: seq<u32>)
    requires b <= c
    ensures a + b <= a + c
  {
    assert (a + c)[..|a + b|] == a + b;
  }

  /** bitstream_helper of a whole word buffer. */
  function BitstreamHelper(words: seq<u32>, rd: Reads, c: nat): (r: Transfer)
    ensures r.pushed <= words
    ensures r.result == Pass ==> r.pushed == words
    ensures r.result.Fail? ==> r.result.error == EIO
    ensures c <= r.next
  {
    assert words[0..] == words;
    HelperQueuesInOrder(words, 0, rd, c);
    HelperFrom(words, 0, rd, c)
  }

  /** The helper as the driver writes it: a loop over bursts, advancing the
      buffer by the words written. */
  method BitstreamHelperLoop(words: seq<u32>, rd: Reads, c: nat) returns (result: Outcome, pushed: seq<u32>, next: nat)
    ensures Transfer(result, pushed, next) == BitstreamHelper(words, rd, c)
  {
    ghost var whole := BitstreamHelper(words, rd, c);
    var pos := 0;
    pushed := [];
    next := c;
    ResumesAtStart(words, rd, c);
    while pos < |words|
      invariant pos <= |words|
      invariant Resumes(whole, words, rd, pushed, pos, next)
      decreases |words| - pos
    {
      var stop, outcome, n, after := Burst(words, pos, rd, next);
      if stop {
        ResumesAtStop(whole, words, rd, pushed, pos, next, outcome, n, after);
        return outcome, pushed + words[pos .. pos + n], after;
      }
      var pushed', pos' := pushed + words[pos .. pos + n], pos + n;
      ResumesAfterBurst(whole, words, rd, pushed, pos, next, n, after, pushed', pos');
      pushed, pos, next := pushed', pos', after;
    }
    ResumesAtEnd(whole, words, rd, pushed, next);
    result := Pass;
  }

  /** The whole helper's transfer is `pushed` followed by the helper from
      `pos`, started at read `next`. */
  predicate Resumes(whole: Transfer, words: seq<u32>, rd: Reads, pushed: seq<u32>, pos: nat, next: nat)
    requires pos <= |words|
  {
    whole == After(pushed, HelperFrom(words, pos, rd, next))
  }

  lemma ResumesAtStart(words: seq<u32>, rd: Reads, c: nat)
    ensures Resumes(BitstreamHelper(words, rd, c), words, rd, [], 0, c)
  {
    assert [] + HelperFrom(words, 0, rd, c).pushed == HelperFrom(words, 0, rd, c).pushed;
  }

  lemma ResumesAfterBurst(whole: Transfer, words: seq<u32>, rd: Reads, pushed: seq<u32>, pos: nat, next: nat,
                          n: nat, after: nat, pushed': seq<u32>, pos': nat)
    requires pos' == pos + n <= |words| && pushed' == pushed + words[pos .. pos + n]
    requires Resumes(whole, words, rd, pushed, pos, next)
    requires BurstEnds(words, pos, rd, next, false, Pass, n, after)
    ensures Resumes(whole, words, rd, pushed', pos', after)
  {
    BurstContinues(words, pos, rd, next, n, after);
    ChainAfter(whole, pushed, HelperFrom(words, pos, rd, next),
               words[pos .. pos + n], HelperFrom(words, pos', rd, after), pushed');
  }

  lemma BurstContinues(words: seq<u32>, pos: nat, rd: Reads, c: nat, n: nat, after: nat)
    requires pos + n <= |words|
    requires BurstEnds(words, pos, rd, c, false, Pass, n, after)
    ensures HelperFrom(words, pos, rd, c) == After(words[pos .. pos + n], HelperFrom(words, pos + n, rd, after))
  {
  }

  lemma ChainAfter(whole: Transfer, pushed: seq<u32>, here: Transfer, batch: seq<u32>, rest: Transfer, pushed': seq<u32>)
    requires whole == After(pushed, here) && here == After(batch, rest) && pushed' == pushed + batch
    ensures whole == After(pushed', rest)
  {
    AfterAfter(pushed, batch, rest);
  }

  lemma ResumesAtStop(whole: Transfer, words: seq<u32>, rd: Reads, pushed: seq<u32>, pos: nat, next: nat,
                      result: Outcome, n: nat, after: nat)
    requires pos + n <= |words|
    requires Resumes(whole, words, rd, pushed, pos, next)
    requires BurstEnds(words, pos, rd, next, true, result, n, after)
    ensures Transfer(result, pushed + words[pos .. pos + n], after) == whole
  {
  }

  lemma ResumesAtEnd(whole: Transfer, words: seq<u32>, rd: Reads, pushed: seq<u32>, next: nat)
    requires Resumes(whole, words, rd, pushed, |words|, next)
    ensures Transfer(Pass, pushed, next) == whole
  {
    assert pushed + [] == pushed;
  }

  /** One trip round the helper's loop: read the vacancy, queue `n` words
      and wait for the strobe. `stop` when the helper ends here. */
  method Burst(words: seq<u32>, pos: nat, rd: Reads, c: nat)
    returns (stop: bool, result: Outcome, n: nat, after: nat)
    requires pos < |words|
    ensures pos + n <= |words|
    ensures BurstEnds(words, pos, rd, c, stop, result, n, after)
  {
    var vacancy := Signed32(rd(c));
    if vacancy <= 0 {
      HelperNoVacancy(words, pos, rd, c);
      assert words[pos .. pos] == [];
      return true, Fail(EIO), 0, c + 1;
    }
    n := Min(vacancy, |words| - pos);
    stop, result, after := QueueAndStrobe(words, pos, rd, c, n);
  }

  /** How one burst relates to the helper from `pos`: when it stops, the
      helper ends with its words; otherwise at least one word went out and the
      helper goes on from after them. */
  predicate BurstEnds(words: seq<u32>, pos: nat, rd: Reads, c: nat, stop: bool, result: Outcome, n: nat, after: nat)
    requires pos + n <= |words|
  {
    if stop then HelperFrom(words, pos, rd, c) == Transfer(result, words[pos .. pos + n], after)
    else 0 < n && pos < |words| && HelperFrom(words, pos, rd, c) == After(words[pos .. pos + n], HelperFrom(words, pos + n, rd, after))
  }

  /** Queue `n` words and wait for the strobe, as icap_write does. */
  method QueueAndStrobe(words: seq<u32>, pos: nat, rd: Reads, c: nat, n: nat)
    returns (stop: bool, result: Outcome, after: nat)
    requires pos < |words| && Signed32(rd(c)) > 0 && n == Min(Signed32(rd(c)), |words| - pos)
    ensures BurstEnds(words, pos, rd, c, stop, result, n, after)
  {
    var strobe;
    strobe, after := WriteStrobeLoop(rd, c + 1);
    HelperStep(words, pos, rd, c, n, strobe, after);
    stop := strobe.Fail?;
    result := if stop then Fail(EIO) else Pass;
  }

  /** A FIFO with room for every word, and a strobe that clears at once,
      take the whole buffer in one burst and two reads. */
  lemma HelperOneBurst(words: seq<u32>, rd: Reads, c: nat)
    requires 0 < |words| <= Signed32(rd(c)) && !Bit0(rd(c + 1))
    ensures BitstreamHelper(words, rd, c) == Transfer(Pass, words, c + 2)
  {
    assert WriteStrobe(rd, c + 1) == Read(Pass, c + 2) by {
      assert FirstHit(rd, c + 1, c + 21, StrobeDone) == Some(c + 1);
    }
    assert Min(Signed32(rd(c)), |words|) == |words|;
    assert words[0 .. |words|] == words;
    assert HelperFrom(words, |words|, rd, c + 2) == Transfer(Pass, [], c + 2);
    assert HelperFrom(words, 0, rd, c) == After(words, Transfer(Pass, [], c + 2));
  }

  // ---------------------------------------------------------------------
  // Chunking
  // ---------------------------------------------------------------------

  /** Sum of a sequence of sizes. */
  function Sum(xs: seq<nat>): nat
  {
    if xs == [] then 0 else xs[0] + Sum(xs[1..])
  }

  /** The chunk sizes the download loops use from byte `off` of a payload of
      `len` bytes: full chunks, then what is left. */
  function ChunkSizes(off: nat, len: nat): (r: seq<nat>)
    decreases len - off
  {
    if off >= len then [] else
      var n := Min(ChunkBytes, len - off);
      [n] + ChunkSizes(off + n, len)
  }

  /** The chunks are non-empty, at most 1 KiB, all but the last exactly 1 KiB,
      and together cover the payload exactly. */
  lemma {:induction false} ChunkSizesCover(off: nat, len: nat)
    ensures var r := ChunkSizes(off, len);
            && Sum(r) == (if off <= len then len - off else 0)
            && (forall k :: 0 <= k < |r| ==> 0 < r[k] <= ChunkBytes)
            && (forall k :: 0 <= k < |r| - 1 ==> r[k] == ChunkBytes)
    decreases len - off
  {
    if off < len {
      var n := Min(ChunkBytes, len - off);
      ChunkSizesCover(off + n, len);
      var r := ChunkSizes(off, len);
      assert r[1..] == ChunkSizes(off + n, len);
      if n < ChunkBytes {
        assert ChunkSizes(off + n, len) == [];
      }
    }
  }

  /** The chunk loop as a whole: the outcome, the chunk sizes handed to the
      helper, the words pushed, and the next read. */
  datatype Chunked = Chunked(result: Outcome, chunks: seq<nat>, pushed: seq<u32>, next: nat)

  /** The chunk loop from byte `off` of a payload of `len` bytes: each chunk's
      whole words go to the helper, trailing bytes of a chunk that do not fill
      a word are dropped, and the first failing chunk ends the loop. Without
      failure the words pushed are the words of the whole payload, because
      only the last chunk can end within a word. */
  function ChunksFrom(payload: seq<byte>, len: nat, off: nat, rd: Reads, c: nat): (r: Chunked)
    requires off <= len <= |payload|
    ensures r.chunks <= ChunkSizes(off, len)
    ensures r.result == Pass ==> r.chunks == ChunkSizes(off, len)
    ensures r.pushed <= Words(payload[off .. len])
    ensures r.result == Pass ==> r.pushed == Words(payload[off .. len])
    ensures r.result.Fail? ==> r.result.error == EIO
    ensures c <= r.next
    decreases len - off
  {
    if off == len then Chunked(Pass, [], [], c)
    else
      var n := Min(ChunkBytes, len - off);
      var chunk := payload[off .. off + n];
      WordsOfChunks(payload, off, n, len);
      var h := BitstreamHelper(Words(chunk), rd, c);
      if h.result.Fail? then Chunked(h.result, [n], h.pushed, h.next)
      else
        var rest := ChunksFrom(payload, len, off + n, rd, h.next);
        Chunked(rest.result, [n] + rest.chunks, h.pushed + rest.pushed, rest.next)
  }

  /** A chunk that is 1 KiB, or the last one, contributes exactly its own
      words to the words of the rest of the payload. */
  lemma WordsOfChunks(payload: seq<byte>, off: nat, n: nat, len: nat)
    requires off + n <= len <= |payload| && n == Min(ChunkBytes, len - off)
    ensures Words(payload[off .. len]) == Words(payload[off .. off + n]) + Words(payload[off + n .. len])
  {
    assert payload[off .. len] == payload[off .. off + n] + payload[off + n .. len];
    if n == ChunkBytes {
      WordsAppend(payload[off .. off + n], payload[off + n .. len]);
    } else {
      assert payload[off + n .. len] == [];
    }
  }

  /** The configuration data of a parsed header fits in the buffer: the
      check as evidently intended, on the exact sum. */
  predicate PayloadFits(h: Header, length: nat)
  {
    h.headerLength + h.bitstreamLength <= length
  }

  /** The check as written: `HeaderLength + BitstreamLength` is an
      `unsigned int` sum, compared with the buffer's length. It agrees with
      the exact check whenever the sum does not wrap. */
  function PayloadFitsAsWritten(h: Header, length: nat): (r: bool)
    ensures h.headerLength + h.bitstreamLength < TWO_32 ==> (r <==> PayloadFits(h, length))
  {
    Wrap32(h.headerLength + h.bitstreamLength) <= length
  }

  /** The configuration data that follows a parsed header. */
  function PayloadWords(buffer: seq<byte>, h: Header): seq<u32>
    requires PayloadFits(h, |buffer|)
  {
    Words(buffer[h.headerLength .. h.headerLength + h.bitstreamLength])
  }

  /** Parse, check the length, stream the data in chunks and wait for the
      port to report done: the part icap_download and icap_download_hw share.
      A header that does not parse, or whose data runs past the buffer, is
      refused with EINVAL before anything is pushed. */
  function StreamBitFile(buffer: seq<byte>, rd: Reads, c: nat): (r: Transfer)
    ensures Parse(buffer).Err? ==> r == Transfer(Fail(EINVAL), [], c)
    ensures Parse(buffer).Ok? && !PayloadFits(Parse(buffer).value, |buffer|) ==> r == Transfer(Fail(EINVAL), [], c)
    ensures Parse(buffer).Ok? && PayloadFits(Parse(buffer).value, |buffer|) ==>
              r.pushed <= PayloadWords(buffer, Parse(buffer).value)
    ensures r.result == Pass ==>
              && Parse(buffer).Ok? && PayloadFits(Parse(buffer).value, |buffer|)
              && r.pushed == PayloadWords(buffer, Parse(buffer).value)
              && exists k :: c <= k < r.next && TransferDone(rd(k))
    ensures r.result.Fail? ==> r.result.error in {EINVAL, EIO, ETIMEDOUT}
  {
    match Parse(buffer)
    case Err(_) => Transfer(Fail(EINVAL), [], c)
    case Ok(h) =>
      if !PayloadFits(h, |buffer|) then Transfer(Fail(EINVAL), [], c)
      else StreamPayload(buffer, h, rd, c)
  }

  /** The configuration data after a header that fits: chunked into the
      helper, then the wait for the port to report done. */
  function StreamPayload(buffer: seq<byte>, h: Header, rd: Reads, c: nat): (r: Transfer)
    requires PayloadFits(h, |buffer|)
    ensures r.pushed <= PayloadWords(buffer, h)
    ensures r.result == Pass ==>
              r.pushed == PayloadWords(buffer, h) && exists k :: c <= k < r.next && TransferDone(rd(k))
    ensures r.result.Fail? ==> r.result.error in {EIO, ETIMEDOUT}
  {
    var data := buffer[h.headerLength .. h.headerLength + h.bitstreamLength];
    assert data[0 .. |data|] == data;
    var s := ChunksFrom(data, |data|, 0, rd, c);
    if s.result.Fail? then Transfer(s.result, s.pushed, s.next)
    else
      var w := WaitForDone(rd, s.next);
      WaitForDoneSpec(rd, s.next);
      Transfer(w.value, s.pushed, w.next)
  }

  /** icap_download: a missing buffer or a zero length is a BUG_ON. */
  function Download(buffer: seq<byte>, rd: Reads, c: nat): (r: Transfer)
    ensures |buffer| == 0 <==> r.result == Fail(BugOn)
    ensures |buffer| > 0 ==> r == StreamBitFile(buffer, rd, c)
  {
    if |buffer| == 0 then Transfer(Fail(BugOn), [], c)
    else StreamBitFile(buffer, rd, c)
  }

  /** A header that declares 2^32 - 16 bytes of data, behind a 26-byte file:
      the as-written check accepts it (26 + 2^32 - 16 wraps to 10), and the
      driver would stream 4 GiB from past the buffer; the exact check, which
      the download functions above use, refuses it. */
  lemma PayloadLengthWrapCounterexample(rd: Reads, c: nat)
    ensures var f := BitFile(1, 0, [0], [0], [0], [0], TWO_32 - 16);
            var h := Header(26, TWO_32 - 16, 1, [0], [0], [0], [0]);
            && ValidFile(f) && |Encode(f)| == 26
            && Parse(Encode(f)) == Ok(h)
            && PayloadFitsAsWritten(h, 26)
            && !PayloadFits(h, 26)
            && StreamBitFile(Encode(f), rd, c).result == Fail(EINVAL)
  {
    var f := BitFile(1, 0, [0], [0], [0], [0], TWO_32 - 16);
    assert ValidFile(f);
    NamesLength([f.designName, f.partName, f.date, f.time]);
    var e := Encode(f);
    assert |e| == 26;
    var empty: seq<byte> := [];
    assert e + empty == e;
    ParseEncode(f, empty);
    assert HeaderOf(f) == Header(26, TWO_32 - 16, 1, [0], [0], [0], [0]);
    WrappedLengthFits();
  }

  /** 26 header bytes and 2^32 - 16 data bytes pass the as-written check
      against a 26-byte buffer. */
  lemma WrappedLengthFits()
    ensures PayloadFitsAsWritten(Header(26, TWO_32 - 16, 1, [0], [0], [0], [0]), 26)
  {
    var sum := 26 + (TWO_32 - 16);
    assert sum == TWO_32 + 10;
    assert sum % TWO_32 == 10;
  }

  // ---------------------------------------------------------------------
  // The clearing bitstream and the full download
  // ---------------------------------------------------------------------

  /** Outcome, state, words pushed, next read. */
  datatype Staged = Staged(result: Outcome, state: Icap, pushed: seq<u32>, next: nat)

  /** icap_download_clear_bitstream: nothing staged is a success that reads
      nothing; a staged bitstream is downloaded and then dropped whatever the
      outcome. Nothing else changes. */
  function DownloadClearBitstream(s: Icap, rd: Reads, c: nat): (r: Staged)
    ensures r.state == s.(clear := [])
    ensures |s.clear| == 0 ==> r.result == Pass && r.pushed == [] && r.next == c
    ensures |s.clear| > 0 ==> Transfer(r.result, r.pushed, r.next) == StreamBitFile(s.clear, rd, c)
  {
    if |s.clear| == 0 then Staged(Pass, s, [], c)
    else
      var t := Download(s.clear, rd, c);
      Staged(t.result, s.(clear := []), t.pushed, t.next)
  }

  /** A staged clearing bitstream is used at most once. */
  lemma ClearBitstreamUsedOnce(s: Icap, rd: Reads, c: nat, c2: nat)
    ensures var once := DownloadClearBitstream(s, rd, c).state;
            DownloadClearBitstream(once, rd, c2) == Staged(Pass, once, [], c2)
  {
  }

  /** Outcome, words of the clearing bitstream, words of the new bitstream,
      clock-wizard writes, next read. */
  datatype Steps = Steps(result: Outcome, cleared: seq<u32>, pushed: seq<u32>,
                         clockWrites: seq<ClockWrite>, next: nat)

  /** The final state and what the download did. */
  datatype HwDownload = HwDownload(state: Icap, steps: Steps)

  /** icap_download_hw: freeze the gate (a frozen gate is a BUG_ON), download
      and drop the staged clearing bitstream, stream the new one, then
      reprogram every requested clock with `force`, because the download can
      silently change them. Any failure skips the remaining steps, and the
      gate is freed on every path. */
  function DownloadHw(s: Icap, bit: seq<byte>, rd: Reads, c: nat): (r: HwDownload)
    requires WellFormed(s)
    ensures s.gateFrozen <==> r.steps.result == Fail(BugOn)
    ensures !s.gateFrozen ==> r.state == s.(clear := [])
    ensures s.gateFrozen ==> r.state == s
    ensures !s.gateFrozen ==> r.steps == DownloadSteps(s.clear, s.oclFrequency, s.clockPresent, bit, rd, c)
  {
    match FreezeGate(s)
    case Err(e) => HwDownload(s, Steps(Fail(e), [], [], [], c))
    case Ok(frozen) =>
      var steps := DownloadSteps(frozen.clear, frozen.oclFrequency, frozen.clockPresent, bit, rd, c);
      HwDownload(FreeGate(frozen.(clear := [])), steps)
  }

  /** The steps icap_download_hw takes with the gate frozen, for a staged
      clearing bitstream `clear` and the stored clock requests: the clearing
      bitstream first, then the new one, then the clocks, each only when
      everything before it succeeded. */
  function DownloadSteps(clear: seq<byte>, freqs: seq<u16>, present: seq<bool>,
                         bit: seq<byte>, rd: Reads, c: nat): (r: Steps)
    requires |freqs| == NumClocks && |present| == NumClocks
    ensures r.result != Fail(BugOn)
    ensures |clear| == 0 ==> r.cleared == []
    ensures |clear| > 0 && StreamBitFile(clear, rd, c).result.Fail? ==>
              r.result == StreamBitFile(clear, rd, c).result && r.pushed == [] && r.clockWrites == []
    ensures r.clockWrites != [] ==>
              && Parse(bit).Ok? && PayloadFits(Parse(bit).value, |bit|)
              && r.pushed == PayloadWords(bit, Parse(bit).value)
    ensures r.result == Pass ==>
              && (|clear| > 0 ==> StreamBitFile(clear, rd, c).result == Pass)
              && Parse(bit).Ok? && PayloadFits(Parse(bit).value, |bit|)
              && r.pushed == PayloadWords(bit, Parse(bit).value)
              && ProgrammedClocks(r.clockWrites) == RequestedFrom(freqs, 0)
    ensures r.result.Fail? ==> r.result.error in {EINVAL, EIO, ETIMEDOUT, EBUSY, NullDeref}
  {
    var cleared := if |clear| == 0 then Transfer(Pass, [], c) else StreamBitFile(clear, rd, c);
    if cleared.result.Fail? then Steps(cleared.result, cleared.pushed, [], [], cleared.next)
    else
      var rest := LoadAndScale(freqs, present, bit, rd, cleared.next);
      rest.(cleared := cleared.pushed)
  }

  /** Streaming the new bitstream, then the forced clock scaling; nothing of
      a clearing bitstream. */
  function LoadAndScale(freqs: seq<u16>, present: seq<bool>, bit: seq<byte>, rd: Reads, c: nat): (r: Steps)
    requires |freqs| == NumClocks && |present| == NumClocks
    ensures r.cleared == []
    ensures r.clockWrites != [] ==>
              && Parse(bit).Ok? && PayloadFits(Parse(bit).value, |bit|)
              && r.pushed == PayloadWords(bit, Parse(bit).value)
    ensures r.result == Pass ==>
              && Parse(bit).Ok? && PayloadFits(Parse(bit).value, |bit|)
              && r.pushed == PayloadWords(bit, Parse(bit).value)
              && ProgrammedClocks(r.clockWrites) == RequestedFrom(freqs, 0)
    ensures r.result.Fail? ==> r.result.error in {EINVAL, EIO, ETIMEDOUT, EBUSY, NullDeref}
  {
    var t := StreamBitFile(bit, rd, c);
    if t.result.Fail? then Steps(t.result, [], t.pushed, [], t.next)
    else
      var sc := Freqscaling(freqs, present, true, rd, t.next);
      assert sc.result.Fail? ==> ScalingError(sc.result.error);
      if sc.result == Pass then
        ForcedScalingProgramsEveryRequest(freqs, present, 0, rd, t.next);
        Steps(sc.result, [], t.pushed, sc.writes, sc.next)
      else Steps(sc.result, [], t.pushed, sc.writes, sc.next)
  }
}
